=== FILE: README.md ===
# Planner widget: the decision logic, modelled in Dafny

The system is a small desktop client for Microsoft Planner tasks. It runs over the Microsoft Graph REST API and has two generations:

- the current Qt window (`qt_app.py`, `qt_widgets.py`, `qt_workers.py`) with its API client `backend.py`;
- the older customtkinter window (`teszt.py`) with its API client `backteszt.py`.

Most of the code is widgets, HTTP and sign-in plumbing. This project models the pure decision logic spread through it, and proves what it promises:

- **Normalisation** (`Normalize`): how a raw Graph task becomes the `{id, title, status, date, priority}` record. Planner's 0..10 priority becomes a level, `percentComplete` becomes a status, and the due date-time becomes `YYYY-MM-DD` or the no-deadline text. Both clients are modelled.
- **Writes against an abstract server** (`Graph`):
  - Each update and delete reads the task's entity tag first, then writes with `If-Match`.
  - The server is a map from task id to version and fields. It applies a write only while the tag names the current version (section 13.1.1 of RFC 9110, formerly section 3.1 of RFC 7232).
  - Also modelled: the PATCH body of `update_task_details`, the POST body of `create_task`, and the id filter of the plan and bucket lists.
- **Background jobs** (`Workers`): how a job's result is normalised into `(ok, message)`, and how a fetch exception becomes an `{"error": ...}` value.
- **Dates** (`Calendar`, `DateInput`):
  - `datetime.strptime(s, "%Y-%m-%d")` modelled with the alternatives its regular expression tries.
  - The calendar with leap years, and day ordinals.
  - The two validators `validate_ymd` and `is_valid_date`, and `_parse_due` / `_parse_date` with its memo table.
- **Cards** (`Due`): overdue / within seven days / later / undated, relative to a `today` day ordinal. Also the card colours and the priority labels.
- **The task list** (`Sorting`, `TaskList`):
  - the sort key, with a stable sort over lexicographic keys;
  - the header counts;
  - pagination of finished tasks, 12 per page, with page clamping;
  - previous/next page.
- **The window** (`Window`):
  - the refresh re-entry flag;
  - holding back status messages while a banner shows;
  - plan labels and bucket choice;
  - the add-task checks;
  - what a finished fetch leads to.
- **The older window's helpers** (`Legacy`): `lighten_color`, `sort_tasks`, `_tasks_equal`, and the check in `update_ui` that skips redrawing an unchanged list.

The clock is a parameter. `today` is the day ordinal Python's `date.toordinal()` gives. Server replies are inputs: status code, body, and the tag read.

Python's string and integer behaviour is modelled where the code depends on it (`PyText`): `strip`, `lower`, `int(text, base)` with its sign, `0x` prefix and underscores, and string ordering. Integers are unbounded, as in Python.

## Model

| member | source | states |
|---|---|---|
| Normalize.PriorityToLevel | backend.py:347-354 | the level is urgent iff p ≤ 1, important iff 2 ≤ p ≤ 4, medium iff 5 ≤ p ≤ 7, low iff p ≥ 8 |
| Normalize.PriorityToLevelMonotone | backend.py:347-354 | a lower (more urgent) Planner priority never gives a less pressing level |
| Normalize.RawPriority | backend.py:377-381 | the priority read is 5 when the field is absent, `null` or not convertible by `int()`, else its integer value |
| Normalize.MissingPriorityIsMedium | backend.py:377-382 | a missing or unreadable priority always shows as medium |
| Normalize.StatusOf | backend.py:387 | the status is done iff `percentComplete` is exactly 100, otherwise in progress |
| Normalize.Prefix10 | backend.py:388 | `[:10]` keeps the first ten characters of a text, a prefix of a list, and raises on anything else |
| Normalize.DateOf | backend.py:388 | the date is the first ten characters of a truthy `dueDateTime`, otherwise the no-deadline text |
| Normalize.FormatTask | backend.py:376-390 | a task object gives the record whose five fields are the id, title, status, date and level above; a non-object raises |
| Normalize.LegacyLevel | backteszt.py:168-172 | the older mapping: high iff p ≤ 4, medium iff 5..7, low iff ≥ 8; never urgent or important |
| Normalize.LegacyLevelIsCoarsened | backteszt.py:168-172 | the older level is the current level with urgent and important merged into high |
| Normalize.LegacyRawPriority | backteszt.py:168 | an absent priority counts as 5; a value that is neither integer nor boolean makes the `<=` comparison raise |
| Normalize.FormatTaskLegacy | backteszt.py:167-179 | the older record: `t['title']` must exist, and the level comes from the older mapping; otherwise the record is as above |
| Normalize.FormatAll | backend.py:376-392 | the list succeeds iff every task formats, and is then the tasks' records in order |
| Normalize.TaskItems | backend.py:373 | the tasks iterated are the `value` list, or none when the key is absent |
| Normalize.FetchData | backend.py:357-397 | signed out gives the not-signed-in error; a non-200 reply gives the API error; after a 200 every failure is the exception branch, and so is a body that is not JSON or not an object; otherwise success iff every item formats, and then one record per item in order |
| Normalize.BodyObject | backend.py:373 | `response.json()` gives a dictionary to call `.get` on exactly when the body decodes to a JSON object, and then that object |
| Normalize.ViewModel | qt_app.py:660-668 | a record with text fields becomes the view model with those texts |
| Normalize.DueDateRoundTrip | backend.py:220-221 | a due date sent as `<date>T12:00:00Z` is listed back with the same `YYYY-MM-DD` date, which parses back to the date |
| Graph.ETagInjective | backend.py:250-255 | different versions have different tags, so a stale tag never matches |
| Graph.Apply | backend.py:254-257 | the server refuses with 412, and changes nothing, a write whose `If-Match` names another version; a matching PATCH bumps the version and changes only that task; a matching DELETE removes only that task |
| Graph.ApplyPatch | backend.py:291-299 | a PATCH changes exactly the fields it names |
| Graph.Read | backend.py:246-250 | a fresh read of a stored task returns 200 with its current tag; an unknown task gives 404 and no tag |
| Graph.CompletionStep | backend.py:245-256 | a PATCH is sent iff signed in, the read returned 200 and a non-empty tag; it carries that tag and only `percentComplete` |
| Graph.PatchAnswer | backend.py:259-261 | success iff the PATCH reply is 200 or 204, with an empty message |
| Graph.UpdateTaskCompletion | backend.py:232-263 | the PATCH is sent iff signed in, the read returned 200 and a non-empty tag, and then carries that tag and only the percentage; success iff it was sent and answered 200 or 204; the sign-in and API-error messages |
| Graph.CompleteTask | backend.py:313-314 | the PATCH is sent iff the completion guard passes, and sets `percentComplete` to 100 under the tag read; success iff it was sent and answered 200 or 204 |
| Graph.ReopenTask | backend.py:317-318 | the PATCH is sent iff the completion guard passes, and sets `percentComplete` to 0 under the tag read; success iff it was sent and answered 200 or 204 |
| Graph.DetailsPatch | backend.py:291-299 | a given title is sent as is; a due of "" or the no-deadline text clears `dueDateTime`; any other due becomes `<due>T12:00:00Z`; nothing else is sent |
| Graph.DetailsStep | backend.py:276-304 | a PATCH is sent iff the guard passes and something changes; with nothing to change the answer is success only after a good tag read |
| Graph.UpdateTaskDetails | backend.py:266-310 | the PATCH is sent iff signed in, the read returned 200 and a tag, and a title or due is given, and then carries the details body under that tag; success iff it was sent and answered 200 or 204, or nothing was to change after a good read, which answers "No changes" |
| Graph.DeleteStep | backend.py:329-338 | a DELETE is sent iff signed in, the read returned 200 and a non-empty tag, carrying that tag |
| Graph.DeleteAnswer | backend.py:339-342 | only a 204 reply counts as a successful delete |
| Graph.DeleteTaskCall | backend.py:321-344 | the DELETE is sent iff the guard passes; success iff it was sent and answered 204 |
| Graph.LegacyCompletionStep | backteszt.py:116-122 | the older update sends a PATCH after any 200 read, even without a tag |
| Graph.LegacyUpdateTaskCompletion | backteszt.py:105-126 | the older update succeeds iff the PATCH was sent and answered 200 or 204; its answer is a bare boolean |
| Graph.LegacyDeleteTask | backteszt.py:131-155 | the older delete has the same guard as the current one and succeeds only on 204 |
| Graph.Run | backend.py:245-261 | a call that answers without a request leaves the server unchanged |
| Graph.FreshReadWrites | backend.py:246-260 | with a tag just read the completion update goes through, bumps the version and changes only the percentage of that task |
| Graph.NoLostUpdate | backend.py:246-260 | two clients holding the same tag: the first write wins, the second is refused, and the first value stays |
| Graph.StaleTagRefused | backend.py:254-257 | a PATCH or DELETE carrying a stale tag is refused with 412 and changes nothing |
| Graph.CompleteIdempotent | backend.py:313-314 | completing a task twice leaves its fields as after the first completion |
| Graph.LegacyWritesWithoutTag | backteszt.py:116-123 | after a 200 read without a tag the current client refuses, while the older one overwrites the task, on a server that, like `Graph.Apply`, treats a missing `If-Match` as no precondition |
| Graph.ApplyStrict | backteszt.py:131-133 | a server that insists on `If-Match`: a PATCH to a stored task without it is refused with 428 and changes nothing; every other request is handled as by `Graph.Apply` |
| Graph.LegacyRefusedByStrictServer | backteszt.py:116-123 | on such a server the older client's untagged PATCH fails and changes nothing, while a PATCH under a freshly read tag is handled as before |
| Graph.FreshReadDeletes | backend.py:329-341 | a delete with a tag just read removes exactly that task |
| Graph.CompleteThenFetch | backend.py:313-318 | after completing, the next fetch shows the task as done; after reopening, as in progress |
| Graph.CreatePayload | backend.py:209-221 | the POST body carries the title, bucket, plan and assignee, and `dueDateTime` iff the due text is truthy, as `<due>T12:00:00Z` |
| Graph.CreateTaskCall | backend.py:198-229 | the POST is sent iff signed in and the user id is known and non-empty; success iff it was sent and answered 200 or 201 |
| Graph.CreateThenFetch | backend.py:198-229 | a task created with a form date is listed back as an in-progress, medium task with that title and date |
| Graph.KeepWithId | backend.py:171-172 | a non-object item raises; otherwise the result is the items' `{id, label}` entries whose id is truthy, in order and each as often as it occurs (the comprehension `Sorting.Filter` over the entries), and an entry is kept iff some item gives it with a truthy id |
| Graph.ListItems | backend.py:170 | the items are `value`, or none when it is absent or falsy |
| Graph.ListEntries | backend.py:160-195 | signed out and non-200 replies are errors; after a 200 a body that is not JSON or not an object is the exception branch, and the call succeeds iff `value` is iterable and all its items are objects, and then lists the entries with a truthy id, in order and with their multiplicity; a parse failure is the exception branch |
| Workers.NormalizeResult | qt_workers.py:40-44 | a pair gives `(bool(res[0]), str(res[1] or ""))`: a falsy message becomes "" and a truthy one its `str()`, a text staying itself; anything else gives `(bool(res), "")` |
| Workers.NormalizeCallRoundTrip | qt_workers.py:40-44 | normalising an `(ok, message)` pair gives it back; a bare boolean gives `(ok, "")` |
| Workers.NormalizeIdempotent | qt_workers.py:40-44 | a normalised pair normalises to itself |
| Workers.ActionResult | qt_workers.py:35-48 | an exception yields not-ok with the message `"{e}\n{traceback}"`; a return is normalised |
| Workers.FetchResult | qt_workers.py:20-25 | an exception during the fetch becomes an error value rather than propagating; a list is passed on |
| Calendar.DaysInMonth | teszt.py:308 | `calendar.monthrange` gives every month between 28 and 31 days |
| Calendar.OrdinalOrder | qt_widgets.py:53-54 | day ordinals order dates as Python compares them, and tell different dates apart |
| Calendar.Parse | qt_widgets.py:29-32 | a successful `strptime` yields a real date |
| Calendar.ParseFormat | qt_widgets.py:36-42 | a formatted date parses back to itself |
| Calendar.FormatParse | qt_widgets.py:29-33 | exactly shaped text that parses is the rendering of the date parsed |
| DateInput.ValidateYmdAsWritten | qt_widgets.py:24-33 | as written: "" is accepted without a message; any other text is accepted iff it has the dash shape and `strptime` reads it; every refusal says "Hibás dátum formátum!" |
| DateInput.ValidateYmd | qt_widgets.py:24-33 | the corrected validator: ok iff there is no message, and every refusal says "Hibás dátum formátum!" |
| DateInput.ValidateYmdAcceptsExactlyDates | qt_widgets.py:24-33 | the corrected validator accepts exactly "" and the `YYYY-MM-DD` renderings of real dates |
| DateInput.ValidateYmdAgreesOnStrictShape | qt_widgets.py:27-33 | on exactly shaped text the code as written and the corrected validator agree |
| DateInput.ValidateYmdExtraIsSpacedDay | qt_widgets.py:27-33 | the only extra text the code as written accepts has a space before a single-digit day |
| DateInput.ValidateYmdAcceptsSpacedDay | qt_widgets.py:27-33 | "2024-01- 5" passes the code as written and fails the corrected validator |
| DateInput.ParseDue | qt_widgets.py:36-42 | no date for "", for the no-deadline text and for text `strptime` rejects; otherwise the date parsed |
| DateInput.ParseDueFormat | qt_widgets.py:36-42 | a formatted date is read back by `_parse_due` |
| DateInput.RangeVerdict | teszt.py:304-313 | ok iff the month is in 1..12 and the day in 1..days of that month; a bad month says "Nem létező hónap", a bad day in a good month "Nem létező nap" |
| DateInput.IsValidDateAsWritten | teszt.py:294-313 | as written: "" is accepted; text without the dash shape, or whose parts `split` and `int()` cannot read, says "Hibás dátum formátum!"; otherwise the range checks of the parts `int()` read decide |
| DateInput.IsValidDate | teszt.py:294-313 | the corrected check: ok iff "" or an exact `YYYY-MM-DD` whose month and day exist; "" is accepted without a message; the messages for a bad shape, a bad month and a bad day |
| DateInput.IsValidDateAgreesOnStrictShape | teszt.py:297-313 | on exactly shaped text both versions agree |
| DateInput.IsValidDateAcceptsSignedMonth | teszt.py:299-303 | a month written as "+d" passes the code as written and fails the corrected check |
| DateInput.SplitIntsStrict | teszt.py:299-301 | `int()` reads the three parts of an exactly shaped text as their digits |
| DateInput.ValidatorsAgree | teszt.py:294-313 | for years from 1 on, the two corrected validators accept the same text |
| DateInput.ParseDateCached | teszt.py:282-292 | with a sound memo table the answer is what a fresh parse gives; the table stays sound and only gains the key asked |
| Due.DaysLeft | qt_widgets.py:49-54 | the day difference exists iff the due text parses, and is the due date's ordinal minus today |
| Due.Classify | qt_widgets.py:49-59 | undated iff the due text does not parse; overdue iff before today; soon iff within today..today+7; later beyond that |
| Due.ClassifyOverTime | qt_widgets.py:53-59 | as days pass a deadline only becomes more pressing |
| Due.ClassifyByDate | qt_widgets.py:53-59 | of two dated tasks the one due earlier is at least as pressing |
| Due.CardColors | qt_widgets.py:45-59 | grey for tasks not in progress, neutral for undated ones, then red for diff < 0, amber for 0..7, green above 7 |
| Due.CardColorsDetermineUrgency | qt_widgets.py:45-59 | no open card is grey, and two open cards share a colour iff they share an urgency class |
| Due.PrioLabel | qt_widgets.py:62-70 | the label by case-insensitive level, an empty priority counting as medium and anything else as "Alacsony" |
| Due.PrioLabelIgnoresCase | qt_widgets.py:63 | the label depends on the priority only up to case |
| Due.LevelLabels | qt_widgets.py:62-70 | a card with Planner priority p is labelled Sürgős for p ≤ 1, Fontos for 2..4, Közepes for 5..7 and Alacsony from 8 |
| Sorting.KeyLeTotal | qt_app.py:758 | the tuple order of the keys is total |
| Sorting.KeyLeTransitive | qt_app.py:758 | the tuple order of the keys is transitive |
| Sorting.KeyLtAt | qt_app.py:758 | keys that agree before position k are ordered by their parts at k |
| Sorting.Sort | qt_app.py:758 | sorting keeps every task, with its multiplicity |
| Sorting.SortSorted | qt_app.py:758 | the sorted list is in key order |
| Sorting.Filter | qt_app.py:760-761 | the comprehension keeps exactly the elements `p` selects: every kept element is in the input and selected, and every selected element is kept |
| Sorting.Selected | qt_app.py:760-761 | the positions of the selected elements: strictly increasing, each selected, and every selected position among them |
| Sorting.FilterInOrder | qt_app.py:760-761 | the comprehension's result is the input read at exactly the selected positions, in increasing order |
| Sorting.FilterCounts | qt_app.py:760-761 | each selected element is kept as often as it occurs in the input, and no other element occurs |
| Sorting.FilterPermutation | qt_app.py:758-761 | a comprehension over a permutation of a list selects a permutation of what it selects from the list |
| Sorting.FilterCountPermutation | qt_app.py:758-761 | sorting does not change how many tasks a comprehension selects |
| Sorting.FilterSorted | qt_app.py:758-761 | a comprehension over a sorted list is sorted |
| TaskList.SortKeyAsWritten | qt_app.py:725-756 | as written: open tasks have key part 0 and the others 1 |
| TaskList.SortKey | qt_app.py:725-756 | the corrected key (used by `TaskList.SortTasksCorrected`): open tasks by urgency class then lower-case title; finished ones by days since the deadline, undated last |
| TaskList.SortKeyAgrees | qt_app.py:725-756 | both keys agree on every task not due exactly 9999 days from today |
| TaskList.SentinelOpenTask | qt_app.py:737-747 | as written an open task due in 9999 days is grouped with the undated ones while its card is green; the corrected key puts it in the "later" group |
| TaskList.SentinelFinishedTask | qt_app.py:751-754 | as written a finished task due in 9999 days sorts with the undated ones |
| TaskList.SentinelDate | qt_app.py:737-747 | 2051-05-18 is 9999 days after 2024-01-01, so the case arises |
| TaskList.OpenBeforeOthers | qt_app.py:737-756 | under the key as written and the corrected one, every open task sorts before every task that is not open |
| TaskList.OrdinalBelowSentinel | qt_app.py:745-747 | every date Python can represent has an ordinal from 1 to that of 9999-12-31, below the undated sentinel 999999999 |
| TaskList.MorePressingFirst | qt_app.py:737-749 | under the key as written and the corrected one, an open task in a more pressing class sorts first |
| TaskList.EarlierDeadlineFirst | qt_app.py:737-749 | with the corrected key, of two open dated tasks the one due earlier sorts first |
| TaskList.FinishedLatestFirst | qt_app.py:751-756 | with the corrected key, of finished tasks a later deadline sorts first and undated ones last |
| TaskList.SentinelMisorders | qt_app.py:751-754 | a finished task due in 9999 days sorts after one due tomorrow under the key as written, and before it under the corrected key |
| TaskList.SortTasks | qt_app.py:758 | the sorted list is a permutation of the tasks, in the order of the key as written |
| TaskList.SortTasksCorrected | qt_app.py:758 | the same sort with the corrected key: a permutation of the tasks, in that key's order |
| TaskList.SortedOpenTasks | qt_app.py:758-760 | in the list sorted as written, open tasks come first, by non-decreasing urgency |
| TaskList.SortedFinishedTasksCorrected | qt_app.py:751-758 | in the list sorted with the corrected key, a finished dated task is preceded only by finished tasks due no earlier |
| TaskList.RedCardOverdue | qt_app.py:683-689 | a card is red iff its task is open and its parsed due date is before today |
| TaskList.CountPrefix | qt_app.py:683-689 | counting the next task of a list adds one to the open count iff it is open, and to the overdue count iff it is open and its due date reads as a day before today |
| TaskList.HeaderCounts | qt_app.py:677-692 | active is the number of open tasks, expired the number of open overdue tasks, and expired ≤ active |
| TaskList.MaxPages | qt_app.py:772 | `max(1, ceil(n / 12))`: at least one page, enough for n tasks, and no empty last page |
| TaskList.ClampPage | qt_app.py:773-776 | the page is pulled into 1..max_pages, and a page already in range is kept |
| TaskList.PageSlice | qt_app.py:809-811 | the shown slice has at most 12 tasks, starts at (page-1)*12, and is non-empty when there are finished tasks |
| TaskList.EveryTaskOnItsPage | qt_app.py:809-811 | the i-th finished task is the (i mod 12)-th entry of page i div 12 + 1 |
| TaskList.PageEntryPosition | qt_app.py:809-811 | the k-th entry of page p is the finished task at (p-1)*12+k, which lives on that page only |
| TaskList.Render | qt_app.py:719-819 | the open and finished lists are permutations of the open and of the finished tasks (each task as often as it occurs), in the order of the key as written; the page is clamped and the shown slice is that page |
| TaskList.MembershipSurvivesSort | qt_app.py:758 | a task is in the sorted list iff it is in the input |
| TaskList.PrevPage | qt_app.py:707-710 | the page goes back by one from page 2 on, and stays put on page 1 or below |
| TaskList.NextPage | qt_app.py:712-717 | the page goes forward by one below max_pages, counted from the finished tasks, and stays put otherwise |
| TaskList.PagingStaysInRange | qt_app.py:707-717 | from a shown page, previous and next land on pages shown without clamping, and undo each other |
| Window.StartRefresh | qt_app.py:622-634 | a no-op while refreshing; otherwise raises the flag and starts one fetch |
| Window.Fetched | qt_app.py:636-643 | a finished fetch clears the flag, and one fetch fewer is running |
| Window.BusyTimeout | qt_app.py:430-433 | the guard timer clears the flag and leaves the job running; it shows the "Timeout" warning, or holds it back while the startup banner is up, and changes nothing else in the header |
| Window.OneFetchAtATime | qt_app.py:622-643 | starting and finishing refreshes keep the flag up exactly while one fetch runs, and no fetch running otherwise |
| Window.TimeoutAllowsSecondFetch | qt_app.py:430-433 | after the guard timer fires, a new refresh starts a second fetch while the first still runs |
| Window.SetStatusGuarded | qt_app.py:440-446 | while a banner is up only the latest status is held; otherwise it is shown |
| Window.ShowCounts | qt_app.py:694-698 | the counts are kept, and shown unless a banner is up |
| Window.ShowHotkeyInfo | qt_app.py:286-296 | the startup banner gives way to the hot-key banner; held status and counts are kept |
| Window.HideHotkeyInfo | qt_app.py:298-308 | a held non-empty status is shown and cleared; else the last counts are shown |
| Window.HeldStatusShownLater | qt_app.py:298-308 | of statuses set during the banner, the latest is shown when it goes |
| Window.HeldCountsShownLater | qt_app.py:298-308 | counts taken during the banner appear when it goes |
| Window.EmptyHeldStatusStays | qt_app.py:300-305 | a held empty status is neither shown nor cleared |
| Window.FirstIdByName | qt_app.py:557-561 | the id found belongs to a bucket with the name, and one is found iff such a bucket exists |
| Window.FirstNameById | qt_app.py:537-541 | the name found belongs to a bucket with the id, and one is found iff such a bucket exists |
| Window.NameThenId | qt_app.py:535-561 | with distinct ids, the bucket found by name is found again by its id |
| Window.ChooseBucket | qt_app.py:500-570 | no bucket: none chosen, box disabled, the "Nincs bucket" warning; one: its id chosen, its label the only option, box disabled, the "Egy alap státusz" status; several: the names offered sorted case-insensitively, and the bucket chosen (with its name in the box) iff one is remembered for the plan and is still there under a non-empty name; selecting that name in the box re-enters the bucket handler, which saves the id of the first bucket with that name as the plan's default and shows "Alap státusz elmentve." (unless the name is the prompt line); otherwise no status and the defaults are kept |
| Window.IdThenName | qt_app.py:535-561 | with distinct names, the name found by a bucket's id leads back to that id |
| Window.ChooseBucketKeepsDefaults | qt_app.py:535-570 | with distinct bucket names, restoring the remembered bucket leaves the saved defaults as they were |
| Window.ChooseBucketMovesSharedDefault | qt_app.py:535-570 | when two buckets share a name and the second is remembered, the second is chosen but the default is rewritten to the first, which the next visit of the plan then chooses |
| Window.BucketChanged | qt_app.py:549-570 | without a plan or buckets nothing changes; otherwise the chosen bucket is the id of the first bucket with the name when that id is non-empty, and none otherwise; the choice is remembered for the plan and "Alap státusz elmentve." shown exactly when a bucket was chosen |
| Window.BucketRemembered | qt_app.py:500-570 | a bucket chosen by name is chosen again when the plan is selected later |
| Window.PlanTitle | qt_app.py:482 | the title shown for a plan is never empty |
| Window.TitledPlans | qt_app.py:480-482 | each plan keeps its id and gets its title |
| Window.CollectPlans | qt_app.py:476-489 | one label is added per plan with an id; every label is a key of the lookup table, and earlier keys stay |
| Window.PlanLabels | qt_app.py:471-491 | the labels the loop produced, each as often as it produced it, one per plan with an id, each a key of the lookup table, sorted case-insensitively |
| Window.LabelAfter | qt_app.py:484-488 | a plan is labelled by its title when no earlier label is that title, and otherwise by a longer text that starts with the title |
| Window.CollectLabels | qt_app.py:476-489 | the loop labels the plans with an id in order, each by its title unless an earlier label already is that title, then by the title and the first six characters of its id |
| Window.EveryPlanSelectable | qt_app.py:480-489 | when the titles differ, every plan with an id is offered under its title |
| Window.PlanLabelsCollide | qt_app.py:485-488 | three plans with one title, the last two with ids sharing their first six characters: the last two get the same label, and the middle plan is no longer in the lookup table |
| Window.AddTask | qt_app.py:572-611 | with `validate_ymd` as written: an empty title is refused first, then a bad date, each with its message; a create job is made iff the title is there, the due is "" or dash-shaped text `strptime` reads, and a plan and a bucket id are there; it carries the trimmed title, the plan, that bucket, and the trimmed due or none |
| Window.AddChecked | qt_app.py:576-611 | the checks in the window's order with their messages: title, date (the validator's message, or "Hibás dátum" when it gives none), plan, a bucket choice among several, a non-empty bucket id ("Nincs státusz kiválasztva."); a job is made iff all pass |
| Window.AddTaskCorrected | qt_app.py:572-611 | the same form with the corrected validator: a create job is made iff the title is there, the due is "" or a real `YYYY-MM-DD` date, and a plan and a bucket id are there |
| Window.AddedDueReachesServer | qt_app.py:581-608 | a due text the form accepts is dash-shaped, reads back as a date, and reaches the server unchanged as `<due>T12:00:00Z` |
| Window.AddedDueReachesServerCorrected | qt_app.py:581-608 | with the corrected validator the due sent is the rendering of a real date, which reads back as that date |
| Window.AddTaskSendsSpacedDay | qt_app.py:581-608 | "2024-01- 5" creates a task with that due text, while the corrected form refuses it |
| Window.ViewModels | qt_app.py:658-668 | one view model per record, in order |
| Window.OnFetched | qt_app.py:636-675 | an error asks to sign in when it mentions the missing sign-in, and otherwise shows "Hiba: " and the error, both as warnings; a list is shown exactly when every record converts to a view model, and what is shown is then exactly the list of view models |
| Window.SignedOutFetchAsksToSignIn | qt_app.py:646-649 | a fetch without a signed-in user ends with the request to sign in |
| Window.FetchedTasksShown | qt_app.py:654-675 | a fetched list shows its tasks one for one, in order |
| Legacy.Lightened | teszt.py:25-32 | a colour computed without raising starts with `#` and has at least seven characters; none stands for the `try` block raising |
| Legacy.LightenColorAsWritten | teszt.py:25-34 | as written: on an error the expanded, `#`-stripped text is returned |
| Legacy.LightenColor | teszt.py:25-34 | corrected: on an error the argument is returned unchanged |
| Legacy.LightenedHexColor | teszt.py:29-32 | on `#rrggbb` each channel becomes min(255, c + amount), formatted as two lower-case digits |
| Legacy.LightenHexColor | teszt.py:29-32 | with a non-negative amount the result is again `#` and six lower-case digits, whose channels are the brightened ones |
| Legacy.LightenTwice | teszt.py:31 | lightening by a and then by b brightens each channel by a + b |
| Legacy.LightenByNothing | teszt.py:29-32 | lightening a lower-case colour by 0 gives it back |
| Legacy.ShortFormExpands | teszt.py:27-28 | "#abc" is read as "#aabbcc" |
| Legacy.UnreadableColorLosesHash | teszt.py:33-34 | for an unreadable "#..." colour the code as written returns it without its `#`; the corrected one returns it unchanged |
| Legacy.UnreadableExample | teszt.py:29-34 | "#gg0000" is unreadable, and the code as written returns "gg0000" |
| Legacy.LegacySortKey | teszt.py:552-572 | open tasks have first key part 0..3, all others 4 |
| Legacy.LegacyGroupIsUrgency | teszt.py:562-569 | an open task's group is its urgency class, except that a deadline exactly 9999 days away lands in the undated group |
| Legacy.LegacyOrder | teszt.py:552-572 | open tasks sort before the others, and overdue open tasks before other open tasks |
| Legacy.LegacyOpenEarlierFirst | teszt.py:562-570 | within one group of open tasks, the one due earlier sorts first |
| Legacy.LegacyOtherKey | teszt.py:553-572 | a task that is not open has key `(4, distance, ...)`, the distance being the absolute number of days to the deadline, or 9999 without one |
| Legacy.LegacyNearerFirst | teszt.py:553-572 | among tasks that are not open, the deadline nearer to today, before or after it, sorts first |
| Legacy.LegacyEquallyNearLaterFirst | teszt.py:553-572 | among tasks that are not open with equally near deadlines, the later deadline sorts first |
| Legacy.LegacyDatedBeforeUndated | teszt.py:553-572 | among tasks that are not open, one due less than 9999 days from today sorts before one without a deadline |
| Legacy.TasksEqual | teszt.py:574-586 | comparing the lengths and then the five fields position by position decides exactly whether the two lists are equal under Python's `==`, which identifies `True` with `1` and `False` with `0` (`Normalize.Canon`); equal lists always compare equal |
| Legacy.TasksEqualIdentifiesBoolAndInt | teszt.py:578-582 | an id of `1` and one of `true` (and `0` and `false`) compare equal, `2` and `true` do not |
| Legacy.UpdateUi | teszt.py:588-613 | redraw is skipped iff a list arrives after the first load, the intro is skipped and the list equals the last one under Python's `==`; an error is shown; any other list is remembered |
| Legacy.SecondQuietRefreshSkipped | teszt.py:588-613 | a quiet refresh that brings the same list twice draws it at most once |
| PyText.StripIdempotent | qt_app.py:573-574 | stripping twice is stripping once |
| PyText.LowerIdempotent | qt_widgets.py:63 | lower-casing twice is lower-casing once |
| PyText.ParseDecimalRoundTrip | teszt.py:301 | `int(str(n)) == n` |
| PyText.ParseIntOfPlusDigits | teszt.py:301 | `int("+digits")` is the digits' value |

## Left out

- Sign-in (MSAL), the token cache, DPAPI encryption, file I/O and the defaults file: vendor libraries and I/O. "Signed in" is a boolean input, and the remembered buckets are a map.
- HTTP transport: replies are inputs (status, body text, decoded body, tag). A reply is always a status and a text: the `except Exception` branches of `create_task`, `update_task_completion`, `update_task_details` and `delete_task` (backend.py:228-229, 262-263, 309-310, 343-344, and their counterparts in backteszt.py) are not modelled, nor are timeouts and connection errors in `list_my_plans` and `list_buckets_for_plan`. Of the listing calls' exceptions, only those raised while reading the reply body are modelled (`Graph.ListException`). Exceptions are modelled for `fetch_data` and for the background jobs (`Workers.FetchResult`, `Workers.ActionResult`), without the exception texts.
- The server's tag comparison is exact text equality with the quoted version number, with `*` matching anything. `Graph.Apply` treats a missing `If-Match` as no precondition; `Graph.ApplyStrict` is a server that insists on it. Which of the two Graph is, is not settled here. Weak tags (`W/"…"`) are not modelled.
- Widgets, painting, animation, sound, threads and timers: UI and concurrency. A running job is a counter, and the timers are explicit events.
- The wall clock: `today` is a parameter. `TaskList.FinishedLatestFirst` assumes `today` is a date Python can represent.
- Unicode: `strptime`'s `\d` and `int()` are modelled for ASCII digits; `lower()` for ASCII, the Latin-1 capitals and the Hungarian Ő and Ű; `isspace()` for the common whitespace code points.
- Python's rendering of lists and dictionaries through `str()`: a record field holding one is treated as not convertible (`Normalize.ViewModel` gives none).
- Floating-point JSON numbers: not modelled. A priority or `percentComplete` is an integer, a boolean, a text, `null`, a list or an object.
- Sorting.Sort: a stable insertion sort. Stability itself is not stated.
- Window.OnFetched: the "Ismeretlen válasz" branch for a value that is neither a list nor an error dictionary is left out. Both clients' `fetch_data` return only those two.
- Legacy.LegacySortKey: takes the record as text fields (a view model), not a raw dictionary.
- Legacy.LightenColor: non-text arguments are not modelled.
- Legacy.UpdateUi: redrawing the widgets and re-enabling the refresh button are not modelled.
- `_update_header_only` of the older window: not modelled. It repeats the counting that `TaskList.HeaderCounts` states for the current window.

Where a finding below has a corrected member, the rest of the model still runs the code as written: `Window.AddTask` validates with `DateInput.ValidateYmdAsWritten`, and `TaskList.SortTasks` and `TaskList.Render` sort with `TaskList.SortKeyAsWritten`. The corrected members stand beside them: `DateInput.ValidateYmd` with `Window.AddTaskCorrected`, `DateInput.IsValidDate`, `TaskList.SortKey` with `TaskList.SortTasksCorrected`, `Legacy.LightenColor`, and `Graph.CompletionStep` for the older client's update. `lighten_color` (teszt.py:25-34) has no docstring. Its `except` returns `hex_color`, a name the function has by then rebound to the expanded, `#`-stripped text; returning the argument unchanged is taken as the intent.

## Findings

| source | as written | input that shows it | evidently intended | confidence | as-written member | corrected member |
|---|---|---|---|---|---|---|
| qt_widgets.py:27-33 | `validate_ymd` checks only the length and dash positions before `strptime`, whose day pattern also accepts a space before one digit | "2024-01- 5" is accepted, and the add-task form sends it as "2024-01- 5T12:00:00Z" | only exact `YYYY-MM-DD` renderings of real dates are accepted | not executed | DateInput.ValidateYmdAsWritten, Window.AddTask (shown by Window.AddTaskSendsSpacedDay) | DateInput.ValidateYmd, Window.AddTaskCorrected |
| teszt.py:297-303 | `is_valid_date` reads the parts with `int()`, which accepts a sign | "2024-+1-05" is accepted | each part is plain digits | not executed | DateInput.IsValidDateAsWritten | DateInput.IsValidDate |
| qt_app.py:725-756 | "no due date" is stood for by a day difference of 9999, and later tested through that difference | today 2024-01-01: an open task due 2051-05-18 is grouped as undated while its card is green; a finished task due 2051-05-18 sorts after a finished one due 2024-01-02 | undated means the due text did not parse | not executed | TaskList.SortKeyAsWritten, TaskList.SortTasks (shown by TaskList.SentinelMisorders) | TaskList.SortKey, TaskList.SortTasksCorrected |
| teszt.py:25-34 | on an error the `except` returns the expanded, `#`-stripped text | "#gg0000" returns "gg0000" | the argument is returned unchanged | not executed | Legacy.LightenColorAsWritten | Legacy.LightenColor |
| backteszt.py:116-122 | the older `update_task_completion` sends the PATCH after any 200 read, with `If-Match: None` when the reply has no tag, so `requests` drops the header | a 200 read whose body has no `@odata.etag`, on a server that accepts a PATCH without `If-Match`; a server that insists on the header refuses it instead (`Graph.LegacyRefusedByStrictServer`), as the note at backteszt.py:131-133 says Graph does | refuse without a tag, as backend.py:250-252 does | not executed; the overwrite depends on the server accepting a missing `If-Match` | Graph.LegacyCompletionStep (shown by Graph.LegacyWritesWithoutTag) | Graph.CompletionStep |

=== FILE: calendar.dfy ===
/** The proleptic Gregorian calendar as Python's `datetime.date` and `calendar` modules
    see it: valid dates, day ordinals (`date.toordinal()`), date ordering, the
    zero-padded `YYYY-MM-DD` rendering, and the `datetime.strptime(s, "%Y-%m-%d")`
    parser the client uses everywhere it reads a due date. */
module Calendar {
  import opened Wrappers
  import opened PyText

  datatype Date = Date(year: int, month: int, day: int)

  /** `calendar.isleap(y)`. */
  predicate IsLeap(y: int) {
    y % 4 == 0 && (y % 100 != 0 || y % 400 == 0)
  }

  /** `calendar.monthrange(y, m)[1]`: the number of days of month `m` of year `y`. */
  function DaysInMonth(y: int, m: int): (n: int)
    requires 1 <= m <= 12
    ensures 28 <= n <= 31
  {
    if m == 2 then (if IsLeap(y) then 29 else 28)
    else if m == 4 || m == 6 || m == 9 || m == 11 then 30
    else 31
  }

  function DaysInYear(y: int): int {
    if IsLeap(y) then 366 else 365
  }

  /** The dates `datetime.date` can represent (years 1 to 9999). */
  predicate IsValid(d: Date) {
    && 1 <= d.year <= 9999
    && 1 <= d.month <= 12
    && 1 <= d.day <= DaysInMonth(d.year, d.month)
  }

  // ---------------------------------------------------------------------------
  // Ordinals
  // ---------------------------------------------------------------------------

  /** Days of year `y` that fall before the first of month `m` (`m == 13`: the whole year). */
  function DaysBeforeMonth(y: int, m: int): nat
    requires 1 <= m <= 13
    decreases m
  {
    if m == 1 then 0 else DaysBeforeMonth(y, m - 1) + DaysInMonth(y, m - 1)
  }

  /** Days from 0001-01-01 up to the first of January of year `y`. */
  function DaysBeforeYear(y: int): int
    requires y >= 1
  {
    var p := y - 1;
    p * 365 + p / 4 - p / 100 + p / 400
  }

  /** `date.toordinal()`: 0001-01-01 is day 1. */
  function Ordinal(d: Date): int
    requires IsValid(d)
  {
    DaysBeforeYear(d.year) + DaysBeforeMonth(d.year, d.month) + d.day
  }

  /** The twelve months make up the year. */
  lemma MonthsMakeYear(y: int)
    ensures DaysBeforeMonth(y, 13) == DaysInYear(y)
  {
    assert DaysBeforeMonth(y, 3) == 31 + DaysInMonth(y, 2);
    assert DaysBeforeMonth(y, 7) == DaysBeforeMonth(y, 3) + 31 + 30 + 31 + 30;
    assert DaysBeforeMonth(y, 10) == DaysBeforeMonth(y, 7) + 31 + 31 + 30;
  }

  lemma NextYear(y: int)
    requires y >= 1
    ensures DaysBeforeYear(y + 1) == DaysBeforeYear(y) + DaysInYear(y)
  {
    var p := y - 1;
    assert y / 4 == p / 4 + (if y % 4 == 0 then 1 else 0);
    assert y / 100 == p / 100 + (if y % 100 == 0 then 1 else 0);
    assert y / 400 == p / 400 + (if y % 400 == 0 then 1 else 0);
  }

  lemma {:induction false} DaysBeforeYearMonotone(x: int, y: int)
    requires 1 <= x <= y
    ensures DaysBeforeYear(x) + (y - x) * 365 <= DaysBeforeYear(y)
    decreases y - x
  {
    if x < y {
      DaysBeforeYearMonotone(x, y - 1);
      NextYear(y - 1);
    }
  }

  lemma {:induction false} DaysBeforeMonthMonotone(y: int, m: int, n: int)
    requires 1 <= m <= n <= 13
    ensures DaysBeforeMonth(y, m) + (n - m) * 28 <= DaysBeforeMonth(y, n)
    decreases n - m
  {
    if m < n {
      DaysBeforeMonthMonotone(y, m, n - 1);
    }
  }

  /** The ordinal of a date lies inside its year's range of ordinals. */
  lemma OrdinalInYear(d: Date)
    requires IsValid(d)
    ensures DaysBeforeYear(d.year) < Ordinal(d) <= DaysBeforeYear(d.year + 1)
  {
    DaysBeforeMonthMonotone(d.year, d.month + 1, 13);
    MonthsMakeYear(d.year);
    NextYear(d.year);
  }

  /** Python's `a < b` on dates: by year, then month, then day. */
  predicate Before(a: Date, b: Date) {
    || a.year < b.year
    || (a.year == b.year && a.month < b.month)
    || (a.year == b.year && a.month == b.month && a.day < b.day)
  }

  /** Ordinals order dates exactly as Python's date comparison does, and tell
      different dates apart: subtracting ordinals is subtracting dates. */
  lemma OrdinalOrder(a: Date, b: Date)
    requires IsValid(a) && IsValid(b)
    ensures Before(a, b) <==> Ordinal(a) < Ordinal(b)
    ensures a == b <==> Ordinal(a) == Ordinal(b)
  {
    if a.year < b.year {
      OrdinalInYear(a);
      OrdinalInYear(b);
      DaysBeforeYearMonotone(a.year + 1, b.year);
    } else if b.year < a.year {
      OrdinalInYear(a);
      OrdinalInYear(b);
      DaysBeforeYearMonotone(b.year + 1, a.year);
    } else if a.month < b.month {
      DaysBeforeMonthMonotone(a.year, a.month + 1, b.month);
    } else if b.month < a.month {
      DaysBeforeMonthMonotone(a.year, b.month + 1, a.month);
    }
  }

  // ---------------------------------------------------------------------------
  // YYYY-MM-DD text
  // ---------------------------------------------------------------------------

  function Digit(c: char): (v: nat)
    requires IsDecimalDigit(c)
    ensures v < 10 && DigitChar(v) == c
  {
    (c as int - '0' as int) as nat
  }

  /** The value of the decimal digits `s[lo..hi]`. */
  function DigitsAt(s: string, lo: nat, hi: nat): nat
    requires lo <= hi <= |s|
    requires forall i :: lo <= i < hi ==> IsDecimalDigit(s[i])
    decreases hi - lo
  {
    if hi == lo then 0 else DigitsAt(s, lo, hi - 1) * 10 + Digit(s[hi - 1])
  }

  /** `n` (below 100) as two zero-padded digits, Python's `f"{n:02d}"`. */
  function TwoDigits(n: nat): (r: string)
    requires n < 100
    ensures |r| == 2 && IsDecimalDigit(r[0]) && IsDecimalDigit(r[1])
    ensures 10 * Digit(r[0]) + Digit(r[1]) == n
  {
    [DigitChar(n / 10), DigitChar(n % 10)]
  }

  /** `n` (below 10000) as four zero-padded digits, Python's `f"{n:04d}"`. */
  function FourDigits(n: nat): (r: string)
    requires n < 10000
    ensures |r| == 4 && forall i :: 0 <= i < 4 ==> IsDecimalDigit(r[i])
    ensures 10 * (10 * (10 * Digit(r[0]) + Digit(r[1])) + Digit(r[2])) + Digit(r[3]) == n
  {
    TwoDigits(n / 100) + TwoDigits(n % 100)
  }

  /** `date.strftime("%Y-%m-%d")` (equivalently `date.isoformat()`). */
  function Format(d: Date): (r: string)
    requires IsValid(d)
    ensures StrictShape(r)
  {
    FourDigits(d.year) + "-" + TwoDigits(d.month) + "-" + TwoDigits(d.day)
  }

  /** The exact `YYYY-MM-DD` shape: ten characters, dashes at 4 and 7, digits elsewhere. */
  predicate StrictShape(s: string) {
    && |s| == 10 && s[4] == '-' && s[7] == '-'
    && forall i :: 0 <= i < 10 && i != 4 && i != 7 ==> IsDecimalDigit(s[i])
  }

  // ---------------------------------------------------------------------------
  // datetime.strptime(s, "%Y-%m-%d")
  // ---------------------------------------------------------------------------

  /** What the `%m` group of `_strptime` (`1[0-2]|0[1-9]|[1-9]`) matches at `i` when the
      literal `-` that follows it matches too: the month and the position after the `-`.
      At most one alternative can be followed by `-`, so the order does not matter here. */
  function MatchMonth(s: string, i: nat): Option<(int, nat)>
  {
    if i + 2 < |s| && s[i] == '1' && '0' <= s[i + 1] <= '2' && s[i + 2] == '-' then
      Some((10 + Digit(s[i + 1]), i + 3))
    else if i + 2 < |s| && s[i] == '0' && '1' <= s[i + 1] <= '9' && s[i + 2] == '-' then
      Some((Digit(s[i + 1]), i + 3))
    else if i + 1 < |s| && '1' <= s[i] <= '9' && s[i + 1] == '-' then
      Some((Digit(s[i]), i + 2))
    else None
  }

  /** What the `%d` group (`3[0-1]|[1-2]\d|0[1-9]|[1-9]| [1-9]`) matches at `j`: the first
      alternative that matches wins, giving the day and the position after it. */
  function MatchDay(s: string, j: nat): Option<(int, nat)>
  {
    if j + 1 < |s| && s[j] == '3' && '0' <= s[j + 1] <= '1' then
      Some((30 + Digit(s[j + 1]), j + 2))
    else if j + 1 < |s| && '1' <= s[j] <= '2' && IsDecimalDigit(s[j + 1]) then
      Some((10 * Digit(s[j]) + Digit(s[j + 1]), j + 2))
    else if j + 1 < |s| && s[j] == '0' && '1' <= s[j + 1] <= '9' then
      Some((Digit(s[j + 1]), j + 2))
    else if j < |s| && '1' <= s[j] <= '9' then
      Some((Digit(s[j]), j + 1))
    else if j + 1 < |s| && s[j] == ' ' && '1' <= s[j + 1] <= '9' then
      Some((Digit(s[j + 1]), j + 2))
    else None
  }

  /** `datetime.strptime(s, "%Y-%m-%d").date()`, `None` standing for the `ValueError`:
      four digits of year, `-`, a month, `-`, a day, nothing left over, and a date that
      exists (year 0 and 31 April are rejected when the date is built). */
  function Parse(s: string): (r: Option<Date>)
    ensures r.Some? ==> IsValid(r.value)
  {
    if |s| < 5 || s[4] != '-' || !(forall i :: 0 <= i < 4 ==> IsDecimalDigit(s[i])) then None
    else
      var year := DigitsAt(s, 0, 4);
      match MatchMonth(s, 5)
      case None => None
      case Some((month, j)) =>
        match MatchDay(s, j)
        case None => None
        case Some((day, end)) =>
          if end != |s| then None
          else
            var d := Date(year, month, day);
            if IsValid(d) then Some(d) else None
  }

  /** Reading back a formatted date gives the date. */
  lemma ParseFormat(d: Date)
    requires IsValid(d)
    ensures Parse(Format(d)) == Some(d)
  {
    FormatYear(d);
    FormatMonthDay(d);
  }

  /** The year of a formatted date is read back from its first four digits. */
  lemma FormatYear(d: Date)
    requires IsValid(d)
    ensures DigitsAt(Format(d), 0, 4) == d.year
  {
    var s := Format(d);
    assert s[0..4] == FourDigits(d.year);
    FourDigitValue(s, 0);
  }

  /** The month and the day of a formatted date are matched where `strptime` looks for them. */
  lemma FormatMonthDay(d: Date)
    requires IsValid(d)
    ensures MatchMonth(Format(d), 5) == Some((d.month, 8))
    ensures MatchDay(Format(d), 8) == Some((d.day, 10))
  {
    var s := Format(d);
    assert s[5..7] == TwoDigits(d.month);
    assert s[8..10] == TwoDigits(d.day);
  }

  /** On strictly shaped text, a successful parse is undone by formatting. */
  lemma FormatParse(s: string)
    requires StrictShape(s) && Parse(s).Some?
    ensures Format(Parse(s).value) == s
  {
    var d := Parse(s).value;
    var t := Format(d);
    assert MatchMonth(s, 5) == Some((d.month, 8));
    assert MatchDay(s, 8) == Some((d.day, 10));
    assert d.year == DigitsAt(s, 0, 4);
    assert t[0..4] == FourDigits(d.year);
    assert t[5..7] == TwoDigits(d.month);
    assert t[8..10] == TwoDigits(d.day);
    SameDigits4(s, t, 0);
    SameDigits2(s, t, 5);
    SameDigits2(s, t, 8);
    assert forall i :: 0 <= i < 10 ==> s[i] == t[i];
  }

  /** Two digit pairs with the same value are the same text. */
  lemma SameDigits2(s: string, t: string, lo: nat)
    requires lo + 2 <= |s| && lo + 2 <= |t|
    requires forall i :: lo <= i < lo + 2 ==> IsDecimalDigit(s[i]) && IsDecimalDigit(t[i])
    requires 10 * Digit(s[lo]) + Digit(s[lo + 1]) == 10 * Digit(t[lo]) + Digit(t[lo + 1])
    ensures s[lo] == t[lo] && s[lo + 1] == t[lo + 1]
  {
    assert Digit(s[lo]) == Digit(t[lo]);
    assert DigitChar(Digit(s[lo])) == s[lo];
    assert DigitChar(Digit(t[lo])) == t[lo];
    assert DigitChar(Digit(s[lo + 1])) == s[lo + 1];
    assert DigitChar(Digit(t[lo + 1])) == t[lo + 1];
  }

  lemma FourDigitValue(s: string, lo: nat)
    requires lo + 4 <= |s|
    requires forall i :: lo <= i < lo + 4 ==> IsDecimalDigit(s[i])
    ensures DigitsAt(s, lo, lo + 4)
      == 100 * (10 * Digit(s[lo]) + Digit(s[lo + 1])) + (10 * Digit(s[lo + 2]) + Digit(s[lo + 3]))
  {
    assert DigitsAt(s, lo, lo + 1) == Digit(s[lo]);
    assert DigitsAt(s, lo, lo + 2) == 10 * Digit(s[lo]) + Digit(s[lo + 1]);
    assert DigitsAt(s, lo, lo + 3) == 10 * DigitsAt(s, lo, lo + 2) + Digit(s[lo + 2]);
  }

  /** Two runs of four digits with the same value are the same text. */
  lemma SameDigits4(s: string, t: string, lo: nat)
    requires lo + 4 <= |s| && lo + 4 <= |t|
    requires forall i :: lo <= i < lo + 4 ==> IsDecimalDigit(s[i]) && IsDecimalDigit(t[i])
    requires DigitsAt(s, lo, lo + 4) == DigitsAt(t, lo, lo + 4)
    ensures forall i :: lo <= i < lo + 4 ==> s[i] == t[i]
  {
    var a := 10 * Digit(s[lo]) + Digit(s[lo + 1]);
    var b := 10 * Digit(t[lo]) + Digit(t[lo + 1]);
    var c := 10 * Digit(s[lo + 2]) + Digit(s[lo + 3]);
    var e := 10 * Digit(t[lo + 2]) + Digit(t[lo + 3]);
    FourDigitValue(s, lo);
    FourDigitValue(t, lo);
    assert a == b && c == e;
    SameDigits2(s, t, lo);
    SameDigits2(s, t, lo + 2);
  }
}

=== FILE: dateinput.dfy ===
/** Reading due dates typed by the user or received from the server:
    `validate_ymd` and `_parse_due` of the Qt window (qt_widgets.py) and
    `is_valid_date` and the memoising `_parse_date` of the older window (teszt.py). */
module DateInput {
  import opened Wrappers
  import opened PyText
  import opened Calendar
  import opened Tasks

  const FORMAT_ERROR: string := "Hibás dátum formátum!"
  const NO_SUCH_MONTH: string := "Nem létező hónap"
  const NO_SUCH_DAY: string := "Nem létező nap"

  /** The `(ok, message)` pair the validators return; the message is `None` when `ok`. */
  datatype Verdict = Verdict(ok: bool, message: Option<string>)

  /** The only shape check both validators make before parsing: ten characters with
      dashes at positions 4 and 7. */
  predicate DashShape(s: string) {
    |s| == 10 && s[4] == '-' && s[7] == '-'
  }

  // ---------------------------------------------------------------------------
  // validate_ymd (qt_widgets.py)
  // ---------------------------------------------------------------------------

  /** `validate_ymd` as written: the shape check, then `datetime.strptime`.  Because
      `strptime`'s day field also accepts a space followed by a digit, this lets
      `"2024-01- 5"` through (see `ValidateYmdAcceptsSpacedDay`). */
  function ValidateYmdAsWritten(d: string): (v: Verdict)
    ensures v.ok <==> v.message.None?
    ensures !v.ok ==> v.message == Some(FORMAT_ERROR)
    ensures d == "" ==> v == Verdict(true, None)
    ensures v.ok <==> d == "" || (DashShape(d) && Parse(d).Some?)
  {
    if d == "" then Verdict(true, None)
    else if !DashShape(d) then Verdict(false, Some(FORMAT_ERROR))
    else if Parse(d).None? then Verdict(false, Some(FORMAT_ERROR))
    else Verdict(true, None)
  }

  /** `validate_ymd` with the evident intent: an empty entry, or exactly `YYYY-MM-DD`
      naming a real date.  Used by the add-task form of this model. */
  function ValidateYmd(d: string): (v: Verdict)
    ensures v.ok <==> v.message.None?
    ensures !v.ok ==> v.message == Some(FORMAT_ERROR)
  {
    if d == "" then Verdict(true, None)
    else if !StrictShape(d) || Parse(d).None? then Verdict(false, Some(FORMAT_ERROR))
    else Verdict(true, None)
  }

  /** The corrected validator accepts the empty entry and exactly the renderings of real
      dates. */
  lemma ValidateYmdAcceptsExactlyDates(d: string)
    ensures ValidateYmd(d).ok <==> d == "" || exists date :: IsValid(date) && Format(date) == d
  {
    if d != "" {
      if ValidateYmd(d).ok {
        FormatParse(d);
        var date := Parse(d).value;
        assert IsValid(date) && Format(date) == d;
      } else {
        forall date | IsValid(date) && Format(date) == d
          ensures false
        {
          ParseFormat(date);
        }
      }
    }
  }

  /** Where the shape is exact, the code as written and the corrected validator agree. */
  lemma ValidateYmdAgreesOnStrictShape(d: string)
    requires StrictShape(d)
    ensures ValidateYmdAsWritten(d) == ValidateYmd(d)
  {
  }

  /** The one kind of text the code as written accepts beyond real `YYYY-MM-DD` dates: a
      day written as a space and a digit. */
  lemma ValidateYmdExtraIsSpacedDay(d: string)
    requires ValidateYmdAsWritten(d).ok && !ValidateYmd(d).ok
    ensures |d| == 10 && d[8] == ' ' && '1' <= d[9] <= '9'
  {
    assert DashShape(d) && Parse(d).Some?;
    assert forall i :: 0 <= i < 4 ==> IsDecimalDigit(d[i]);
    var m := MatchMonth(d, 5);
    assert m.Some? && m.value.1 == 8;
    assert IsDecimalDigit(d[5]) && IsDecimalDigit(d[6]);
    MatchDayAtEnd(d);
  }

  /** A day field that runs to the end of a ten-character text is two digits or a space
      and a digit. */
  lemma MatchDayAtEnd(s: string)
    requires |s| == 10 && MatchDay(s, 8).Some? && MatchDay(s, 8).value.1 == 10
    ensures (IsDecimalDigit(s[8]) && IsDecimalDigit(s[9])) || (s[8] == ' ' && '1' <= s[9] <= '9')
  {
  }

  /** The discrepancy, concretely: a space-padded day passes the code as written and is
      then sent to the server as `"2024-01- 5T12:00:00Z"`. */
  lemma ValidateYmdAcceptsSpacedDay()
    ensures ValidateYmdAsWritten("2024-01- 5").ok
    ensures !ValidateYmd("2024-01- 5").ok
  {
    var s := "2024-01- 5";
    assert DigitsAt(s, 0, 4) == 2024 by {
      assert DigitsAt(s, 0, 1) == 2;
      assert DigitsAt(s, 0, 2) == 20;
      assert DigitsAt(s, 0, 3) == 202;
    }
    assert MatchMonth(s, 5) == Some((1, 8));
    assert MatchDay(s, 8) == Some((5, 10));
    assert Parse(s) == Some(Date(2024, 1, 5));
    assert !IsDecimalDigit(s[8]);
  }

  // ---------------------------------------------------------------------------
  // _parse_due (qt_widgets.py)
  // ---------------------------------------------------------------------------

  /** `_parse_due`: no date for the empty text, for the no-deadline text, and for text
      `strptime` rejects. */
  function ParseDue(due: string): (r: Option<Date>)
    ensures r.Some? ==> IsValid(r.value) && due != "" && due != NO_DEADLINE
    ensures r.Some? <==> Parse(due).Some? && due != "" && due != NO_DEADLINE
  {
    if due == "" || due == NO_DEADLINE then None else Parse(due)
  }

  /** A formatted date always reads back. */
  lemma ParseDueFormat(d: Date)
    requires IsValid(d)
    ensures ParseDue(Format(d)) == Some(d)
  {
    ParseFormat(d);
    assert Format(d) != NO_DEADLINE by {
      assert IsDecimalDigit(Format(d)[0]);
    }
  }

  // ---------------------------------------------------------------------------
  // is_valid_date (teszt.py)
  // ---------------------------------------------------------------------------

  /** No dash other than the two at positions 4 and 7, so `split("-")` gives three parts. */
  predicate ThreeParts(s: string)
    requires DashShape(s)
  {
    forall i :: 0 <= i < 10 && i != 4 && i != 7 ==> s[i] != '-'
  }

  /** The month/day range checks shared by both versions of `is_valid_date`;
      `calendar.monthrange` accepts any year from Python 3.8 on. */
  function RangeVerdict(year: int, month: int, day: int): (v: Verdict)
    ensures v.ok <==> v.message.None?
    ensures v.ok <==> 1 <= month <= 12 && 1 <= day <= DaysInMonth(year, month)
    ensures !(1 <= month <= 12) ==> v.message == Some(NO_SUCH_MONTH)
    ensures 1 <= month <= 12 && !(1 <= day <= DaysInMonth(year, month)) ==> v.message == Some(NO_SUCH_DAY)
  {
    if month < 1 || month > 12 then Verdict(false, Some(NO_SUCH_MONTH))
    else if day < 1 || day > DaysInMonth(year, month) then Verdict(false, Some(NO_SUCH_DAY))
    else Verdict(true, None)
  }

  /** `year, month, day = map(int, s.split("-"))` on a text of the dash shape. */
  function SplitInts(s: string): Option<(int, int, int)>
    requires DashShape(s)
  {
    if !ThreeParts(s) then None
    else
      match (ParseInt(s[0..4], 10), ParseInt(s[5..7], 10), ParseInt(s[8..10], 10))
      case (Some(year), Some(month), Some(day)) => Some((year, month, day))
      case _ => None
  }

  /** `is_valid_date` as written: after the shape check the three parts go through Python's
      `int()`, which also takes signs, surrounding blanks and underscores. */
  function IsValidDateAsWritten(s: string): (v: Verdict)
    ensures v.ok <==> v.message.None?
    ensures s == "" ==> v == Verdict(true, None)
    ensures s != "" && !DashShape(s) ==> v.message == Some(FORMAT_ERROR)
    ensures DashShape(s) && SplitInts(s).None? ==> v.message == Some(FORMAT_ERROR)
    ensures DashShape(s) && SplitInts(s).Some? ==>
      v == RangeVerdict(SplitInts(s).value.0, SplitInts(s).value.1, SplitInts(s).value.2)
  {
    if s == "" then Verdict(true, None)
    else if !DashShape(s) then Verdict(false, Some(FORMAT_ERROR))
    else
      match SplitInts(s)
      case Some((year, month, day)) => RangeVerdict(year, month, day)
      case None => Verdict(false, Some(FORMAT_ERROR))
  }

  /** `is_valid_date` with the evident intent: exactly `YYYY-MM-DD`, then the range checks. */
  function IsValidDate(s: string): (v: Verdict)
    ensures v.ok <==> v.message.None?
    ensures v.ok <==> (s == "" || (StrictShape(s) && 1 <= DigitsAt(s, 5, 7) <= 12
      && 1 <= DigitsAt(s, 8, 10) <= DaysInMonth(DigitsAt(s, 0, 4), DigitsAt(s, 5, 7))))
    ensures s == "" ==> v == Verdict(true, None)
    ensures s != "" && !StrictShape(s) ==> v.message == Some(FORMAT_ERROR)
    ensures StrictShape(s) && !(1 <= DigitsAt(s, 5, 7) <= 12) ==> v.message == Some(NO_SUCH_MONTH)
    ensures (StrictShape(s) && 1 <= DigitsAt(s, 5, 7) <= 12
             && !(1 <= DigitsAt(s, 8, 10) <= DaysInMonth(DigitsAt(s, 0, 4), DigitsAt(s, 5, 7))))
      ==> v.message == Some(NO_SUCH_DAY)
  {
    if s == "" then Verdict(true, None)
    else if !StrictShape(s) then Verdict(false, Some(FORMAT_ERROR))
    else RangeVerdict(DigitsAt(s, 0, 4), DigitsAt(s, 5, 7), DigitsAt(s, 8, 10))
  }

  /** `int()` of a run of plain digits is their value. */
  lemma ParseIntOfDigitRun(s: string, lo: nat, hi: nat)
    requires lo < hi <= |s|
    requires forall i :: lo <= i < hi ==> IsDecimalDigit(s[i])
    ensures ParseInt(s[lo..hi], 10) == Some(DigitsAt(s, lo, hi))
  {
    var t := s[lo..hi];
    StripOfDigits(t);
    ParseIntOfDigits(t);
    DigitsValueRun(s, lo, hi);
  }

  lemma {:induction false} DigitsValueRun(s: string, lo: nat, hi: nat)
    requires lo <= hi <= |s|
    requires forall i :: lo <= i < hi ==> IsDecimalDigit(s[i])
    ensures DigitsValue(s[lo..hi], 10) == DigitsAt(s, lo, hi)
    decreases hi - lo
  {
    if lo < hi {
      DigitsValueRun(s, lo, hi - 1);
      assert s[lo..hi][..hi - lo - 1] == s[lo..hi - 1];
    }
  }

  /** On exactly shaped text, `int()` reads the three parts as their digits. */
  lemma SplitIntsStrict(s: string)
    requires StrictShape(s)
    ensures SplitInts(s) == Some((DigitsAt(s, 0, 4), DigitsAt(s, 5, 7), DigitsAt(s, 8, 10)))
  {
    assert ThreeParts(s);
    ParseIntOfDigitRun(s, 0, 4);
    ParseIntOfDigitRun(s, 5, 7);
    ParseIntOfDigitRun(s, 8, 10);
  }

  /** Where the shape is exact, the code as written and the corrected validator agree. */
  lemma IsValidDateAgreesOnStrictShape(s: string)
    requires StrictShape(s)
    ensures IsValidDateAsWritten(s) == IsValidDate(s)
  {
    SplitIntsStrict(s);
  }

  /** `int("+d") == d` for a digit `d`. */
  lemma ParseIntSignedDigit(t: string)
    requires |t| == 2 && t[0] == '+' && IsDecimalDigit(t[1])
    ensures ParseInt(t, 10) == Some(Digit(t[1]))
  {
    SingleDigit(t[1..]);
    ParseIntOfPlusDigits(t);
  }

  lemma SingleDigit(u: string)
    requires |u| == 1 && IsDecimalDigit(u[0])
    ensures WellFormedDigits(u, 10) && DigitsValue(u, 10) == Digit(u[0])
  {
    assert u[..0] == [];
  }

  /** The discrepancy: a month written as a plus sign and a digit passes the code as written
      (for instance `"2024-+1-05"`), while the corrected validator rejects it. */
  lemma IsValidDateAcceptsSignedMonth(s: string)
    requires DashShape(s) && s[5] == '+' && '1' <= s[6] <= '9'
    requires forall i :: (0 <= i < 4 || 8 <= i < 10) ==> IsDecimalDigit(s[i])
    requires 1 <= DigitsAt(s, 8, 10) <= 28
    ensures IsValidDateAsWritten(s).ok
    ensures !IsValidDate(s).ok
  {
    assert IsValidDateAsWritten(s).ok by {
      var year, month, day := DigitsAt(s, 0, 4), Digit(s[6]), DigitsAt(s, 8, 10);
      SplitSignedMonth(s);
      AsWrittenOfSplit(s, year, month, day);
      assert DaysInMonth(year, month) >= 28;
    }
    assert !IsValidDate(s).ok by {
      assert !IsDecimalDigit(s[5]);
    }
  }

  /** Once `split` and `int()` succeed, only the range checks remain. */
  lemma AsWrittenOfSplit(s: string, year: int, month: int, day: int)
    requires DashShape(s) && SplitInts(s) == Some((year, month, day))
    ensures IsValidDateAsWritten(s) == RangeVerdict(year, month, day)
  {
  }

  lemma SplitSignedMonth(s: string)
    requires DashShape(s) && s[5] == '+' && '1' <= s[6] <= '9'
    requires forall i :: (0 <= i < 4 || 8 <= i < 10) ==> IsDecimalDigit(s[i])
    ensures SplitInts(s) == Some((DigitsAt(s, 0, 4), Digit(s[6]), DigitsAt(s, 8, 10)))
  {
    assert ThreeParts(s);
    assert ParseInt(s[5..7], 10) == Some(Digit(s[6])) by {
      ParseIntSignedDigit(s[5..7]);
    }
    ParseIntOfDigitRun(s, 0, 4);
    ParseIntOfDigitRun(s, 8, 10);
  }

  /** On exactly shaped text `strptime` yields the date the digits spell, if it exists. */
  lemma ParseStrict(s: string)
    requires StrictShape(s)
    ensures var d := Date(DigitsAt(s, 0, 4), DigitsAt(s, 5, 7), DigitsAt(s, 8, 10));
      Parse(s) == if IsValid(d) then Some(d) else None
  {
    assert DigitsAt(s, 5, 7) == 10 * Digit(s[5]) + Digit(s[6]) by {
      assert DigitsAt(s, 5, 6) == Digit(s[5]);
    }
    assert DigitsAt(s, 8, 10) == 10 * Digit(s[8]) + Digit(s[9]) by {
      assert DigitsAt(s, 8, 9) == Digit(s[8]);
    }
  }

  /** The two corrected validators accept the same entries (years from 1 on; the older one
      also takes year 0000, which Python's `calendar` treats as a leap year). */
  lemma ValidatorsAgree(s: string)
    requires s != "" && StrictShape(s) ==> DigitsAt(s, 0, 4) >= 1
    ensures IsValidDate(s).ok <==> ValidateYmd(s).ok
  {
    if s != "" && StrictShape(s) {
      ParseStrict(s);
    }
  }

  // ---------------------------------------------------------------------------
  // _parse_date with its memo table (teszt.py)
  // ---------------------------------------------------------------------------

  /** Every remembered entry is what parsing its key gives. */
  ghost predicate CacheSound(cache: map<string, Date>) {
    forall k :: k in cache ==> ParseDue(k) == Some(cache[k])
  }

  /** `_parse_date`: the no-date texts first, then the memo table, then a fresh parse that
      is remembered when it succeeds.  Returns the date and the updated table. */
  function ParseDateCached(cache: map<string, Date>, s: string): (r: (Option<Date>, map<string, Date>))
    ensures CacheSound(cache) ==> r.0 == ParseDue(s) && CacheSound(r.1)
    ensures cache.Keys <= r.1.Keys && r.1.Keys <= cache.Keys + {s}
    ensures forall k :: k in cache ==> r.1[k] == cache[k]
  {
    if s == "" || s == NO_DEADLINE then (None, cache)
    else if s in cache then (Some(cache[s]), cache)
    else
      match Parse(s)
      case Some(d) => (Some(d), cache[s := d])
      case None => (None, cache)
  }
}

=== FILE: due.dfy ===
/** How a task card shows its deadline and priority (`_card_colors` and
    `_prio_label_color` of qt_widgets.py).  The clock is the `today` parameter, a day
    ordinal as `date.toordinal()` gives it. */
module Due {
  import opened Wrappers
  import opened PyText
  import opened Calendar
  import opened Tasks
  import opened Normalize
  import opened DateInput

  /** Where an open task's deadline stands relative to today. */
  datatype Urgency = Overdue | Soon | Later | Undated

  /** `(due - today).days` for a due text that parses. */
  function DaysLeft(due: string, today: int): (diff: Option<int>)
    ensures diff.Some? <==> ParseDue(due).Some?
    ensures diff.Some? ==> diff.value + today == Ordinal(ParseDue(due).value)
  {
    match ParseDue(due)
    case Some(d) => Some(Ordinal(d) - today)
    case None => None
  }

  /** Overdue before today, soon within the next seven days (today included), later
      after that; a due text that does not parse counts as no deadline. */
  function Classify(due: string, today: int): (u: Urgency)
    ensures u == Undated <==> ParseDue(due).None?
    ensures u == Overdue <==> ParseDue(due).Some? && Ordinal(ParseDue(due).value) < today
    ensures u == Soon <==> ParseDue(due).Some? && today <= Ordinal(ParseDue(due).value) <= today + 7
    ensures u == Later <==> ParseDue(due).Some? && Ordinal(ParseDue(due).value) > today + 7
  {
    match DaysLeft(due, today)
    case None => Undated
    case Some(diff) => if diff < 0 then Overdue else if diff <= 7 then Soon else Later
  }

  /** 0 for the most pressing. */
  function UrgencyRank(u: Urgency): nat {
    match u
    case Overdue => 0
    case Soon => 1
    case Later => 2
    case Undated => 3
  }

  /** As the days pass a deadline only gets more pressing. */
  lemma ClassifyOverTime(due: string, today: int, later: int)
    requires today <= later
    ensures UrgencyRank(Classify(due, later)) <= UrgencyRank(Classify(due, today))
  {
  }

  /** Of two dated tasks the one due earlier is at least as pressing. */
  lemma ClassifyByDate(a: string, b: string, today: int)
    requires ParseDue(a).Some? && ParseDue(b).Some?
    requires !Before(ParseDue(b).value, ParseDue(a).value)
    ensures UrgencyRank(Classify(a, today)) <= UrgencyRank(Classify(b, today))
  {
    OrdinalOrder(ParseDue(b).value, ParseDue(a).value);
  }

  const GREY: (string, string) := ("#1A1A1A", "#2b2b2b")
  const NEUTRAL: (string, string) := ("#2b3542", "#404040")
  const RED: (string, string) := ("#860000", "#6D0000")
  const AMBER: (string, string) := ("#836900", "#554400")
  const GREEN: (string, string) := ("#008300", "#005500")

  /** The background and border colours of an open task's card. */
  function Palette(u: Urgency): (string, string) {
    match u
    case Overdue => RED
    case Soon => AMBER
    case Later => GREEN
    case Undated => NEUTRAL
  }

  /** `_card_colors`: grey for anything not open, otherwise by urgency. */
  function CardColors(t: Task, today: int): (c: (string, string))
    ensures !IsActive(t) ==> c == GREY
    ensures IsActive(t) && ParseDue(t.due).None? ==> c == NEUTRAL
    ensures IsActive(t) && ParseDue(t.due).Some? ==>
      var diff := Ordinal(ParseDue(t.due).value) - today;
      && (diff < 0 ==> c == RED)
      && (0 <= diff <= 7 ==> c == AMBER)
      && (diff > 7 ==> c == GREEN)
  {
    if !IsActive(t) then GREY else Palette(Classify(t.due, today))
  }

  /** The colours tell the classes apart: an open card's colour determines its urgency,
      and no open card is grey. */
  lemma CardColorsDetermineUrgency(t: Task, s: Task, today: int)
    requires IsActive(t) && IsActive(s)
    ensures CardColors(t, today) != GREY
    ensures CardColors(t, today) == CardColors(s, today) <==> Classify(t.due, today) == Classify(s.due, today)
  {
  }

  // ---------------------------------------------------------------------------
  // _prio_label_color
  // ---------------------------------------------------------------------------

  /** `_prio_label_color`: the label and colour of a priority, matched case-insensitively,
      an empty priority counting as medium and anything unknown as low. */
  function PrioLabel(priority: string): (r: (string, string))
    ensures var p := Lower(if priority == "" then MEDIUM else priority);
      && (p == URGENT ==> r == ("Sürgős", "#FF5555"))
      && (p == IMPORTANT ==> r == ("Fontos", "#FF5555"))
      && (p == MEDIUM ==> r == ("Közepes", "#FFB86B"))
      && (p != URGENT && p != IMPORTANT && p != MEDIUM ==> r == ("Alacsony", "#55AAFF"))
  {
    var p := Lower(if priority == "" then MEDIUM else priority);
    if p == URGENT then ("Sürgős", "#FF5555")
    else if p == IMPORTANT then ("Fontos", "#FF5555")
    else if p == MEDIUM then ("Közepes", "#FFB86B")
    else ("Alacsony", "#55AAFF")
  }

  /** The label depends on the priority only up to case. */
  lemma PrioLabelIgnoresCase(priority: string)
    ensures PrioLabel(Lower(priority)) == PrioLabel(priority)
  {
    LowerIdempotent(priority);
    if priority == "" {
      assert Lower(priority) == "";
    } else {
      assert Lower(priority) != "" by {
        assert |Lower(priority)| == |priority|;
      }
    }
  }

  lemma LowerOfLevels()
    ensures Lower(URGENT) == URGENT && Lower(IMPORTANT) == IMPORTANT
    ensures Lower(MEDIUM) == MEDIUM && Lower(LOW) == LOW
  {
  }

  /** Every level the API client produces gets its own label: urgent, important, medium
      and low read "Sürgős", "Fontos", "Közepes" and "Alacsony". */
  lemma LevelLabels(p: int)
    ensures PrioLabel(PriorityToLevel(p)).0 ==
      (if p <= 1 then "Sürgős" else if p <= 4 then "Fontos" else if p <= 7 then "Közepes" else "Alacsony")
  {
    LowerOfLevels();
  }
}

=== FILE: graph.dfy ===
/** The write side of the API client (backend.py and the older backteszt.py) against an
    abstract Planner server.  Every update and delete first reads the task to learn its
    entity tag, then sends the write with an `If-Match` header carrying that tag; the
    server applies the write only while the tag still names the task's current version
    (section 13.1.1 of RFC 9110, formerly section 3.1 of RFC 7232).  The client's
    answer is the `(ok, message)` pair the window shows. */
module Graph {
  import opened Wrappers
  import opened PyText
  import opened Calendar
  import opened Tasks
  import opened Normalize
  import opened Sorting

  // ---------------------------------------------------------------------------
  // The abstract server
  // ---------------------------------------------------------------------------

  /** The fields of a Planner task the client reads or writes. */
  datatype Fields = Fields(title: string, percent: int, due: Option<string>, priority: int,
                           planId: string, bucketId: string)

  /** A stored task and the version its entity tag names. */
  datatype Stored = Stored(version: nat, fields: Fields)

  type Server = map<string, Stored>

  /** The entity tag of a version: the version number, quoted. */
  function ETag(version: nat): (tag: string)
    ensures |tag| >= 3 && tag[0] == '"' && tag[|tag| - 1] == '"'
  {
    "\"" + Decimal(version) + "\""
  }

  /** Different versions have different tags, so a tag read earlier stops matching as
      soon as the task changes. */
  lemma ETagInjective(a: nat, b: nat)
    requires ETag(a) == ETag(b)
    ensures a == b
  {
    var da, db := Decimal(a), Decimal(b);
    assert da == ETag(a)[1..|ETag(a)| - 1];
    assert db == ETag(b)[1..|ETag(b)| - 1];
    DecimalInjective(a, b);
  }

  /** The `If-Match` precondition: no header means no precondition, `*` matches any
      current task, and a tag matches when it is the task's current tag. */
  predicate Matches(ifMatch: Option<string>, st: Stored) {
    match ifMatch
    case None => true
    case Some(tag) => tag == "*" || tag == ETag(st.version)
  }

  /** The changes a PATCH body asks for; `due == Some(None)` sends `"dueDateTime": null`. */
  datatype Patch = Patch(percent: Option<int>, title: Option<string>, due: Option<Option<string>>)

  predicate IsEmpty(p: Patch) {
    p.percent.None? && p.title.None? && p.due.None?
  }

  /** The POST body of `create_task`; `due` is absent when the form had no date. */
  datatype NewTask = NewTask(planId: string, bucketId: string, title: string, assignee: string,
                             due: Option<string>)

  datatype Request =
    | PatchTask(id: string, ifMatch: Option<string>, patch: Patch)
    | DeleteTask(id: string, tag: string)
    | CreateTask(task: NewTask)

  /** The status code and body text of a reply. */
  datatype Reply = Reply(status: int, text: string)

  function ApplyPatch(f: Fields, p: Patch): (g: Fields)
    ensures p.percent.Some? ==> g.percent == p.percent.value
    ensures p.percent.None? ==> g.percent == f.percent
    ensures p.title.Some? ==> g.title == p.title.value
    ensures p.title.None? ==> g.title == f.title
    ensures p.due.Some? ==> g.due == p.due.value
    ensures p.due.None? ==> g.due == f.due
    ensures g.priority == f.priority && g.planId == f.planId && g.bucketId == f.bucketId
  {
    Fields(p.title.GetOr(f.title), p.percent.GetOr(f.percent), p.due.GetOr(f.due), f.priority,
           f.planId, f.bucketId)
  }

  /** What the server does with a write: 404 for an unknown task, 412 (and no change)
      when the precondition fails, otherwise the write is applied and the task's version
      advances.  `newId` is the id the server gives a created task. */
  function Apply(server: Server, req: Request, newId: string): (r: (Server, Reply))
    requires newId !in server
    ensures r.1.status == 412 ==> r.0 == server
    ensures req.PatchTask? && req.id in server && !Matches(req.ifMatch, server[req.id]) ==>
      r.0 == server && r.1.status == 412
    ensures req.DeleteTask? && req.id in server && !Matches(Some(req.tag), server[req.id]) ==>
      r.0 == server && r.1.status == 412
    ensures req.PatchTask? && req.id in server && Matches(req.ifMatch, server[req.id]) ==>
      && r.1.status == 200 && r.0.Keys == server.Keys
      && r.0[req.id] == Stored(server[req.id].version + 1, ApplyPatch(server[req.id].fields, req.patch))
      && forall k :: k in server && k != req.id ==> r.0[k] == server[k]
    ensures req.DeleteTask? && req.id in server && Matches(Some(req.tag), server[req.id]) ==>
      r.1.status == 204 && r.0 == server - {req.id}
  {
    match req
    case PatchTask(id, ifMatch, patch) =>
      if id !in server then (server, Reply(404, ""))
      else if !Matches(ifMatch, server[id]) then (server, Reply(412, ""))
      else
        var st := server[id];
        (server[id := Stored(st.version + 1, ApplyPatch(st.fields, patch))], Reply(200, ""))
    case DeleteTask(id, tag) =>
      if id !in server then (server, Reply(404, ""))
      else if !Matches(Some(tag), server[id]) then (server, Reply(412, ""))
      else (server - {id}, Reply(204, ""))
    case CreateTask(t) =>
      (server[newId := Stored(0, Fields(t.title, 0, t.due, 5, t.planId, t.bucketId))], Reply(201, ""))
  }

  // ---------------------------------------------------------------------------
  // The ETag read
  // ---------------------------------------------------------------------------

  /** The answer to `GET /planner/tasks/{id}` reduced to what the guard looks at: the
      status, the body text and the `@odata.etag` value (`None` when absent or `null`). */
  datatype EtagRead = EtagRead(status: int, text: string, etag: Option<string>)

  /** What an up-to-date read of the server returns. */
  function Read(server: Server, id: string): (r: EtagRead)
    ensures id in server ==> r == EtagRead(200, "", Some(ETag(server[id].version)))
    ensures id !in server ==> r.status == 404 && r.etag.None?
  {
    if id in server then EtagRead(200, "", Some(ETag(server[id].version)))
    else EtagRead(404, "", None)
  }

  /** `if not etag`: a missing, `null` or empty tag. */
  predicate HasEtag(read: EtagRead) {
    read.etag.Some? && read.etag.value != ""
  }

  /** What one client call does: answer at once, or send a request and answer from the
      reply. */
  datatype Step = Answer(ok: bool, message: string) | Send(request: Request)

  /** The `(ok, message)` pair and the request actually sent, if any. */
  datatype Call = Call(ok: bool, message: string, sent: Option<Request>)

  const NOT_LOGGED_IN: string := "Nincs bejelentkezve"

  function Show(status: int, text: string): string {
    IntToString(status) + " - " + text
  }

  // ---------------------------------------------------------------------------
  // update_task_completion, complete_task, reopen_task (backend.py)
  // ---------------------------------------------------------------------------

  /** The guard of `update_task_completion`: no PATCH unless logged in, the read
      returned 200, and it carried a tag; the PATCH is conditional on that tag. */
  function CompletionStep(loggedIn: bool, id: string, percent: int, read: EtagRead): (s: Step)
    ensures s.Send? <==> loggedIn && read.status == 200 && HasEtag(read)
    ensures s.Send? ==> s.request == PatchTask(id, read.etag, Patch(Some(percent), None, None))
    ensures s.Answer? ==> !s.ok
  {
    if !loggedIn then Answer(false, NOT_LOGGED_IN)
    else if read.status != 200 then Answer(false, "ETag lekérés hiba: " + Show(read.status, read.text))
    else if !HasEtag(read) then Answer(false, "Hiányzó ETag")
    else Send(PatchTask(id, read.etag, Patch(Some(percent), None, None)))
  }

  /** Success is a 200 or 204 reply to the PATCH. */
  function PatchAnswer(reply: Reply, failure: string): (r: (bool, string))
    ensures r.0 <==> reply.status == 200 || reply.status == 204
    ensures r.0 ==> r.1 == ""
  {
    if reply.status == 200 || reply.status == 204 then (true, "")
    else (false, failure + Show(reply.status, reply.text))
  }

  /** Runs a step against the reply the server gives to its request. */
  function Finish(s: Step, reply: Reply, failure: string): (c: Call)
    ensures s.Answer? ==> c == Call(s.ok, s.message, None)
    ensures s.Send? ==> c.sent == Some(s.request) && (c.ok <==> reply.status == 200 || reply.status == 204)
  {
    match s
    case Answer(ok, message) => Call(ok, message, None)
    case Send(req) =>
      var (ok, message) := PatchAnswer(reply, failure);
      Call(ok, message, Some(req))
  }

  /** `update_task_completion(task_id, percent)`. */
  function UpdateTaskCompletion(loggedIn: bool, id: string, percent: int, read: EtagRead, reply: Reply): (c: Call)
    ensures c.sent.Some? <==> loggedIn && read.status == 200 && HasEtag(read)
    ensures c.sent.Some? ==> c.sent.value == PatchTask(id, read.etag, Patch(Some(percent), None, None))
    ensures c.ok <==> c.sent.Some? && (reply.status == 200 || reply.status == 204)
    ensures !loggedIn ==> c.message == NOT_LOGGED_IN
    ensures c.sent.Some? && !c.ok ==> c.message == "Update API hiba: " + Show(reply.status, reply.text)
  {
    Finish(CompletionStep(loggedIn, id, percent, read), reply, "Update API hiba: ")
  }

  /** `complete_task(task_id)`: the completion update to 100. */
  function CompleteTask(loggedIn: bool, id: string, read: EtagRead, reply: Reply): (c: Call)
    ensures c.sent.Some? <==> loggedIn && read.status == 200 && HasEtag(read)
    ensures c.sent.Some? ==> c.sent.value == PatchTask(id, read.etag, Patch(Some(100), None, None))
    ensures c.ok <==> c.sent.Some? && (reply.status == 200 || reply.status == 204)
  {
    UpdateTaskCompletion(loggedIn, id, 100, read, reply)
  }

  /** `reopen_task(task_id)`: the completion update to 0. */
  function ReopenTask(loggedIn: bool, id: string, read: EtagRead, reply: Reply): (c: Call)
    ensures c.sent.Some? <==> loggedIn && read.status == 200 && HasEtag(read)
    ensures c.sent.Some? ==> c.sent.value == PatchTask(id, read.etag, Patch(Some(0), None, None))
    ensures c.ok <==> c.sent.Some? && (reply.status == 200 || reply.status == 204)
  {
    UpdateTaskCompletion(loggedIn, id, 0, read, reply)
  }

  // ---------------------------------------------------------------------------
  // update_task_details (backend.py)
  // ---------------------------------------------------------------------------

  /** The PATCH body of `update_task_details`: a given title is sent as is; a given due
      date is sent as noon UTC of that day, or as `null` when it is empty or the
      no-deadline text. */
  function DetailsPatch(newTitle: Option<string>, newDue: Option<string>): (p: Patch)
    ensures p.percent.None? && p.title == newTitle
    ensures newDue.None? <==> p.due.None?
    ensures newDue.Some? && (newDue.value == "" || newDue.value == NO_DEADLINE) ==> p.due == Some(None)
    ensures newDue.Some? && newDue.value != "" && newDue.value != NO_DEADLINE ==>
      p.due == Some(Some(DueDateTime(newDue.value)))
  {
    var due :=
      match newDue
      case None => None
      case Some(d) => if d == NO_DEADLINE || d == "" then Some(None) else Some(Some(DueDateTime(d)));
    Patch(None, newTitle, due)
  }

  function DetailsStep(loggedIn: bool, id: string, newTitle: Option<string>, newDue: Option<string>,
                       read: EtagRead): (s: Step)
    ensures s.Send? <==> loggedIn && read.status == 200 && HasEtag(read) && (newTitle.Some? || newDue.Some?)
    ensures s.Send? ==> s.request == PatchTask(id, read.etag, DetailsPatch(newTitle, newDue))
    ensures s.Answer? && s.ok <==> loggedIn && read.status == 200 && HasEtag(read) && newTitle.None? && newDue.None?
  {
    if !loggedIn then Answer(false, NOT_LOGGED_IN)
    else if read.status != 200 then Answer(false, "ETag error: " + IntToString(read.status))
    else if !HasEtag(read) then Answer(false, "Missing ETag")
    else
      var p := DetailsPatch(newTitle, newDue);
      if IsEmpty(p) then Answer(true, "No changes")
      else Send(PatchTask(id, read.etag, p))
  }

  /** `update_task_details(task_id, new_title, new_due_date)`. */
  function UpdateTaskDetails(loggedIn: bool, id: string, newTitle: Option<string>, newDue: Option<string>,
                             read: EtagRead, reply: Reply): (c: Call)
    ensures c.sent.Some? <==> loggedIn && read.status == 200 && HasEtag(read) && (newTitle.Some? || newDue.Some?)
    ensures c.sent.Some? ==> c.sent.value == PatchTask(id, read.etag, DetailsPatch(newTitle, newDue))
    ensures c.ok <==> ((c.sent.Some? && (reply.status == 200 || reply.status == 204))
                       || (loggedIn && read.status == 200 && HasEtag(read) && newTitle.None? && newDue.None?))
    ensures newTitle.None? && newDue.None? ==> (c.sent.None?
      && (c.ok <==> loggedIn && read.status == 200 && HasEtag(read))
      && (c.ok ==> c.message == "No changes"))
  {
    Finish(DetailsStep(loggedIn, id, newTitle, newDue, read), reply, "Update failed: ")
  }

  // ---------------------------------------------------------------------------
  // delete_task (backend.py)
  // ---------------------------------------------------------------------------

  function DeleteStep(loggedIn: bool, id: string, read: EtagRead): (s: Step)
    ensures s.Send? <==> loggedIn && read.status == 200 && HasEtag(read)
    ensures s.Send? ==> s.request == DeleteTask(id, read.etag.value)
    ensures s.Answer? ==> !s.ok
  {
    if !loggedIn then Answer(false, NOT_LOGGED_IN)
    else if read.status != 200 then Answer(false, "Delete prep failed: " + Show(read.status, read.text))
    else if !HasEtag(read) then Answer(false, "Missing ETag for delete")
    else Send(DeleteTask(id, read.etag.value))
  }

  /** Only 204 counts as a successful delete. */
  function DeleteAnswer(s: Step, reply: Reply): (c: Call)
    ensures s.Answer? ==> c == Call(s.ok, s.message, None)
    ensures s.Send? ==> c.sent == Some(s.request) && (c.ok <==> reply.status == 204)
  {
    match s
    case Answer(ok, message) => Call(ok, message, None)
    case Send(req) =>
      if reply.status == 204 then Call(true, "", Some(req))
      else Call(false, "Delete API hiba: " + Show(reply.status, reply.text), Some(req))
  }

  /** `delete_task(task_id)`. */
  function DeleteTaskCall(loggedIn: bool, id: string, read: EtagRead, reply: Reply): (c: Call)
    ensures c.sent.Some? <==> loggedIn && read.status == 200 && HasEtag(read)
    ensures c.sent.Some? ==> c.sent.value == DeleteTask(id, read.etag.value)
    ensures c.ok <==> c.sent.Some? && reply.status == 204
  {
    DeleteAnswer(DeleteStep(loggedIn, id, read), reply)
  }

  // ---------------------------------------------------------------------------
  // The older client (backteszt.py)
  // ---------------------------------------------------------------------------

  /** The older `update_task_completion`: it never checks the tag.  `requests` leaves out
      a header whose value is `None`, so a read without a tag yields an unconditional
      PATCH. */
  function LegacyCompletionStep(loggedIn: bool, id: string, percent: int, read: EtagRead): (s: Step)
    ensures s.Send? <==> loggedIn && read.status == 200
    ensures s.Send? ==> s.request == PatchTask(id, read.etag, Patch(Some(percent), None, None))
    ensures s.Answer? ==> !s.ok
  {
    if !loggedIn || read.status != 200 then Answer(false, "")
    else Send(PatchTask(id, read.etag, Patch(Some(percent), None, None)))
  }

  /** The older `update_task_completion` returns a bare boolean. */
  function LegacyUpdateTaskCompletion(loggedIn: bool, id: string, percent: int, read: EtagRead, reply: Reply): (c: Call)
    ensures c.sent.Some? <==> loggedIn && read.status == 200
    ensures c.ok <==> c.sent.Some? && (reply.status == 200 || reply.status == 204)
    ensures c.message == ""
  {
    match LegacyCompletionStep(loggedIn, id, percent, read)
    case Answer(ok, _) => Call(ok, "", None)
    case Send(req) => Call(reply.status == 200 || reply.status == 204, "", Some(req))
  }

  /** The older `delete_task`: the same guard as the current one, a bare boolean result. */
  function LegacyDeleteTask(loggedIn: bool, id: string, read: EtagRead, reply: Reply): (c: Call)
    ensures c.sent.Some? <==> loggedIn && read.status == 200 && HasEtag(read)
    ensures c.sent.Some? ==> c.sent.value == DeleteTask(id, read.etag.value)
    ensures c.ok <==> c.sent.Some? && reply.status == 204
    ensures c.message == ""
  {
    var c := DeleteTaskCall(loggedIn, id, read, reply);
    Call(c.ok, "", c.sent)
  }

  // ---------------------------------------------------------------------------
  // Running a call against the server
  // ---------------------------------------------------------------------------

  /** The server after a step's request (if any) and the client's answer. */
  function Run(server: Server, s: Step, failure: string, newId: string): (r: (Server, Call))
    requires newId !in server
    ensures s.Answer? ==> r.0 == server
  {
    match s
    case Answer(ok, message) => (server, Call(ok, message, None))
    case Send(req) =>
      var (after, reply) := Apply(server, req, newId);
      (after, Finish(s, reply, failure))
  }

  /** With a tag read from the server itself the write goes through: the task takes the
      new completion, its version advances, and no other task changes. */
  lemma FreshReadWrites(server: Server, id: string, percent: int, newId: string)
    requires newId !in server && id in server
    ensures var (after, call) := Run(server, CompletionStep(true, id, percent, Read(server, id)), "Update API hiba: ", newId);
      && call.ok
      && after.Keys == server.Keys
      && after[id].version == server[id].version + 1
      && after[id].fields == server[id].fields.(percent := percent)
      && forall k :: k in server && k != id ==> after[k] == server[k]
  {
  }

  /** No lost update: two clients read the same version, the first one writes, and the
      second write is then refused with 412 and leaves the first one's change in place. */
  lemma NoLostUpdate(server: Server, id: string, p1: int, p2: int, newId: string)
    requires newId !in server && id in server
    ensures var read := Read(server, id);
      var (s1, c1) := Run(server, CompletionStep(true, id, p1, read), "Update API hiba: ", newId);
      var (s2, c2) := Run(s1, CompletionStep(true, id, p2, read), "Update API hiba: ", newId);
      && c1.ok && !c2.ok && s2 == s1 && s2[id].fields.percent == p1
  {
    var read := Read(server, id);
    var (s1, c1) := Run(server, CompletionStep(true, id, p1, read), "Update API hiba: ", newId);
    assert s1[id].version == server[id].version + 1;
    assert ETag(server[id].version) != ETag(s1[id].version) by {
      if ETag(server[id].version) == ETag(s1[id].version) {
        ETagInjective(server[id].version, s1[id].version);
      }
    }
    assert ETag(server[id].version) != "*" by {
      assert ETag(server[id].version)[0] == '"';
    }
  }

  /** A write whose tag is stale is refused and changes nothing. */
  lemma StaleTagRefused(server: Server, id: string, p: Patch, tag: string, newId: string)
    requires newId !in server && id in server
    requires tag != "*" && tag != ETag(server[id].version)
    ensures Apply(server, PatchTask(id, Some(tag), p), newId) == (server, Reply(412, ""))
    ensures Apply(server, DeleteTask(id, tag), newId) == (server, Reply(412, ""))
  {
  }

  /** Completing is idempotent on the task's fields: a second completion (after a newId
      read) leaves them as the first one did. */
  lemma CompleteIdempotent(server: Server, id: string, newId: string)
    requires newId !in server && id in server
    ensures var (s1, c1) := Run(server, CompletionStep(true, id, 100, Read(server, id)), "Update API hiba: ", newId);
      var (s2, c2) := Run(s1, CompletionStep(true, id, 100, Read(s1, id)), "Update API hiba: ", newId);
      c1.ok && c2.ok && s2[id].fields == s1[id].fields
  {
    var (s1, c1) := Run(server, CompletionStep(true, id, 100, Read(server, id)), "Update API hiba: ", newId);
    FreshReadWrites(server, id, 100, newId);
    FreshReadWrites(s1, id, 100, newId);
  }

  /** The older client's unconditional PATCH: after a read without a tag it overwrites
      the task whatever its current version, while the current client sends nothing. */
  lemma LegacyWritesWithoutTag(server: Server, id: string, percent: int, text: string, newId: string)
    requires newId !in server && id in server
    ensures var read := EtagRead(200, text, None);
      && CompletionStep(true, id, percent, read).Answer?
      && var (after, call) := Run(server, LegacyCompletionStep(true, id, percent, read), "", newId);
        call.ok && after[id].fields.percent == percent
  {
  }

  /** A server that insists on the `If-Match` header, as the older client's own note on
      `delete_task` says Graph does: a write to an existing task without the header is
      refused with 428 (Precondition Required, section 3 of RFC 6585) and changes nothing;
      every other request is handled as by `Apply`. */
  function ApplyStrict(server: Server, req: Request, newId: string): (r: (Server, Reply))
    requires newId !in server
    ensures req.PatchTask? && req.id in server && req.ifMatch.None? ==> r == (server, Reply(428, ""))
    ensures !(req.PatchTask? && req.ifMatch.None?) ==> r == Apply(server, req, newId)
  {
    if req.PatchTask? && req.id in server && req.ifMatch.None? then (server, Reply(428, ""))
    else Apply(server, req, newId)
  }

  /** Against such a server the older client's untagged PATCH fails and the task keeps
      its completion, while a tagged PATCH is handled exactly as before. */
  lemma LegacyRefusedByStrictServer(server: Server, id: string, percent: int, text: string, newId: string)
    requires newId !in server && id in server
    ensures var read := EtagRead(200, text, None);
      var s := LegacyCompletionStep(true, id, percent, read);
      && s.Send?
      && var (after, reply) := ApplyStrict(server, s.request, newId);
        && after == server
        && !Finish(s, reply, "").ok
    ensures var s := LegacyCompletionStep(true, id, percent, Read(server, id));
      s.Send? && ApplyStrict(server, s.request, newId) == Apply(server, s.request, newId)
  {
  }

  /** A successful delete removes exactly the task read. */
  lemma FreshReadDeletes(server: Server, id: string, newId: string)
    requires newId !in server && id in server
    ensures var s := DeleteStep(true, id, Read(server, id));
      && s.Send?
      && var (after, reply) := Apply(server, s.request, newId);
        DeleteAnswer(s, reply).ok && after == server - {id}
  {
  }

  // ---------------------------------------------------------------------------
  // From the server back to the client's task list
  // ---------------------------------------------------------------------------

  /** The JSON object the server lists for a stored task. */
  function AsJson(id: string, st: Stored): (t: Object)
    ensures "id" in t && "title" in t && "percentComplete" in t && "dueDateTime" in t && "priority" in t
  {
    map[
      "id" := JStr(id),
      "title" := JStr(st.fields.title),
      "percentComplete" := JInt(st.fields.percent),
      "dueDateTime" := (match st.fields.due case Some(d) => JStr(d) case None => JNull),
      "priority" := JInt(st.fields.priority),
      "@odata.etag" := JStr(ETag(st.version))]
  }

  /** After `complete_task` succeeds the next fetch shows the task as done; after
      `reopen_task` it shows it as active. */
  lemma CompleteThenFetch(server: Server, id: string, newId: string)
    requires newId !in server && id in server
    ensures var (s1, _) := Run(server, CompletionStep(true, id, 100, Read(server, id)), "", newId);
      StatusOf(AsJson(id, s1[id])) == DONE
    ensures var (s2, _) := Run(server, CompletionStep(true, id, 0, Read(server, id)), "", newId);
      StatusOf(AsJson(id, s2[id])) == ACTIVE
  {
    FreshReadWrites(server, id, 100, newId);
    FreshReadWrites(server, id, 0, newId);
  }

  // ---------------------------------------------------------------------------
  // create_task (backend.py)
  // ---------------------------------------------------------------------------

  /** The POST body: the task is assigned to the signed-in user, and `dueDateTime` is
      present only when a due date was given (and not empty). */
  function CreatePayload(title: string, bucketId: string, planId: string, assignee: string,
                         dueDate: Option<string>): (t: NewTask)
    ensures t.due.Some? <==> dueDate.Some? && dueDate.value != ""
    ensures t.due.Some? ==> t.due.value == DueDateTime(dueDate.value)
    ensures t.title == title && t.bucketId == bucketId && t.planId == planId && t.assignee == assignee
  {
    var due := if dueDate.Some? && dueDate.value != "" then Some(DueDateTime(dueDate.value)) else None;
    NewTask(planId, bucketId, title, assignee, due)
  }

  /** `create_task`: `myId` is the answer of `GET /me` (absent or empty when it failed). */
  function CreateTaskCall(loggedIn: bool, myId: Option<string>, title: string, bucketId: string,
                          planId: string, dueDate: Option<string>, reply: Reply): (c: Call)
    ensures c.sent.Some? <==> loggedIn && myId.Some? && myId.value != ""
    ensures c.sent.Some? ==> c.sent.value == CreateTask(CreatePayload(title, bucketId, planId, myId.value, dueDate))
    ensures c.ok <==> c.sent.Some? && (reply.status == 200 || reply.status == 201)
  {
    if !loggedIn then Call(false, NOT_LOGGED_IN, None)
    else if myId.None? || myId.value == "" then Call(false, "Nem sikerült azonosítani a felhasználót", None)
    else
      var req := CreateTask(CreatePayload(title, bucketId, planId, myId.value, dueDate));
      if reply.status == 200 || reply.status == 201 then Call(true, "", Some(req))
      else Call(false, "Create API hiba: " + Show(reply.status, reply.text), Some(req))
  }

  /** A task created with a date from the form is listed back as an active task with that
      date and the title given. */
  lemma CreateThenFetch(server: Server, newId: string, title: string, bucketId: string, planId: string,
                        me: string, d: Date)
    requires newId !in server && me != "" && IsValid(d)
    ensures var c := CreateTaskCall(true, Some(me), title, bucketId, planId, Some(Format(d)), Reply(201, ""));
      && c.ok
      && var (after, reply) := Apply(server, c.sent.value, newId);
        && reply.status == 201
        && newId in after
        && var r := FormatTask(JObject(AsJson(newId, after[newId])));
          && r.Success?
          && r.value == Record(JStr(newId), JStr(title), ACTIVE, JStr(Format(d)), MEDIUM)
  {
    var c := CreateTaskCall(true, Some(me), title, bucketId, planId, Some(Format(d)), Reply(201, ""));
    var (after, reply) := Apply(server, c.sent.value, newId);
    var t := AsJson(newId, after[newId]);
    DueDateRoundTrip(t, d);
  }

  // ---------------------------------------------------------------------------
  // list_my_plans and list_buckets_for_plan
  // ---------------------------------------------------------------------------

  /** A plan (`caption` = its title) or bucket (`caption` = its name) as the client lists it. */
  datatype Entry = Entry(id: Json, caption: Json)

  datatype ListError = ListNotLoggedIn | ListApiError(status: int, text: string) | ListException

  /** `{"id": x.get("id", ""), <label>: x.get(<label>, "")}` for an object `x`. */
  function EntryOf(v: Json, labelKey: string): Entry {
    match v
    case JObject(x) => Entry(Get(x, "id", JStr("")), Get(x, labelKey, JStr("")))
    case _ => Entry(JStr(""), JStr(""))
  }

  /** The entry built for each item, in order. */
  function Entries(items: seq<Json>, labelKey: string): (r: seq<Entry>)
    ensures |r| == |items| && forall i :: 0 <= i < |items| ==> r[i] == EntryOf(items[i], labelKey)
  {
    seq(|items|, i requires 0 <= i < |items| => EntryOf(items[i], labelKey))
  }

  predicate HasTruthyId(e: Entry) {
    Truthy(e.id)
  }

  /** The two comprehensions of the listing calls, item by item: an item that is not an
      object raises; otherwise the result is the entries whose `id` is truthy, in order
      and each as often as it occurs. */
  function KeepWithId(items: seq<Json>, labelKey: string): (r: Option<seq<Entry>>)
    ensures r.Some? <==> forall i :: 0 <= i < |items| ==> items[i].JObject?
    ensures r.Some? ==> r.value == Filter(Entries(items, labelKey), HasTruthyId)
    ensures r.Some? ==> forall e :: e in r.value <==>
      exists i :: 0 <= i < |items| && EntryOf(items[i], labelKey) == e && Truthy(e.id)
    decreases |items|
  {
    if items == [] then Some([])
    else if !items[0].JObject? then None
    else
      var e := EntryOf(items[0], labelKey);
      assert Entries(items, labelKey) == [e] + Entries(items[1..], labelKey);
      FilterAppend([e], Entries(items[1..], labelKey), HasTruthyId);
      FilterOne(e, HasTruthyId);
      match KeepWithId(items[1..], labelKey)
      case None =>
        assert forall i :: 1 <= i < |items| ==> items[i] == items[1..][i - 1];
        None
      case Some(rest) =>
        assert forall i :: 1 <= i < |items| ==> items[i] == items[1..][i - 1];
        var r := if Truthy(e.id) then [e] + rest else rest;
        FilteredEntries(items, labelKey, r);
        Some(r)
  }

  /** The filtered entries are the entries of items with a truthy id. */
  lemma FilteredEntries(items: seq<Json>, labelKey: string, r: seq<Entry>)
    requires r == Filter(Entries(items, labelKey), HasTruthyId)
    ensures forall e :: e in r <==> exists i :: 0 <= i < |items| && EntryOf(items[i], labelKey) == e && Truthy(e.id)
  {
    var es := Entries(items, labelKey);
    forall e | e in r
      ensures exists i :: 0 <= i < |items| && EntryOf(items[i], labelKey) == e && Truthy(e.id)
    {
      var k :| 0 <= k < |r| && r[k] == e;
      assert r[k] in es;
    }
  }

  /** `response.json().get("value", []) or []`, as a sequence of items when iterable. */
  function ListItems(body: Object): (r: Option<seq<Json>>)
    ensures "value" !in body ==> r == Some([])
    ensures "value" in body && !Truthy(body["value"]) ==> r == Some([])
    ensures "value" in body && body["value"].JList? ==> r == Some(body["value"].items)
  {
    var v := Get(body, "value", JList([]));
    if !Truthy(v) then Some([])
    else
      match v
      case JList(items) => Some(items)
      case _ => None
  }

  /** `list_my_plans` (`labelKey == "title"`) and `list_buckets_for_plan`
      (`labelKey == "name"`): no entry without an id ever reaches the window. */
  function ListEntries(loggedIn: bool, response: Response, labelKey: string): (r: Result<seq<Entry>, ListError>)
    ensures !loggedIn ==> r == Failure(ListNotLoggedIn)
    ensures loggedIn && response.status != 200 ==> r == Failure(ListApiError(response.status, response.text))
    ensures loggedIn && response.status == 200 && BodyObject(response).None? ==> r == Failure(ListException)
    ensures loggedIn && response.status == 200 && BodyObject(response).Some? ==>
      (var items := ListItems(BodyObject(response).value);
       r.Success? <==> (items.Some? && forall i :: 0 <= i < |items.value| ==> items.value[i].JObject?))
    ensures loggedIn && response.status == 200 && r.Failure? ==> r.error == ListException
    ensures r.Success? ==> forall e :: e in r.value ==> Truthy(e.id)
    ensures r.Success? ==>
      (BodyObject(response).Some? && ListItems(BodyObject(response).value).Some?
       && r.value == Filter(Entries(ListItems(BodyObject(response).value).value, labelKey), HasTruthyId))
  {
    if !loggedIn then Failure(ListNotLoggedIn)
    else if response.status != 200 then Failure(ListApiError(response.status, response.text))
    else if BodyObject(response).None? then Failure(ListException)
    else
      match ListItems(BodyObject(response).value)
      case None => Failure(ListException)
      case Some(items) =>
        match KeepWithId(items, labelKey)
        case None => Failure(ListException)
        case Some(entries) => Success(entries)
  }

  /** The error text the window would show (exception texts are not modelled). */
  function ListErrorText(e: ListError, kind: string): Option<string> {
    match e
    case ListNotLoggedIn => Some(NOT_LOGGED_IN)
    case ListApiError(status, text) => Some(kind + " API hiba: " + Show(status, text))
    case ListException => None
  }
}

=== FILE: legacy.dfy ===
/** The helpers of the older customtkinter window (teszt.py): `lighten_color`, the sort
    key `sort_tasks`, the list comparison `_tasks_equal` and the check in `update_ui`
    that skips redrawing an unchanged list. */
module Legacy {
  import opened Wrappers
  import opened PyText
  import opened Calendar
  import opened Tasks
  import opened Normalize
  import opened Workers
  import opened DateInput
  import opened Due
  import opened Sorting

  // ---------------------------------------------------------------------------
  // lighten_color
  // ---------------------------------------------------------------------------

  /** How much `lighten_color` adds to each channel unless told otherwise. */
  const DEFAULT_AMOUNT: int := 25

  predicate IsLowerHex(c: char) {
    '0' <= c <= '9' || 'a' <= c <= 'f'
  }

  /** The lower-case hexadecimal digit for `d`. */
  function HexChar(d: nat): (c: char)
    requires d < 16
    ensures IsLowerHex(c) && DigitValue(c, 16) == Some(d)
  {
    if d < 10 then ('0' as nat + d) as char else ('a' as nat + d - 10) as char
  }

  /** The lower-case hexadecimal digits of `n`, without leading zeros. */
  function Hex(n: nat): (r: string)
    ensures |r| > 0
    decreases n
  {
    if n < 16 then [HexChar(n)] else Hex(n / 16) + [HexChar(n % 16)]
  }

  /** Python's `f"{v:02x}"` for a channel value of at most 255: two digits, zero-padded;
      a negative value is a minus sign before its digits. */
  function Format02x(v: int): (r: string)
    requires v <= 255
    ensures 0 <= v ==> |r| == 2 && IsLowerHex(r[0]) && IsLowerHex(r[1])
    ensures v < 0 ==> |r| >= 2 && r[0] == '-'
  {
    if v >= 0 then [HexChar(v / 16), HexChar(v % 16)] else "-" + Hex(-v)
  }

  /** `min(255, c + amount)`. */
  function Brighten(c: int, amount: int): (v: int)
    ensures v <= 255 && (v == 255 || v == c + amount)
  {
    if c + amount < 255 then c + amount else 255
  }

  /** `hex_color.lstrip('#')`: every leading `#` goes. */
  function StripHashes(s: string): (r: string)
    ensures |r| <= |s| && r == s[|s| - |r|..]
    ensures r == [] || r[0] != '#'
    decreases |s|
  {
    if |s| > 0 && s[0] == '#' then StripHashes(s[1..]) else s
  }

  /** `"#abc"` written out as `"#aabbcc"`; any other text as it is. */
  function Expand(s: string): (r: string)
    ensures |s| == 4 && s[0] == '#' ==> r == ['#', s[1], s[1], s[2], s[2], s[3], s[3]]
    ensures !(|s| == 4 && s[0] == '#') ==> r == s
  {
    if |s| == 4 && s[0] == '#' then ['#', s[1], s[1], s[2], s[2], s[3], s[3]] else s
  }

  /** `h[i:i+2]`, cut short at the end of `h` as Python's slices are. */
  function Slice2(h: string, i: nat): (r: string)
    ensures |r| <= 2
  {
    var lo := if i <= |h| then i else |h|;
    var hi := if i + 2 <= |h| then i + 2 else |h|;
    h[lo..hi]
  }

  /** `int(h[i:i+2], 16)`. */
  function Channel(h: string, i: nat): Option<int> {
    ParseInt(Slice2(h, i), 16)
  }

  /** The colour `lighten_color` computes, or `None` where its `try` block raises. */
  function Lightened(s: string, amount: int): (r: Option<string>)
    ensures r.Some? ==> |r.value| >= 7 && r.value[0] == '#'
  {
    var h := StripHashes(Expand(s));
    match (Channel(h, 0), Channel(h, 2), Channel(h, 4))
    case (Some(r), Some(g), Some(b)) =>
      Some(Assemble(Brighten(r, amount), Brighten(g, amount), Brighten(b, amount)))
    case _ => None
  }

  /** `lighten_color` as written: on an error it returns the text it was working on,
      which by then has been expanded and stripped of its leading `#`. */
  function LightenColorAsWritten(s: string, amount: int): (r: string)
    ensures Lightened(s, amount).Some? ==> r == Lightened(s, amount).value
    ensures Lightened(s, amount).None? ==> r == StripHashes(Expand(s))
  {
    match Lightened(s, amount)
    case Some(c) => c
    case None => StripHashes(Expand(s))
  }

  /** `lighten_color` returning its argument unchanged when it cannot read it. */
  function LightenColor(s: string, amount: int): (r: string)
    ensures Lightened(s, amount).Some? ==> r == Lightened(s, amount).value
    ensures Lightened(s, amount).None? ==> r == s
  {
    Lightened(s, amount).GetOr(s)
  }

  /** A well-formed colour: `#` and six hexadecimal digits of either case. */
  predicate IsHexColor(s: string) {
    |s| == 7 && s[0] == '#' && forall i :: 1 <= i < 7 ==> IsDigitOf(s[i], 16)
  }

  /** The value of two hexadecimal digits. */
  function HexPair(x: char, y: char): int
    requires IsDigitOf(x, 16) && IsDigitOf(y, 16)
  {
    DigitValue(x, 16).value * 16 + DigitValue(y, 16).value
  }

  /** `int(xy, 16)` for two hexadecimal digits is their value. */
  lemma ParseHexPair(x: char, y: char)
    requires IsDigitOf(x, 16) && IsDigitOf(y, 16)
    ensures ParseInt([x, y], 16) == Some(HexPair(x, y))
    ensures 0 <= HexPair(x, y) <= 255
  {
    var s := [x, y];
    assert !IsSpace(x) && !IsSpace(y);
    ParseIntNoBlanks(s, 16);
    assert s[0] != '-' && s[0] != '+';
    assert WellFormedDigits(s, 16);
    assert s[..1] == [x];
    assert DigitsValue([x], 16) == DigitValue(x, 16).value by {
      assert [x][..0] == [];
    }
  }

  /** The channels of a well-formed colour. */
  lemma ChannelsOfHexColor(s: string)
    requires IsHexColor(s)
    ensures StripHashes(Expand(s)) == s[1..]
    ensures Channel(s[1..], 0) == Some(HexPair(s[1], s[2]))
    ensures Channel(s[1..], 2) == Some(HexPair(s[3], s[4]))
    ensures Channel(s[1..], 4) == Some(HexPair(s[5], s[6]))
  {
    assert IsDigitOf(s[1], 16);
    assert s[1] != '#';
    assert StripHashes(s) == StripHashes(s[1..]);
    assert StripHashes(s[1..]) == s[1..];
    var h := s[1..];
    assert Slice2(h, 0) == [s[1], s[2]];
    assert Slice2(h, 2) == [s[3], s[4]];
    assert Slice2(h, 4) == [s[5], s[6]];
    assert IsDigitOf(s[2], 16) && IsDigitOf(s[3], 16) && IsDigitOf(s[4], 16);
    assert IsDigitOf(s[5], 16) && IsDigitOf(s[6], 16);
    ParseHexPair(s[1], s[2]);
    ParseHexPair(s[3], s[4]);
    ParseHexPair(s[5], s[6]);
  }

  /** The three channels of a well-formed colour. */
  function Rgb(s: string): (int, int, int)
    requires IsHexColor(s)
  {
    (HexPair(s[1], s[2]), HexPair(s[3], s[4]), HexPair(s[5], s[6]))
  }

  predicate IsChannel(v: int) {
    0 <= v <= 255
  }

  /** `f'#{r:02x}{g:02x}{b:02x}'`. */
  function Assemble(x: int, y: int, z: int): (r: string)
    requires x <= 255 && y <= 255 && z <= 255
    ensures |r| >= 7 && r[0] == '#'
  {
    "#" + Format02x(x) + Format02x(y) + Format02x(z)
  }

  /** A colour assembled from three channels is well formed, lower case, and reads back
      as those channels. */
  lemma AssembleReadsBack(x: int, y: int, z: int)
    requires IsChannel(x) && IsChannel(y) && IsChannel(z)
    ensures IsHexColor(Assemble(x, y, z)) && Rgb(Assemble(x, y, z)) == (x, y, z)
    ensures forall i :: 1 <= i < 7 ==> IsLowerHex(Assemble(x, y, z)[i])
  {
    var r := Assemble(x, y, z);
    FormatThenPair(x);
    FormatThenPair(y);
    FormatThenPair(z);
    assert r[1..3] == Format02x(x) && r[3..5] == Format02x(y) && r[5..7] == Format02x(z);
    assert r[1] == Format02x(x)[0] && r[2] == Format02x(x)[1];
    assert r[3] == Format02x(y)[0] && r[4] == Format02x(y)[1];
    assert r[5] == Format02x(z)[0] && r[6] == Format02x(z)[1];
  }

  /** On a well-formed colour `lighten_color` brightens each channel. */
  lemma LightenedHexColor(s: string, amount: int)
    requires IsHexColor(s)
    ensures Lightened(s, amount) == Some(Assemble(Brighten(Rgb(s).0, amount), Brighten(Rgb(s).1, amount), Brighten(Rgb(s).2, amount)))
  {
    ChannelsOfHexColor(s);
  }

  /** On a well-formed colour every channel grows by `amount` up to 255, and the result
      is again a well-formed colour, in lower case. */
  lemma LightenHexColor(s: string, amount: int)
    requires IsHexColor(s) && amount >= 0
    ensures var r := Lightened(s, amount);
      && r.Some? && IsHexColor(r.value)
      && Rgb(r.value) == (Brighten(Rgb(s).0, amount), Brighten(Rgb(s).1, amount), Brighten(Rgb(s).2, amount))
      && forall i :: 1 <= i < 7 ==> IsLowerHex(r.value[i])
  {
    LightenedHexColor(s, amount);
    var x, y, z := Rgb(s).0, Rgb(s).1, Rgb(s).2;
    ParseHexPair(s[1], s[2]);
    ParseHexPair(s[3], s[4]);
    ParseHexPair(s[5], s[6]);
    AssembleReadsBack(Brighten(x, amount), Brighten(y, amount), Brighten(z, amount));
  }

  /** Reading back a formatted channel gives the channel. */
  lemma FormatThenPair(v: int)
    requires 0 <= v <= 255
    ensures IsDigitOf(Format02x(v)[0], 16) && IsDigitOf(Format02x(v)[1], 16)
    ensures HexPair(Format02x(v)[0], Format02x(v)[1]) == v
  {
  }

  /** Lightening twice by non-negative amounts brightens each channel by their sum: the
      colour `LightenedHexColor` gives for lightening once by `a + b`. */
  lemma LightenTwice(s: string, a: int, b: int)
    requires IsHexColor(s) && a >= 0 && b >= 0
    ensures Lightened(s, a).Some?
    ensures Lightened(Lightened(s, a).value, b) ==
      Some(Assemble(Brighten(Rgb(s).0, a + b), Brighten(Rgb(s).1, a + b), Brighten(Rgb(s).2, a + b)))
  {
    LightenHexColor(s, a);
    var r := Lightened(s, a).value;
    BrightenTwice(Rgb(s).0, a, b);
    BrightenTwice(Rgb(s).1, a, b);
    BrightenTwice(Rgb(s).2, a, b);
    LightenedHexColor(r, b);
  }

  lemma BrightenTwice(c: int, a: int, b: int)
    requires a >= 0 && b >= 0
    ensures Brighten(Brighten(c, a), b) == Brighten(c, a + b)
  {
  }

  /** Two lower-case digit pairs with one value are the same pair. */
  lemma HexPairInjective(a: char, b: char, c: char, d: char)
    requires IsLowerHex(a) && IsLowerHex(b) && IsLowerHex(c) && IsLowerHex(d)
    requires HexPair(a, b) == HexPair(c, d)
    ensures a == c && b == d
  {
    var va, vb, vc, vd := DigitValue(a, 16).value, DigitValue(b, 16).value, DigitValue(c, 16).value, DigitValue(d, 16).value;
    assert vb == vd by {
      assert (va * 16 + vb) % 16 == vb && (vc * 16 + vd) % 16 == vd;
    }
  }

  lemma SameColor(r: string, s: string)
    requires |r| == |s| == 7
    requires r[0] == s[0] && r[1] == s[1] && r[2] == s[2] && r[3] == s[3]
    requires r[4] == s[4] && r[5] == s[5] && r[6] == s[6]
    ensures r == s
  {
  }

  /** Lightening a lower-case colour by nothing gives it back. */
  lemma LightenByNothing(s: string)
    requires IsHexColor(s) && forall i :: 1 <= i < 7 ==> IsLowerHex(s[i])
    ensures Lightened(s, 0) == Some(s)
  {
    LightenHexColor(s, 0);
    var r := Lightened(s, 0).value;
    ParseHexPair(s[1], s[2]);
    ParseHexPair(s[3], s[4]);
    ParseHexPair(s[5], s[6]);
    assert Rgb(r) == Rgb(s);
    HexPairInjective(r[1], r[2], s[1], s[2]);
    HexPairInjective(r[3], r[4], s[3], s[4]);
    HexPairInjective(r[5], r[6], s[5], s[6]);
    assert |r| == |s| == 7 && r[0] == s[0];
    SameColor(r, s);
  }

  /** The short form `#abc` reads as `#aabbcc`. */
  lemma ShortFormExpands(s: string, amount: int)
    requires |s| == 4 && s[0] == '#'
    ensures Lightened(s, amount) == Lightened(['#', s[1], s[1], s[2], s[2], s[3], s[3]], amount)
  {
    var long := ['#', s[1], s[1], s[2], s[2], s[3], s[3]];
    assert Expand(long) == long;
  }

  /** Where the colour cannot be read, the function as written returns a text that is
      not its argument: the `#` is gone. */
  lemma UnreadableColorLosesHash(s: string, amount: int)
    requires |s| >= 2 && |s| != 4 && s[0] == '#' && s[1] != '#'
    requires Lightened(s, amount).None?
    ensures LightenColorAsWritten(s, amount) == s[1..] != s
    ensures LightenColor(s, amount) == s
  {
    assert StripHashes(s) == StripHashes(s[1..]);
    assert |s[1..]| != |s|;
  }

  /** `#gg0000` is such a colour: `gg` is not hexadecimal. */
  lemma UnreadableExample()
    ensures Lightened("#gg0000", DEFAULT_AMOUNT).None?
    ensures LightenColorAsWritten("#gg0000", DEFAULT_AMOUNT) == "gg0000"
  {
    var s := "#gg0000";
    ExampleStripped();
    assert Slice2("gg0000", 0) == "gg";
    GgIsNotHex();
    assert Channel(StripHashes(Expand(s)), 0).None?;
  }

  /** `#gg0000` is left as it is by `Expand`, and loses its `#`. */
  lemma ExampleStripped()
    ensures StripHashes(Expand("#gg0000")) == "gg0000"
  {
    var s := "#gg0000";
    assert Expand(s) == s;
    assert StripHashes(s) == StripHashes(s[1..]);
    assert s[1..] == "gg0000";
  }

  /** `int("gg", 16)` raises. */
  lemma GgIsNotHex()
    ensures ParseInt("gg", 16).None?
  {
    var gg := "gg";
    ParseIntNoBlanks(gg, 16);
    assert !IsDigitOf(gg[0], 16);
    assert ParseUnsigned(gg, 16).None?;
  }

  // ---------------------------------------------------------------------------
  // sort_tasks
  // ---------------------------------------------------------------------------

  /** The day `sort_tasks` files a task without a deadline under. */
  const FAR_DATE: Date := Date(2099, 12, 31)

  /** `sort_tasks`: open tasks by urgency group (0 to 3) and then due date; the others in
      group 4, closest deadline (before or after today) first. */
  function LegacySortKey(t: Task, today: int): (k: Key)
    ensures |k| >= 2 && k[0].KInt?
    ensures IsActive(t) ==> 0 <= k[0].i <= 3
    ensures !IsActive(t) ==> k[0].i == 4
  {
    var due := ParseDue(t.due);
    var d := due.GetOr(FAR_DATE);
    var diff := if due.Some? then Ordinal(d) - today else 9999;
    if IsActive(t) then
      var group := if diff < 0 then 0 else if diff <= 7 then 1 else if diff == 9999 then 3 else 2;
      [KInt(group), KInt(Ordinal(d))]
    else
      var absDiff := if diff == 9999 then 9999 else if diff < 0 then -diff else diff;
      [KInt(4), KInt(absDiff), KInt(-Ordinal(d))]
  }

  /** The group of an open task is its urgency class, except for a deadline exactly 9999
      days away, which lands in the undated group as in the newer window. */
  lemma LegacyGroupIsUrgency(t: Task, today: int)
    requires IsActive(t)
    ensures DaysLeft(t.due, today) != Some(9999) ==>
      LegacySortKey(t, today)[0] == KInt(UrgencyRank(Classify(t.due, today)))
    ensures DaysLeft(t.due, today) == Some(9999) ==>
      LegacySortKey(t, today)[0] == KInt(3) && Classify(t.due, today) == Later
  {
  }

  /** Every open task sorts before every other task, and an overdue open task before
      every open task that is not overdue. */
  lemma LegacyOrder(a: Task, b: Task, today: int)
    ensures IsActive(a) && !IsActive(b) ==> KeyLt(LegacySortKey(a, today), LegacySortKey(b, today))
    ensures IsActive(a) && IsActive(b) && Classify(a.due, today) == Overdue && Classify(b.due, today) != Overdue ==>
      KeyLt(LegacySortKey(a, today), LegacySortKey(b, today))
  {
  }

  /** Within one group, an open task due earlier sorts first. */
  lemma LegacyOpenEarlierFirst(a: Task, b: Task, today: int)
    requires IsActive(a) && IsActive(b)
    requires ParseDue(a.due).Some? && ParseDue(b.due).Some? && Before(ParseDue(a.due).value, ParseDue(b.due).value)
    requires LegacySortKey(a, today)[0] == LegacySortKey(b, today)[0]
    ensures KeyLt(LegacySortKey(a, today), LegacySortKey(b, today))
  {
    OrdinalOrder(ParseDue(a.due).value, ParseDue(b.due).value);
    KeyLtAt(LegacySortKey(a, today), LegacySortKey(b, today), 1);
  }

  /** The first two parts of the key of a task that is not open. */
  lemma LegacyOtherKey(t: Task, today: int)
    requires !IsActive(t)
    ensures |LegacySortKey(t, today)| == 3 && LegacySortKey(t, today)[0] == KInt(4)
    ensures LegacySortKey(t, today)[1] ==
      KInt(if DaysLeft(t.due, today).Some? then Abs(DaysLeft(t.due, today).value) else 9999)
  {
  }

  /** Among the tasks that are not open, the deadline nearer to today (before or after
      it) comes first. */
  lemma LegacyNearerFirst(a: Task, b: Task, today: int)
    requires !IsActive(a) && !IsActive(b)
    requires DaysLeft(a.due, today).Some? && DaysLeft(b.due, today).Some?
    requires Abs(DaysLeft(a.due, today).value) < Abs(DaysLeft(b.due, today).value)
    ensures KeyLt(LegacySortKey(a, today), LegacySortKey(b, today))
  {
    LegacyOtherKey(a, today);
    LegacyOtherKey(b, today);
    KeyLtAt(LegacySortKey(a, today), LegacySortKey(b, today), 1);
  }

  /** Of two tasks that are not open and whose deadlines are equally near, the later
      deadline comes first. */
  lemma LegacyEquallyNearLaterFirst(a: Task, b: Task, today: int)
    requires !IsActive(a) && !IsActive(b)
    requires DaysLeft(a.due, today).Some? && DaysLeft(b.due, today).Some?
    requires Abs(DaysLeft(a.due, today).value) == Abs(DaysLeft(b.due, today).value)
    requires Before(ParseDue(b.due).value, ParseDue(a.due).value)
    ensures KeyLt(LegacySortKey(a, today), LegacySortKey(b, today))
  {
    var ka, kb := LegacySortKey(a, today), LegacySortKey(b, today);
    var da, db := ParseDue(a.due).value, ParseDue(b.due).value;
    OrdinalOrder(db, da);
    assert ka[..2] == kb[..2];
    assert ka[2] == KInt(-Ordinal(da)) && kb[2] == KInt(-Ordinal(db));
    KeyLtAt(ka, kb, 2);
  }

  /** A task that is not open and is due less than 9999 days from today comes before
      one without a deadline. */
  lemma LegacyDatedBeforeUndated(a: Task, b: Task, today: int)
    requires !IsActive(a) && !IsActive(b)
    requires DaysLeft(a.due, today).Some? && Abs(DaysLeft(a.due, today).value) < 9999
    requires DaysLeft(b.due, today).None?
    ensures KeyLt(LegacySortKey(a, today), LegacySortKey(b, today))
  {
    LegacyOtherKey(a, today);
    LegacyOtherKey(b, today);
    KeyLtAt(LegacySortKey(a, today), LegacySortKey(b, today), 1);
  }

  function Abs(x: int): nat {
    if x < 0 then -x else x
  }

  // ---------------------------------------------------------------------------
  // _tasks_equal and update_ui
  // ---------------------------------------------------------------------------

  /** A record with its JSON fields replaced by their representatives under Python's
      `==`: two records are equal in Python iff these are equal. */
  function CanonRecord(x: Record): Record {
    x.(id := Canon(x.id), title := Canon(x.title), date := Canon(x.date))
  }

  /** Python's `a == b` on two lists of records: same length, and equal records at
      every position. */
  predicate RecordsPyEq(a: seq<Record>, b: seq<Record>) {
    |a| == |b| && forall i :: 0 <= i < |a| ==> CanonRecord(a[i]) == CanonRecord(b[i])
  }

  /** `_tasks_equal`: same length, and the five fields agree position by position under
      Python's `!=`, which does not tell `True` from `1` or `False` from `0`. */
  function TasksEqual(a: seq<Record>, b: seq<Record>): (r: bool)
    ensures r <==> RecordsPyEq(a, b)
    ensures a == b ==> r
    decreases |a|
  {
    if |a| != |b| then false
    else if a == [] then true
    else
      var x, y := a[0], b[0];
      var same := PyEq(x.id, y.id) && x.status == y.status && PyEq(x.date, y.date)
        && x.priority == y.priority && PyEq(x.title, y.title);
      if !same then
        assert CanonRecord(x) != CanonRecord(y);
        false
      else
        var rest := TasksEqual(a[1..], b[1..]);
        assert forall i :: 1 <= i < |a| ==> a[i] == a[1..][i - 1] && b[i] == b[1..][i - 1];
        rest
  }

  /** The lists of one fetch and the next are the same to `_tasks_equal` when an id of
      `1` comes back as `true`. */
  lemma TasksEqualIdentifiesBoolAndInt(title: Json, status: string, date: Json, priority: string)
    ensures TasksEqual([Record(JInt(1), title, status, date, priority)],
                       [Record(JBool(true), title, status, date, priority)])
    ensures TasksEqual([Record(JInt(0), title, status, date, priority)],
                       [Record(JBool(false), title, status, date, priority)])
    ensures !TasksEqual([Record(JInt(2), title, status, date, priority)],
                        [Record(JBool(true), title, status, date, priority)])
  {
  }

  /** What `update_ui` does with a fetch result. */
  datatype Redraw = Skip | ShowError(text: string) | Intro(records: seq<Record>) | Redraw(records: seq<Record>)

  /** The window's memory between fetches. */
  datatype Ui = Ui(firstLoad: bool, last: seq<Record>)

  /** `update_ui`: an unchanged list on a quiet refresh is not redrawn; an error shows its
      text; the first list or one fetched with the intro is animated in. */
  function UpdateUi(ui: Ui, data: Emitted, skipIntro: bool): (r: (Ui, Redraw))
    ensures r.1 == Skip <==> data.EmitTasks? && !ui.firstLoad && skipIntro && RecordsPyEq(data.records, ui.last)
    ensures data.EmitError? ==> r == (ui, ShowError("⚠️ " + data.error.GetOr("None")))
    ensures data.EmitTasks? && r.1 != Skip ==> r.0 == Ui(false, data.records)
  {
    match data
    case EmitTasks(records) =>
      if !ui.firstLoad && skipIntro && TasksEqual(records, ui.last) then (ui, Skip)
      else if ui.firstLoad || !skipIntro then (Ui(false, records), Intro(records))
      else (ui.(last := records), Redraw(records))
    case EmitError(e) => (ui, ShowError("⚠️ " + e.GetOr("None")))
  }

  /** A quiet refresh that brings the same list twice redraws it at most once. */
  lemma SecondQuietRefreshSkipped(ui: Ui, records: seq<Record>)
    ensures var (next, _) := UpdateUi(ui, EmitTasks(records), true);
      UpdateUi(next, EmitTasks(records), true).1 == Skip
  {
  }
}

=== FILE: normalize.dfy ===
/** How the API client turns the server's task list into client task records:
    `fetch_data` and `_planner_priority_to_level` of backend.py, and the older
    `fetch_data` of backteszt.py.  A server task is a decoded JSON object; the record
    keeps `id` and `title` as the JSON values it found (the window converts them with
    `str()` later) and computes `status`, `date` and `priority`. */
module Normalize {
  import opened Wrappers
  import opened PyText
  import opened Calendar
  import opened Tasks

  /** A decoded JSON value (numbers with a fraction are not modelled). */
  datatype Json =
    | JNull
    | JBool(b: bool)
    | JInt(i: int)
    | JStr(s: string)
    | JList(items: seq<Json>)
    | JObject(fields: map<string, Json>)

  /** A JSON object as Python sees it after `response.json()`. */
  type Object = map<string, Json>

  /** `obj.get(key, default)`. */
  function Get(obj: Object, key: string, default: Json): (v: Json)
    ensures key in obj ==> v == obj[key]
    ensures key !in obj ==> v == default
  {
    if key in obj then obj[key] else default
  }

  /** Python truthiness of a JSON value. */
  predicate Truthy(v: Json) {
    match v
    case JNull => false
    case JBool(b) => b
    case JInt(i) => i != 0
    case JStr(s) => s != ""
    case JList(items) => items != []
    case JObject(fields) => fields != map[]
  }

  /** The representative of `v` under Python's `==`, which identifies `True` with `1` and
      `False` with `0`, inside lists and dictionaries too. */
  function Canon(v: Json): (c: Json)
    ensures !c.JBool?
    ensures v.JBool? ==> c == JInt(if v.b then 1 else 0)
  {
    match v
    case JBool(b) => JInt(if b then 1 else 0)
    case JList(items) => JList(seq(|items|, i requires 0 <= i < |items| => Canon(items[i])))
    case JObject(fields) => JObject(map k | k in fields :: Canon(fields[k]))
    case _ => v
  }

  /** Python's `a == b` on decoded JSON values. */
  predicate PyEq(a: Json, b: Json) {
    Canon(a) == Canon(b)
  }

  /** Python's `int(v)`; `None` is the exception (`TypeError` or `ValueError`). */
  function IntOf(v: Json): (r: Option<int>)
    ensures v.JInt? ==> r == Some(v.i)
    ensures v.JNull? || v.JList? || v.JObject? ==> r == None
  {
    match v
    case JBool(b) => Some(if b then 1 else 0)
    case JInt(i) => Some(i)
    case JStr(s) => ParseInt(s, 10)
    case _ => None
  }

  /** Something raised inside `fetch_data`; it is caught and reported as `{"error": str(e)}`.
      The text of Python's exception messages is not modelled. */
  datatype Raised = Raised

  // ---------------------------------------------------------------------------
  // Priority levels
  // ---------------------------------------------------------------------------

  /** `_planner_priority_to_level`: Planner's 0..10 priority bucketed into four levels. */
  function PriorityToLevel(p: int): (level: string)
    ensures level == URGENT <==> p <= 1
    ensures level == IMPORTANT <==> 2 <= p <= 4
    ensures level == MEDIUM <==> 5 <= p <= 7
    ensures level == LOW <==> p >= 8
  {
    if p <= 1 then URGENT
    else if p <= 4 then IMPORTANT
    else if p <= 7 then MEDIUM
    else LOW
  }

  /** How pressing a level is: 0 for the most pressing. */
  function Rank(level: string): nat {
    if level == URGENT then 0
    else if level == IMPORTANT then 1
    else if level == MEDIUM then 2
    else 3
  }

  /** A lower (more urgent) Planner priority never yields a less pressing level. */
  lemma PriorityToLevelMonotone(p: int, q: int)
    requires p <= q
    ensures Rank(PriorityToLevel(p)) <= Rank(PriorityToLevel(q))
  {
  }

  /** The priority `fetch_data` reads: 5 when the field is absent or `null`, or when
      `int()` rejects it. */
  function RawPriority(t: Object): (p: int)
    ensures Get(t, "priority", JNull).JNull? ==> p == 5
    ensures IntOf(Get(t, "priority", JNull)).None? ==> p == 5
    ensures IntOf(Get(t, "priority", JNull)).Some? ==> p == IntOf(Get(t, "priority", JNull)).value
  {
    var raw := Get(t, "priority", JNull);
    if raw.JNull? then 5
    else
      match IntOf(raw)
      case Some(p) => p
      case None => 5
  }

  /** A missing or unreadable priority is always shown as medium. */
  lemma MissingPriorityIsMedium(t: Object)
    requires "priority" !in t || IntOf(t["priority"]).None?
    ensures PriorityToLevel(RawPriority(t)) == MEDIUM
  {
  }

  /** The older client's mapping: everything up to 4 is "high". */
  function LegacyLevel(p: int): (level: string)
    ensures level == HIGH <==> p <= 4
    ensures level == MEDIUM <==> 5 <= p <= 7
    ensures level == LOW <==> p >= 8
    ensures level != URGENT && level != IMPORTANT
  {
    if p <= 2 then HIGH
    else if p <= 4 then HIGH
    else if p <= 7 then MEDIUM
    else LOW
  }

  /** The older levels are the current ones with the two top levels merged. */
  function Coarsen(level: string): string {
    if level == URGENT || level == IMPORTANT then HIGH else level
  }

  lemma LegacyLevelIsCoarsened(p: int)
    ensures LegacyLevel(p) == Coarsen(PriorityToLevel(p))
  {
  }

  /** The older client compares the raw priority with `<=` directly: integers (and
      booleans) compare, anything else raises `TypeError`; an absent field counts as 5. */
  function LegacyRawPriority(t: Object): (r: Result<int, Raised>)
    ensures "priority" !in t ==> r == Success(5)
    ensures "priority" in t && t["priority"].JInt? ==> r == Success(t["priority"].i)
    ensures r.Failure? <==> "priority" in t && !t["priority"].JInt? && !t["priority"].JBool?
  {
    match Get(t, "priority", JInt(5))
    case JInt(i) => Success(i)
    case JBool(b) => Success(if b then 1 else 0)
    case _ => Failure(Raised)
  }

  // ---------------------------------------------------------------------------
  // Status and due date
  // ---------------------------------------------------------------------------

  /** `"KESZ" if t.get("percentComplete") == 100 else "FOLYAMATBAN"`. */
  function StatusOf(t: Object): (status: string)
    ensures status == DONE <==> "percentComplete" in t && t["percentComplete"] == JInt(100)
    ensures status == ACTIVE <==> !("percentComplete" in t && t["percentComplete"] == JInt(100))
  {
    if Get(t, "percentComplete", JNull) == JInt(100) then DONE else ACTIVE
  }

  /** Python's `v[:10]`: the first ten characters of a text or items of a list; other
      values cannot be sliced. */
  function Prefix10(v: Json): (r: Result<Json, Raised>)
    ensures v.JStr? ==> r == Success(JStr(v.s[..if |v.s| < 10 then |v.s| else 10]))
    ensures v.JList? ==> r.Success? && r.value.JList? && r.value.items <= v.items
    ensures !v.JStr? && !v.JList? ==> r.Failure?
  {
    match v
    case JStr(s) => Success(JStr(s[..if |s| < 10 then |s| else 10]))
    case JList(items) => Success(JList(items[..if |items| < 10 then |items| else 10]))
    case _ => Failure(Raised)
  }

  /** The `date` field: the first ten characters of a present, non-empty `dueDateTime`,
      otherwise the no-deadline text. */
  function DateOf(t: Object): (r: Result<Json, Raised>)
    ensures !Truthy(Get(t, "dueDateTime", JNull)) ==> r == Success(JStr(NO_DEADLINE))
    ensures Truthy(Get(t, "dueDateTime", JNull)) ==> r == Prefix10(t["dueDateTime"])
  {
    if Truthy(Get(t, "dueDateTime", JNull)) then Prefix10(Get(t, "dueDateTime", JStr(NO_DEADLINE)))
    else Success(JStr(NO_DEADLINE))
  }

  // ---------------------------------------------------------------------------
  // Records
  // ---------------------------------------------------------------------------

  /** The `{id, title, status, date, priority}` dictionary `fetch_data` builds. */
  datatype Record = Record(id: Json, title: Json, status: string, date: Json, priority: string)

  /** The per-task body of the loop in backend.py's `fetch_data`; a task that is not a
      JSON object has no `.get` and raises. */
  function FormatTask(v: Json): (r: Result<Record, Raised>)
    ensures !v.JObject? ==> r.Failure?
    ensures v.JObject? ==> (r.Success? <==> DateOf(v.fields).Success?)
    ensures r.Success? ==> var t := v.fields;
      && r.value.id == Get(t, "id", JNull)
      && r.value.title == Get(t, "title", JStr(""))
      && r.value.status == StatusOf(t)
      && r.value.date == DateOf(t).value
      && r.value.priority == PriorityToLevel(RawPriority(t))
  {
    match v
    case JObject(t) =>
      (match DateOf(t)
       case Success(date) =>
         Success(Record(Get(t, "id", JNull), Get(t, "title", JStr("")), StatusOf(t), date,
                        PriorityToLevel(RawPriority(t))))
       case Failure(e) => Failure(e))
    case _ => Failure(Raised)
  }

  /** The per-task body of backteszt.py's `fetch_data`: the priority is compared without
      conversion and the title is read with `t['title']`, which raises when it is missing. */
  function FormatTaskLegacy(v: Json): (r: Result<Record, Raised>)
    ensures !v.JObject? ==> r.Failure?
    ensures v.JObject? ==> (r.Success? <==>
      LegacyRawPriority(v.fields).Success? && "title" in v.fields && DateOf(v.fields).Success?)
    ensures r.Success? ==> var t := v.fields;
      && r.value.id == Get(t, "id", JNull)
      && r.value.title == t["title"]
      && r.value.status == StatusOf(t)
      && r.value.date == DateOf(t).value
      && r.value.priority == LegacyLevel(LegacyRawPriority(t).value)
  {
    match v
    case JObject(t) =>
      (match LegacyRawPriority(t)
       case Failure(e) => Failure(e)
       case Success(p) =>
         if "title" !in t then Failure(Raised)
         else
           match DateOf(t)
           case Success(date) => Success(Record(Get(t, "id", JNull), t["title"], StatusOf(t), date, LegacyLevel(p)))
           case Failure(e) => Failure(e))
    case _ => Failure(Raised)
  }

  /** Formats every task in order; the first one that raises aborts the whole list. */
  function FormatAll(items: seq<Json>, legacy: bool): (r: Result<seq<Record>, Raised>)
    ensures r.Success? <==> forall i :: 0 <= i < |items| ==> FormatOne(items[i], legacy).Success?
    ensures r.Success? ==> (|r.value| == |items|
      && forall i :: 0 <= i < |items| ==> r.value[i] == FormatOne(items[i], legacy).value)
  {
    MapAll(items, v => FormatOne(v, legacy))
  }

  function FormatOne(v: Json, legacy: bool): Result<Record, Raised> {
    if legacy then FormatTaskLegacy(v) else FormatTask(v)
  }

  // ---------------------------------------------------------------------------
  // fetch_data
  // ---------------------------------------------------------------------------

  /** An HTTP response: status code, body text and the JSON the text decodes to (none
      when it is not JSON, so that `response.json()` raises). */
  datatype Response = Response(status: int, text: string, body: Option<Json>)

  /** `response.json()` as something with `.get`: none when the text is not JSON or
      decodes to a value other than an object, either of which raises. */
  function BodyObject(response: Response): (o: Option<Object>)
    ensures o.Some? <==> response.body.Some? && response.body.value.JObject?
    ensures o.Some? ==> o.value == response.body.value.fields
  {
    match response.body
    case Some(JObject(fields)) => Some(fields)
    case _ => None
  }

  /** Why `fetch_data` returned `{"error": ...}` instead of a list. */
  datatype FetchError =
    | NotLoggedIn
    | ApiError(status: int, text: string)
    | Exception

  /** The list `fetch_data` iterates: `response.json().get("value", [])`.  A list is
      iterated; an empty text or object iterates as nothing; other values either cannot
      be iterated or yield items without `.get`. */
  function TaskItems(body: Object): (r: Option<seq<Json>>)
    ensures "value" !in body ==> r == Some([])
    ensures "value" in body && body["value"].JList? ==> r == Some(body["value"].items)
  {
    match Get(body, "value", JList([]))
    case JList(items) => Some(items)
    case JStr(s) => if s == "" then Some([]) else None
    case JObject(fields) => if fields == map[] then Some([]) else None
    case _ => None
  }

  /** `fetch_data`: `loggedIn` stands for a silent token being available and `response`
      for the answer to `GET /me/planner/tasks`. */
  function FetchData(loggedIn: bool, response: Response, legacy: bool): (r: Result<seq<Record>, FetchError>)
    ensures !loggedIn ==> r == Failure(NotLoggedIn)
    ensures loggedIn && response.status != 200 ==> r == Failure(ApiError(response.status, response.text))
    ensures loggedIn && response.status == 200 && r.Failure? ==> r.error == Exception
    ensures loggedIn && response.status == 200 && BodyObject(response).None? ==> r == Failure(Exception)
    ensures r.Success? <==> (loggedIn && response.status == 200 && BodyObject(response).Some?
      && TaskItems(BodyObject(response).value).Some?
      && forall v :: v in TaskItems(BodyObject(response).value).value ==> FormatOne(v, legacy).Success?)
    ensures r.Success? ==> (var items := TaskItems(BodyObject(response).value).value;
      |r.value| == |items| && forall i :: 0 <= i < |items| ==> r.value[i] == FormatOne(items[i], legacy).value)
  {
    if !loggedIn then Failure(NotLoggedIn)
    else if response.status != 200 then Failure(ApiError(response.status, response.text))
    else if BodyObject(response).None? then Failure(Exception)
    else
      match TaskItems(BodyObject(response).value)
      case None => Failure(Exception)
      case Some(items) =>
        match FormatAll(items, legacy)
        case Success(records) => Success(records)
        case Failure(_) => Failure(Exception)
  }

  /** The `error` text of the returned dictionary (the older client omits the body text). */
  function ErrorText(e: FetchError, legacy: bool): Option<string> {
    match e
    case NotLoggedIn => Some("Nincs bejelentkezve")
    case ApiError(status, text) =>
      Some(if legacy then "API Hiba: " + IntToString(status) else "API Hiba: " + IntToString(status) + " - " + text)
    case Exception => None
  }

  // ---------------------------------------------------------------------------
  // From a record to the window's view model
  // ---------------------------------------------------------------------------

  /** Python's `str(v)` for the JSON values a record field may hold; the text Python
      gives for lists and objects is not modelled. */
  function PyStr(v: Json): Option<string> {
    match v
    case JNull => Some("None")
    case JBool(b) => Some(if b then "True" else "False")
    case JInt(i) => Some(IntToString(i))
    case JStr(s) => Some(s)
    case _ => None
  }

  /** The `TaskViewModel` `_on_fetched` builds from a record with `str(...)`. */
  function ViewModel(r: Record): (t: Option<Task>)
    ensures r.id.JStr? && r.title.JStr? && r.date.JStr? ==>
      t == Some(Task(r.id.s, r.title.s, r.status, r.date.s, r.priority))
  {
    match (PyStr(r.id), PyStr(r.title), PyStr(r.date))
    case (Some(id), Some(title), Some(due)) => Some(Task(id, title, r.status, due, r.priority))
    case _ => None
  }

  /** The `dueDateTime` text `create_task` sends for the form's `YYYY-MM-DD` entry. */
  function DueDateTime(ymd: string): string {
    ymd + "T12:00:00Z"
  }

  /** A task the server reports with the due date the client sent reads back as that
      date, and as active when it is not 100% complete. */
  lemma DueDateRoundTrip(t: Object, d: Date)
    requires IsValid(d)
    requires "dueDateTime" in t && t["dueDateTime"] == JStr(DueDateTime(Format(d)))
    requires "percentComplete" in t && t["percentComplete"].JInt? && t["percentComplete"].i < 100
    ensures FormatTask(JObject(t)).Success?
    ensures FormatTask(JObject(t)).value.date == JStr(Format(d))
    ensures FormatTask(JObject(t)).value.status == ACTIVE
    ensures Parse(Format(d)) == Some(d)
  {
    var s := DueDateTime(Format(d));
    assert s[..10] == Format(d);
    ParseFormat(d);
  }
}

=== FILE: pytext.dfy ===
/** The few pieces of Python's `str` and `int` behaviour the client relies on:
    `str.strip()`, `str.lower()`, code-point ordering of strings, decimal
    rendering of integers and `int(text, base)`.  Strings are `seq<char>`, one
    `char` per code point. */
module PyText {
  import opened Wrappers

  // ---------------------------------------------------------------------------
  // Whitespace and str.strip()
  // ---------------------------------------------------------------------------

  /** Python's `str.isspace()` for a single code point. */
  predicate IsSpace(c: char) {
    || ('\U{0009}' <= c <= '\U{000D}')
    || ('\U{001C}' <= c <= '\U{001F}')
    || c == ' ' || c == '\U{0085}' || c == '\U{00A0}' || c == '\U{1680}'
    || ('\U{2000}' <= c <= '\U{200A}')
    || c == '\U{2028}' || c == '\U{2029}' || c == '\U{202F}' || c == '\U{205F}' || c == '\U{3000}'
  }

  /** `s` with its leading whitespace removed. */
  function TrimStart(s: string): (r: string)
    ensures |r| <= |s| && r == s[|s| - |r|..]
    ensures forall i :: 0 <= i < |s| - |r| ==> IsSpace(s[i])
    ensures r == [] || !IsSpace(r[0])
    decreases |s|
  {
    if |s| > 0 && IsSpace(s[0]) then TrimStart(s[1..]) else s
  }

  /** `s` with its trailing whitespace removed. */
  function TrimEnd(s: string): (r: string)
    ensures |r| <= |s| && r == s[..|r|]
    ensures forall i :: |r| <= i < |s| ==> IsSpace(s[i])
    ensures r == [] || !IsSpace(r[|r| - 1])
    decreases |s|
  {
    if |s| > 0 && IsSpace(s[|s| - 1]) then TrimEnd(s[..|s| - 1]) else s
  }

  /** Python's `s.strip()`: the slice of `s` left after cutting the whitespace from both
      ends; what remains neither starts nor ends with whitespace. */
  function Strip(s: string): (r: string)
    ensures var a := |s| - |TrimStart(s)|;
      && a + |r| <= |s| && r == s[a..a + |r|]
      && (forall i :: 0 <= i < a ==> IsSpace(s[i]))
      && (forall i :: a + |r| <= i < |s| ==> IsSpace(s[i]))
    ensures r == [] || (!IsSpace(r[0]) && !IsSpace(r[|r| - 1]))
  {
    TrimEnd(TrimStart(s))
  }

  /** Stripping twice is stripping once. */
  lemma StripIdempotent(s: string)
    ensures Strip(Strip(s)) == Strip(s)
  {
    var r := Strip(s);
    assert r == [] || (!IsSpace(r[0]) && !IsSpace(r[|r| - 1]));
    assert TrimStart(r) == r;
    assert TrimEnd(r) == r;
  }

  // ---------------------------------------------------------------------------
  // str.lower()
  // ---------------------------------------------------------------------------

  /** Python's `str.lower()` on one code point, for ASCII, the Latin-1 supplement and the
      Hungarian double-acute capitals Ő and Ű; other code points are left as they are. */
  function LowerChar(c: char): (r: char)
    ensures ('A' <= c <= 'Z') ==> r as int == c as int + 32
    ensures !IsUpper(c) ==> r == c
  {
    if IsUpper(c) then
      (if c == 'Ő' || c == 'Ű' then (c as int + 1) as char else (c as int + 32) as char)
    else c
  }

  /** The capitals `LowerChar` maps. */
  predicate IsUpper(c: char) {
    ('A' <= c <= 'Z') || ('À' <= c <= 'Þ' && c != '×') || c == 'Ő' || c == 'Ű'
  }

  /** Python's `s.lower()`. */
  function Lower(s: string): (r: string)
    ensures |r| == |s|
    ensures forall i :: 0 <= i < |s| ==> r[i] == LowerChar(s[i])
  {
    seq(|s|, i requires 0 <= i < |s| => LowerChar(s[i]))
  }

  /** Text that neither starts nor ends with whitespace is left alone by `strip()`. */
  lemma StripNoBlankEnds(s: string)
    requires s != [] ==> !IsSpace(s[0]) && !IsSpace(s[|s| - 1])
    ensures Strip(s) == s
  {
    assert TrimStart(s) == s;
    assert TrimEnd(s) == s;
  }

  /** Lower-casing a lower-cased string changes nothing. */
  lemma LowerIdempotent(s: string)
    ensures Lower(Lower(s)) == Lower(s)
  {
    forall i | 0 <= i < |s|
      ensures LowerChar(LowerChar(s[i])) == LowerChar(s[i])
    {
      assert !IsUpper(LowerChar(s[i]));
    }
  }

  // ---------------------------------------------------------------------------
  // Ordering of strings (Python compares code point by code point)
  // ---------------------------------------------------------------------------

  /** Python's `a <= b` on strings. */
  predicate StrLe(a: string, b: string)
    decreases |a|
  {
    if |a| == 0 then true
    else if |b| == 0 then false
    else if a[0] != b[0] then a[0] < b[0]
    else StrLe(a[1..], b[1..])
  }

  lemma {:induction false} StrLeTotal(a: string, b: string)
    ensures StrLe(a, b) || StrLe(b, a)
    decreases |a|
  {
    if |a| > 0 && |b| > 0 && a[0] == b[0] {
      StrLeTotal(a[1..], b[1..]);
    }
  }

  lemma {:induction false} StrLeTransitive(a: string, b: string, c: string)
    requires StrLe(a, b) && StrLe(b, c)
    ensures StrLe(a, c)
    decreases |a|
  {
    if |a| > 0 && |b| > 0 && |c| > 0 && a[0] == b[0] && b[0] == c[0] {
      StrLeTransitive(a[1..], b[1..], c[1..]);
    }
  }

  lemma {:induction false} StrLeAntisymmetric(a: string, b: string)
    requires StrLe(a, b) && StrLe(b, a)
    ensures a == b
    decreases |a|
  {
    if |a| > 0 {
      StrLeAntisymmetric(a[1..], b[1..]);
      assert a == [a[0]] + a[1..];
      assert b == [b[0]] + b[1..];
    }
  }

  // ---------------------------------------------------------------------------
  // Digits, str(n) and int(text, base)
  // ---------------------------------------------------------------------------

  predicate IsDecimalDigit(c: char) {
    '0' <= c <= '9'
  }

  /** The value of `c` as a digit of `base` (10 or 16; hexadecimal letters in either case). */
  function DigitValue(c: char, base: nat): Option<nat>
  {
    if '0' <= c <= '9' then Some(c as nat - '0' as nat)
    else if base == 16 && 'a' <= c <= 'f' then Some(c as nat - 'a' as nat + 10)
    else if base == 16 && 'A' <= c <= 'F' then Some(c as nat - 'A' as nat + 10)
    else None
  }

  predicate IsDigitOf(c: char, base: nat) {
    DigitValue(c, base).Some?
  }

  /** The decimal digit for `d`. */
  function DigitChar(d: nat): (c: char)
    requires d < 10
    ensures IsDecimalDigit(c) && DigitValue(c, 10) == Some(d)
  {
    ('0' as nat + d) as char
  }

  /** Python's `str(n)` for a natural number: its decimal digits, no leading zero. */
  function Decimal(n: nat): (r: string)
    ensures |r| > 0
    ensures forall i :: 0 <= i < |r| ==> IsDecimalDigit(r[i])
    ensures |r| > 1 ==> r[0] != '0'
    decreases n
  {
    if n < 10 then [DigitChar(n)] else Decimal(n / 10) + [DigitChar(n % 10)]
  }

  /** Python's `str(i)` for any integer. */
  function IntToString(i: int): (r: string)
    ensures |r| > 0
  {
    if i < 0 then "-" + Decimal(-i) else Decimal(i)
  }

  /** The number a run of digits and underscores denotes (underscores contribute nothing). */
  function DigitsValue(s: string, base: nat): nat
    requires base == 10 || base == 16
    decreases |s|
  {
    if |s| == 0 then 0
    else
      var last := s[|s| - 1];
      match DigitValue(last, base)
      case None => DigitsValue(s[..|s| - 1], base)
      case Some(d) => DigitsValue(s[..|s| - 1], base) * base + d
  }

  /** The digit part CPython accepts in `int(text, base)`: at least one digit, and
      underscores only singly and between two digits. */
  predicate WellFormedDigits(s: string, base: nat) {
    && |s| > 0
    && IsDigitOf(s[0], base)
    && IsDigitOf(s[|s| - 1], base)
    && (forall i :: 0 <= i < |s| ==> s[i] == '_' || IsDigitOf(s[i], base))
    && (forall i :: 0 <= i < |s| - 1 ==> s[i] == '_' ==> s[i + 1] != '_')
  }

  /** Python's `int(s, base)` for base 10 or 16 on ASCII digits: surrounding whitespace is
      ignored, then a signed number follows.  `None` is the `ValueError`. */
  function ParseInt(s: string, base: nat): (r: Option<int>)
    requires base == 10 || base == 16
    ensures r.Some? ==> |Strip(s)| > 0
  {
    ParseSigned(Strip(s), base)
  }

  /** One optional sign, then an unsigned number. */
  function ParseSigned(t: string, base: nat): (r: Option<int>)
    requires base == 10 || base == 16
    ensures r.Some? ==> |t| > 0
  {
    if |t| == 0 then None
    else
      var unsigned := if t[0] == '-' || t[0] == '+' then t[1..] else t;
      match ParseUnsigned(unsigned, base)
      case None => None
      case Some(v) =>
        var n: int := v;
        Some(if t[0] == '-' then -n else n)
  }

  /** For base 16 an optional `0x`/`0X` prefix (which may be followed by one underscore),
      then well-formed digits. */
  function ParseUnsigned(u: string, base: nat): (r: Option<nat>)
    requires base == 10 || base == 16
    ensures r.Some? ==> |u| > 0
  {
    var body :=
      if base == 16 && |u| >= 2 && u[0] == '0' && (u[1] == 'x' || u[1] == 'X') then
        (if |u| >= 3 && u[2] == '_' then u[3..] else u[2..])
      else u;
    if WellFormedDigits(body, base) then Some(DigitsValue(body, base)) else None
  }

  /** Reading back the rendering of `n` gives `n`. */
  lemma {:induction false} DigitsValueOfDecimal(n: nat)
    ensures DigitsValue(Decimal(n), 10) == n
    decreases n
  {
    if n >= 10 {
      DigitsValueOfDecimal(n / 10);
      var r := Decimal(n);
      assert r[..|r| - 1] == Decimal(n / 10);
    }
  }

  /** `int(str(n)) == n`: the decimal rendering round-trips through Python's parser. */
  lemma ParseDecimalRoundTrip(n: nat)
    ensures ParseInt(Decimal(n), 10) == Some(n)
  {
    var s := Decimal(n);
    StripOfDigits(s);
    DigitsValueOfDecimal(n);
    ParseIntOfDigits(s);
  }

  /** A run of decimal digits is well formed and has nothing to strip. */
  lemma StripOfDigits(s: string)
    requires |s| > 0 && forall i :: 0 <= i < |s| ==> IsDecimalDigit(s[i])
    ensures Strip(s) == s && WellFormedDigits(s, 10)
  {
    assert IsDecimalDigit(s[0]) && IsDecimalDigit(s[|s| - 1]);
    assert TrimStart(s) == s;
    assert TrimEnd(s) == s;
    forall i | 0 <= i < |s|
      ensures IsDigitOf(s[i], 10)
    {
      assert IsDecimalDigit(s[i]);
    }
  }

  /** `int()` of text with no blank at either end is the signed number it spells. */
  lemma ParseIntNoBlanks(s: string, base: nat)
    requires base == 10 || base == 16
    requires |s| > 0 && !IsSpace(s[0]) && !IsSpace(s[|s| - 1])
    ensures ParseInt(s, base) == ParseSigned(s, base)
  {
    StripNoBlankEnds(s);
  }

  /** `int()` of unsigned, unpadded, well-formed decimal digits is their value. */
  lemma ParseIntOfDigits(s: string)
    requires Strip(s) == s && WellFormedDigits(s, 10)
    ensures ParseInt(s, 10) == Some(DigitsValue(s, 10))
  {
    assert s[0] != '-' && s[0] != '+';
  }

  /** `int()` of a plus sign followed by well-formed decimal digits is their value. */
  lemma ParseIntOfPlusDigits(s: string)
    requires |s| >= 2 && s[0] == '+' && WellFormedDigits(s[1..], 10)
    ensures ParseInt(s, 10) == Some(DigitsValue(s[1..], 10))
  {
    var u := s[1..];
    assert IsDecimalDigit(s[|s| - 1]) by {
      assert s[|s| - 1] == u[|u| - 1];
    }
    ParseIntNoBlanks(s, 10);
    assert ParseUnsigned(u, 10) == Some(DigitsValue(u, 10));
  }

  /** Distinct numbers render differently. */
  lemma DecimalInjective(m: nat, n: nat)
    requires Decimal(m) == Decimal(n)
    ensures m == n
  {
    DigitsValueOfDecimal(m);
    DigitsValueOfDecimal(n);
  }
}

=== FILE: sorting.dfy ===
/** Python's `sorted(xs, key=k)` for the tuple keys the two windows use: keys are
    sequences of integers and texts compared lexicographically, and the sort is stable.
    (The windows only ever compare keys whose parts agree in type position by position,
    so the order chosen here between an integer and a text part never decides.) */
module Sorting {
  import opened PyText

  datatype KeyPart = KInt(i: int) | KStr(s: string)

  type Key = seq<KeyPart>

  /** Python's `a < b` on strings. */
  predicate StrLt(a: string, b: string) {
    StrLe(a, b) && a != b
  }

  predicate PartLt(a: KeyPart, b: KeyPart) {
    match (a, b)
    case (KInt(x), KInt(y)) => x < y
    case (KStr(x), KStr(y)) => StrLt(x, y)
    case (KInt(_), KStr(_)) => true
    case (KStr(_), KInt(_)) => false
  }

  /** Python's tuple `<`: the first differing part decides; a proper prefix is smaller. */
  predicate KeyLt(a: Key, b: Key)
    decreases |a|
  {
    if |b| == 0 then false
    else if |a| == 0 then true
    else if a[0] != b[0] then PartLt(a[0], b[0])
    else KeyLt(a[1..], b[1..])
  }

  predicate KeyLe(a: Key, b: Key) {
    !KeyLt(b, a)
  }

  /** Keys that agree up to position `k` are ordered by their parts at `k`. */
  lemma {:induction false} KeyLtAt(a: Key, b: Key, k: nat)
    requires k < |a| && k < |b| && a[..k] == b[..k] && PartLt(a[k], b[k])
    ensures KeyLt(a, b)
    decreases k
  {
    if k > 0 {
      assert a[0] == a[..k][0] == b[..k][0] == b[0];
      assert a[1..][..k - 1] == a[..k][1..] && b[1..][..k - 1] == b[..k][1..];
      KeyLtAt(a[1..], b[1..], k - 1);
    }
  }

  lemma StrLtTransitive(a: string, b: string, c: string)
    requires StrLt(a, b) && StrLt(b, c)
    ensures StrLt(a, c)
  {
    StrLeTransitive(a, b, c);
    if a == c {
      StrLeAntisymmetric(a, b);
    }
  }

  lemma PartLtTransitive(a: KeyPart, b: KeyPart, c: KeyPart)
    requires PartLt(a, b) && PartLt(b, c)
    ensures PartLt(a, c)
  {
    if a.KStr? && b.KStr? && c.KStr? {
      StrLtTransitive(a.s, b.s, c.s);
    }
  }

  lemma PartTrichotomy(a: KeyPart, b: KeyPart)
    ensures a == b || PartLt(a, b) || PartLt(b, a)
  {
    if a.KStr? && b.KStr? {
      StrLeTotal(a.s, b.s);
    }
  }

  lemma PartLtIrreflexive(a: KeyPart)
    ensures !PartLt(a, a)
  {
  }

  lemma {:induction false} KeyLtIrreflexive(a: Key)
    ensures !KeyLt(a, a)
    decreases |a|
  {
    if |a| > 0 {
      KeyLtIrreflexive(a[1..]);
    }
  }

  lemma {:induction false} KeyLtTransitive(a: Key, b: Key, c: Key)
    requires KeyLt(a, b) && KeyLt(b, c)
    ensures KeyLt(a, c)
    decreases |a|
  {
    if |a| > 0 {
      if a[0] != b[0] && b[0] != c[0] {
        PartLtTransitive(a[0], b[0], c[0]);
        if a[0] == c[0] {
          PartLtIrreflexive(a[0]);
        }
      } else if a[0] == b[0] && b[0] == c[0] {
        KeyLtTransitive(a[1..], b[1..], c[1..]);
      }
    }
  }

  lemma {:induction false} KeyTrichotomy(a: Key, b: Key)
    ensures a == b || KeyLt(a, b) || KeyLt(b, a)
    decreases |a|
  {
    if |a| > 0 && |b| > 0 {
      if a[0] == b[0] {
        KeyTrichotomy(a[1..], b[1..]);
        if a[1..] == b[1..] {
          assert a == [a[0]] + a[1..] && b == [b[0]] + b[1..];
        }
      } else {
        PartTrichotomy(a[0], b[0]);
      }
    }
  }

  /** `KeyLe` is a total preorder: total and transitive. */
  lemma KeyLeTotal(a: Key, b: Key)
    ensures KeyLe(a, b) || KeyLe(b, a)
  {
    if KeyLt(b, a) && KeyLt(a, b) {
      KeyLtTransitive(a, b, a);
      KeyLtIrreflexive(a);
    }
  }

  lemma KeyLeTransitive(a: Key, b: Key, c: Key)
    requires KeyLe(a, b) && KeyLe(b, c)
    ensures KeyLe(a, c)
  {
    if KeyLt(c, a) {
      KeyTrichotomy(a, b);
      if KeyLt(a, b) {
        KeyLtTransitive(c, a, b);
      }
    }
  }

  // ---------------------------------------------------------------------------
  // Stable insertion sort
  // ---------------------------------------------------------------------------

  predicate SortedBy<T>(s: seq<T>, key: T -> Key) {
    forall i, j :: 0 <= i < j < |s| ==> KeyLe(key(s[i]), key(s[j]))
  }

  /** Puts `x` in front of the first element whose key is not smaller than its own. */
  function Insert<T>(x: T, s: seq<T>, key: T -> Key): (r: seq<T>)
    ensures multiset(r) == multiset(s) + multiset{x}
    ensures |r| == |s| + 1
    decreases |s|
  {
    if s == [] then [x]
    else if KeyLt(key(s[0]), key(x)) then
      assert s == [s[0]] + s[1..];
      [s[0]] + Insert(x, s[1..], key)
    else [x] + s
  }

  lemma {:induction false} InsertSorted<T>(x: T, s: seq<T>, key: T -> Key)
    requires SortedBy(s, key)
    ensures SortedBy(Insert(x, s, key), key)
    decreases |s|
  {
    if s != [] {
      if KeyLt(key(s[0]), key(x)) {
        var rest := Insert(x, s[1..], key);
        InsertSorted(x, s[1..], key);
        var r := [s[0]] + rest;
        assert r == Insert(x, s, key);
        forall j | 0 < j < |r|
          ensures KeyLe(key(r[0]), key(r[j]))
        {
          assert r[j] in multiset(rest) by {
            assert r[j] == rest[j - 1];
          }
          assert r[j] in multiset(s[1..]) + multiset{x};
          if r[j] == x {
            KeyLeTotal(key(s[0]), key(x));
          } else {
            assert r[j] in s[1..];
            var k :| 0 <= k < |s[1..]| && s[1..][k] == r[j];
            assert s[k + 1] == r[j];
          }
        }
      } else {
        var r := [x] + s;
        forall j | 0 < j < |r|
          ensures KeyLe(key(x), key(r[j]))
        {
          assert r[j] == s[j - 1];
          if j > 1 {
            KeyLeTransitive(key(x), key(s[0]), key(r[j]));
          }
        }
      }
    }
  }

  /** `sorted(s, key=key)`: a stable insertion sort. */
  function Sort<T>(s: seq<T>, key: T -> Key): (r: seq<T>)
    ensures multiset(r) == multiset(s)
    ensures |r| == |s|
    decreases |s|
  {
    if s == [] then []
    else
      assert s == [s[0]] + s[1..];
      Insert(s[0], Sort(s[1..], key), key)
  }

  /** The result of `Sort` is in key order. */
  lemma {:induction false} SortSorted<T>(s: seq<T>, key: T -> Key)
    ensures SortedBy(Sort(s, key), key)
    decreases |s|
  {
    if s != [] {
      SortSorted(s[1..], key);
      InsertSorted(s[0], Sort(s[1..], key), key);
    }
  }

  /** In a sequence sorted by a key whose first part is 0 for the elements `p` selects and
      1 for the others, every selected element comes before every other one. */
  lemma SelectedFirst<T>(s: seq<T>, key: T -> Key, p: T -> bool, i: int, j: int)
    requires SortedBy(s, key)
    requires forall x :: x in s ==> |key(x)| > 0 && key(x)[0] == KInt(if p(x) then 0 else 1)
    requires 0 <= i < j < |s| && p(s[j])
    ensures p(s[i])
  {
    assert KeyLe(key(s[i]), key(s[j]));
  }

  // ---------------------------------------------------------------------------
  // List comprehensions
  // ---------------------------------------------------------------------------

  /** `[x for x in s if p(x)]`: the elements `p` selects, in their order in `s`. */
  function Filter<T>(s: seq<T>, p: T -> bool): (r: seq<T>)
    ensures forall i :: 0 <= i < |r| ==> r[i] in s && p(r[i])
    ensures forall i :: 0 <= i < |s| && p(s[i]) ==> s[i] in r
    ensures |r| <= |s|
    decreases |s|
  {
    if s == [] then []
    else if p(s[0]) then [s[0]] + Filter(s[1..], p)
    else Filter(s[1..], p)
  }

  /** The positions from `from` on of the elements `p` selects, in increasing order. */
  function Selected<T>(s: seq<T>, p: T -> bool, from: nat): (r: seq<nat>)
    ensures forall k :: 0 <= k < |r| ==> from <= r[k] < |s| && p(s[r[k]])
    ensures forall k, l :: 0 <= k < l < |r| ==> r[k] < r[l]
    ensures forall i :: from <= i < |s| && p(s[i]) ==> i in r
    decreases |s| - from
  {
    if from >= |s| then []
    else
      var rest := Selected(s, p, from + 1);
      var r := (if p(s[from]) then [from] else []) + rest;
      assert forall k :: 0 <= k < |r| ==> from <= r[k] < |s| && p(s[r[k]]) by {
        forall k | 0 <= k < |r|
          ensures from <= r[k] < |s| && p(s[r[k]])
        {
          if !p(s[from]) || k > 0 {
            assert r[k] == rest[k - (|r| - |rest|)];
          }
        }
      }
      r
  }

  /** `r` is `s` read at the positions `at`, in that order. */
  ghost predicate ReadAt<T>(r: seq<T>, s: seq<T>, at: seq<nat>) {
    |r| == |at| && forall k :: 0 <= k < |at| ==> at[k] < |s| && r[k] == s[at[k]]
  }

  lemma ReadAtCons<T>(s: seq<T>, r: seq<T>, at: seq<nat>, i: nat)
    requires ReadAt(r, s, at) && i < |s|
    ensures ReadAt([s[i]] + r, s, [i] + at)
  {
    var r', at' := [s[i]] + r, [i] + at;
    forall k | 0 < k < |at'|
      ensures at'[k] < |s| && r'[k] == s[at'[k]]
    {
      assert r'[k] == r[k - 1] && at'[k] == at[k - 1];
    }
  }

  /** `Filter` keeps exactly the selected positions, in their order: together with the
      contract of `Selected`, the result is `s` with the unselected elements removed. */
  lemma {:induction false} FilterInOrder<T>(s: seq<T>, p: T -> bool, from: nat)
    requires from <= |s|
    ensures ReadAt(Filter(s[from..], p), s, Selected(s, p, from))
    decreases |s| - from
  {
    if from < |s| {
      FilterInOrder(s, p, from + 1);
      var t := s[from..];
      assert t[0] == s[from] && t[1..] == s[from + 1..];
      if p(s[from]) {
        ReadAtCons(s, Filter(s[from + 1..], p), Selected(s, p, from + 1), from);
      }
    }
  }

  /** `Filter` keeps every selected element as often as it occurs, and no other. */
  lemma {:induction false} FilterCounts<T>(s: seq<T>, p: T -> bool, x: T)
    ensures multiset(Filter(s, p))[x] == if p(x) then multiset(s)[x] else 0
    decreases |s|
  {
    if s != [] {
      FilterCounts(s[1..], p, x);
      assert s == [s[0]] + s[1..];
    }
  }

  /** Filtering permutations of one sequence gives permutations of one another. */
  lemma FilterPermutation<T>(s: seq<T>, t: seq<T>, p: T -> bool)
    requires multiset(s) == multiset(t)
    ensures multiset(Filter(s, p)) == multiset(Filter(t, p))
  {
    forall x
      ensures multiset(Filter(s, p))[x] == multiset(Filter(t, p))[x]
    {
      FilterCounts(s, p, x);
      FilterCounts(t, p, x);
    }
  }

  lemma FilterOne<T>(x: T, p: T -> bool)
    ensures Filter([x], p) == if p(x) then [x] else []
  {
    assert [x][1..] == [];
  }

  /** Filtering a concatenation filters each part. */
  lemma {:induction false} FilterAppend<T>(a: seq<T>, b: seq<T>, p: T -> bool)
    ensures Filter(a + b, p) == Filter(a, p) + Filter(b, p)
    decreases |a|
  {
    if a == [] {
      assert a + b == b;
    } else {
      assert (a + b)[0] == a[0] && (a + b)[1..] == a[1..] + b;
      FilterAppend(a[1..], b, p);
    }
  }

  /** How many elements `p` selects depends only on the multiset of elements, so it
      is the same before and after sorting. */
  lemma {:induction false} FilterCountPermutation<T>(s: seq<T>, t: seq<T>, p: T -> bool)
    requires multiset(s) == multiset(t)
    ensures |Filter(s, p)| == |Filter(t, p)|
    decreases |s|
  {
    if s != [] {
      assert s[0] in multiset(t);
      var k :| 0 <= k < |t| && t[k] == s[0];
      var rest := t[..k] + t[k + 1..];
      assert t == t[..k] + [t[k]] + t[k + 1..];
      assert s == [s[0]] + s[1..];
      assert multiset(t) == multiset(t[..k]) + multiset{s[0]} + multiset(t[k + 1..]);
      assert multiset(rest) == multiset(t[..k]) + multiset(t[k + 1..]);
      assert multiset(s) == multiset{s[0]} + multiset(s[1..]);
      assert multiset(s[1..]) == multiset(s) - multiset{s[0]};
      assert multiset(s[1..]) == multiset(rest);
      FilterCountPermutation(s[1..], rest, p);
      FilterAppend(t[..k] + [t[k]], t[k + 1..], p);
      FilterAppend(t[..k], [t[k]], p);
      FilterAppend(t[..k], t[k + 1..], p);
      FilterAppend([s[0]], s[1..], p);
    }
  }

  /** Filtering keeps a sorted sequence sorted. */
  lemma {:induction false} FilterSorted<T>(s: seq<T>, key: T -> Key, p: T -> bool)
    requires SortedBy(s, key)
    ensures SortedBy(Filter(s, p), key)
    decreases |s|
  {
    if s != [] {
      assert SortedBy(s[1..], key) by {
        forall i, j | 0 <= i < j < |s[1..]|
          ensures KeyLe(key(s[1..][i]), key(s[1..][j]))
        {
          assert s[1..][i] == s[i + 1] && s[1..][j] == s[j + 1];
        }
      }
      FilterSorted(s[1..], key, p);
      if p(s[0]) {
        var r := [s[0]] + Filter(s[1..], p);
        forall j | 0 < j < |r|
          ensures KeyLe(key(r[0]), key(r[j]))
        {
          assert r[j] in Filter(s[1..], p) by {
            assert r[j] == Filter(s[1..], p)[j - 1];
          }
          var k :| 0 <= k < |s[1..]| && s[1..][k] == r[j];
          assert s[k + 1] == r[j];
        }
      }
    }
  }
}

=== FILE: tasklist.dfy ===
/** The task list of the window (`_render_tasks`, `_update_header_counts`, `_prev_page`
    and `_next_page` of qt_app.py): open tasks first, most pressing on top; finished
    tasks after them, latest deadline first, twelve to a page; and the header's count of
    open and overdue tasks.  The clock is the `today` parameter, a day ordinal. */
module TaskList {
  import opened Wrappers
  import opened PyText
  import opened Calendar
  import opened Tasks
  import opened DateInput
  import opened Due
  import opened Sorting

  /** The day difference the window's sort key uses for a task without a due date. */
  const NO_DIFF: int := 9999
  /** Sort values that put undated tasks after every dated one. */
  const UNDATED_DIFF: int := 999999
  const UNDATED_DATE: int := 999999999
  /** The day ordinal of 9999-12-31, the last day Python's dates reach. */
  const LAST_DAY: int := 3652059
  /** Finished tasks shown per page. */
  const PAGE_SIZE: nat := 12

  // ---------------------------------------------------------------------------
  // The sort key
  // ---------------------------------------------------------------------------

  /** The key as `sort_key` computes it: a task without a due date gets the difference
      9999, and every later test for "no due date" asks whether the difference is 9999. */
  function SortKeyAsWritten(t: Task, today: int): (k: Key)
    ensures |k| > 0 && k[0] == KInt(if IsActive(t) then 0 else 1)
  {
    var diff := match DaysLeft(t.due, today) case Some(d) => d case None => NO_DIFF;
    if IsActive(t) then
      var group := if diff < 0 then 0 else if diff <= 7 then 1 else if diff == NO_DIFF then 3 else 2;
      var diffSort := if diff != NO_DIFF then diff else UNDATED_DIFF;
      var dateSort := match ParseDue(t.due) case Some(d) => Ordinal(d) case None => UNDATED_DATE;
      [KInt(0), KInt(group), KInt(diffSort), KInt(dateSort), KStr(Lower(t.title))]
    else
      var sortVal := if diff == NO_DIFF then UNDATED_DATE else -diff;
      [KInt(1), KInt(sortVal), KStr(Lower(t.title))]
  }

  /** The key with "no due date" decided by whether the due text parsed: open tasks by
      urgency class, then days left, then deadline, then lower-cased title; the others
      latest deadline first, undated last, then by title. */
  function SortKey(t: Task, today: int): (k: Key)
    ensures |k| > 0 && k[0] == KInt(if IsActive(t) then 0 else 1)
    ensures IsActive(t) ==>
      |k| == 5 && k[1] == KInt(UrgencyRank(Classify(t.due, today))) && k[4] == KStr(Lower(t.title))
    ensures !IsActive(t) ==> |k| == 3 && k[2] == KStr(Lower(t.title))
    ensures !IsActive(t) && ParseDue(t.due).None? ==> k[1] == KInt(UNDATED_DATE)
    ensures !IsActive(t) && ParseDue(t.due).Some? ==> k[1] == KInt(today - Ordinal(ParseDue(t.due).value))
  {
    match ParseDue(t.due)
    case Some(d) =>
      var diff := Ordinal(d) - today;
      if IsActive(t) then
        [KInt(0), KInt(UrgencyRank(Classify(t.due, today))), KInt(diff), KInt(Ordinal(d)), KStr(Lower(t.title))]
      else
        [KInt(1), KInt(-diff), KStr(Lower(t.title))]
    case None =>
      if IsActive(t) then
        [KInt(0), KInt(3), KInt(UNDATED_DIFF), KInt(UNDATED_DATE), KStr(Lower(t.title))]
      else
        [KInt(1), KInt(UNDATED_DATE), KStr(Lower(t.title))]
  }

  /** The two keys agree on every task whose deadline is not exactly 9999 days away. */
  lemma SortKeyAgrees(t: Task, today: int)
    requires DaysLeft(t.due, today) != Some(NO_DIFF)
    ensures SortKeyAsWritten(t, today) == SortKey(t, today)
  {
  }

  /** An open task due exactly 9999 days from today is sorted into the group of tasks
      without a deadline, after every other dated task, while its card is green like any
      task due later than a week. */
  lemma SentinelOpenTask(t: Task, today: int)
    requires IsActive(t) && DaysLeft(t.due, today) == Some(NO_DIFF)
    ensures SortKeyAsWritten(t, today)[1] == KInt(3)
    ensures SortKeyAsWritten(t, today)[2] == KInt(UNDATED_DIFF)
    ensures CardColors(t, today) == GREEN
    ensures SortKey(t, today)[1] == KInt(2)
  {
  }

  /** A finished task due exactly 9999 days from today is listed with the undated ones,
      after every dated task, although its deadline is the latest of all. */
  lemma SentinelFinishedTask(t: Task, today: int)
    requires !IsActive(t) && DaysLeft(t.due, today) == Some(NO_DIFF)
    ensures SortKeyAsWritten(t, today)[1] == KInt(UNDATED_DATE)
    ensures SortKey(t, today)[1] == KInt(-NO_DIFF)
  {
  }

  /** Such a deadline exists: 2051-05-18 is 9999 days after 2024-01-01. */
  lemma SentinelDate()
    ensures IsValid(Date(2051, 5, 18)) && IsValid(Date(2024, 1, 1))
    ensures Ordinal(Date(2051, 5, 18)) - Ordinal(Date(2024, 1, 1)) == NO_DIFF
  {
  }

  // ---------------------------------------------------------------------------
  // What the key orders
  // ---------------------------------------------------------------------------

  /** Every open task sorts before every task that is not open, under either key. */
  lemma OpenBeforeOthers(a: Task, b: Task, today: int)
    requires IsActive(a) && !IsActive(b)
    ensures KeyLt(SortKeyAsWritten(a, today), SortKeyAsWritten(b, today))
    ensures KeyLt(SortKey(a, today), SortKey(b, today))
  {
  }

  /** Every date Python can represent has an ordinal below the undated sentinel. */
  lemma OrdinalBelowSentinel(d: Date)
    requires IsValid(d)
    ensures 1 <= Ordinal(d) <= LAST_DAY < UNDATED_DATE
  {
    var last := Date(9999, 12, 31);
    assert Ordinal(last) == LAST_DAY;
    OrdinalInYear(d);
    if d != last {
      assert Before(d, last);
      OrdinalOrder(d, last);
    }
  }

  /** Of two open tasks the one in the more pressing class sorts first, under either key:
      the sentinel moves a task due in exactly 9999 days into the undated group, but
      still ahead of the undated tasks, whose deadline field is the larger sentinel. */
  lemma MorePressingFirst(a: Task, b: Task, today: int)
    requires IsActive(a) && IsActive(b)
    requires UrgencyRank(Classify(a.due, today)) < UrgencyRank(Classify(b.due, today))
    ensures KeyLt(SortKey(a, today), SortKey(b, today))
    ensures KeyLt(SortKeyAsWritten(a, today), SortKeyAsWritten(b, today))
  {
    var ka, kb := SortKey(a, today), SortKey(b, today);
    assert ka[0] == kb[0] && ka[1] != kb[1];
    assert ka[1..][0] == ka[1] && kb[1..][0] == kb[1];
    var wa, wb := SortKeyAsWritten(a, today), SortKeyAsWritten(b, today);
    if DaysLeft(a.due, today) != Some(NO_DIFF) && DaysLeft(b.due, today) != Some(NO_DIFF) {
      SortKeyAgrees(a, today);
      SortKeyAgrees(b, today);
    } else if DaysLeft(b.due, today) == Some(NO_DIFF) {
      assert wa[1] == KInt(UrgencyRank(Classify(a.due, today))) && wb[1] == KInt(3);
      assert wa[1..][0] == wa[1] && wb[1..][0] == wb[1];
    } else {
      var da := ParseDue(a.due).value;
      OrdinalBelowSentinel(da);
      assert ParseDue(b.due).None?;
      assert wa[..3] == wb[..3];
      assert wa[3] == KInt(Ordinal(da)) && wb[3] == KInt(UNDATED_DATE);
      KeyLtAt(wa, wb, 3);
    }
  }

  /** Of two open dated tasks the one due earlier sorts first. */
  lemma EarlierDeadlineFirst(a: Task, b: Task, today: int)
    requires IsActive(a) && IsActive(b)
    requires ParseDue(a.due).Some? && ParseDue(b.due).Some?
    requires Before(ParseDue(a.due).value, ParseDue(b.due).value)
    ensures KeyLt(SortKey(a, today), SortKey(b, today))
  {
    var da, db := ParseDue(a.due).value, ParseDue(b.due).value;
    OrdinalOrder(da, db);
    var ka, kb := SortKey(a, today), SortKey(b, today);
    if ka[1] == kb[1] {
      assert ka[2] == KInt(Ordinal(da) - today) && kb[2] == KInt(Ordinal(db) - today);
      assert ka[1..][1..][0] == ka[2] && kb[1..][1..][0] == kb[2];
    } else {
      ClassifyByDate(a.due, b.due, today);
      MorePressingFirst(a, b, today);
    }
  }

  /** Of two finished tasks a dated one sorts before an undated one, and of two dated ones
      the one due later sorts first. */
  lemma FinishedLatestFirst(a: Task, b: Task, today: int)
    requires 1 <= today <= LAST_DAY
    requires !IsActive(a) && !IsActive(b)
    requires ParseDue(a.due).Some?
    requires ParseDue(b.due).Some? ==> Before(ParseDue(b.due).value, ParseDue(a.due).value)
    ensures KeyLt(SortKey(a, today), SortKey(b, today))
  {
    var ka, kb := SortKey(a, today), SortKey(b, today);
    var da := ParseDue(a.due).value;
    if ParseDue(b.due).Some? {
      OrdinalOrder(ParseDue(b.due).value, da);
    } else {
      assert Ordinal(da) >= 1 by {
        OrdinalInYear(da);
      }
    }
    assert ka[0] == kb[0];
    assert ka[1..][0] == ka[1] && kb[1..][0] == kb[1];
    assert PartLt(ka[1], kb[1]);
    assert KeyLt(ka[1..], kb[1..]);
  }

  /** The finished-task order the sentinel breaks: a task finished with a deadline 9999
      days away sorts after one due tomorrow under the key as written, although its
      deadline is the later one and the corrected key puts it first. */
  lemma SentinelMisorders(a: Task, c: Task, today: int)
    requires !IsActive(a) && !IsActive(c)
    requires DaysLeft(a.due, today) == Some(NO_DIFF) && DaysLeft(c.due, today) == Some(1)
    ensures KeyLt(SortKey(a, today), SortKey(c, today))
    ensures KeyLt(SortKeyAsWritten(c, today), SortKeyAsWritten(a, today))
  {
    var ka, kc := SortKey(a, today), SortKey(c, today);
    assert ka[1..][0] == ka[1] && kc[1..][0] == kc[1];
    var wa, wc := SortKeyAsWritten(a, today), SortKeyAsWritten(c, today);
    assert wa[1..][0] == wa[1] && wc[1..][0] == wc[1];
  }

  /** The order of `sorted(tasks, key=sort_key)`, with the key as written. */
  function SortTasks(tasks: seq<Task>, today: int): (r: seq<Task>)
    ensures multiset(r) == multiset(tasks)
    ensures SortedBy(r, t => SortKeyAsWritten(t, today))
  {
    SortSorted(tasks, t => SortKeyAsWritten(t, today));
    Sort(tasks, t => SortKeyAsWritten(t, today))
  }

  /** The same sort with the corrected key. */
  function SortTasksCorrected(tasks: seq<Task>, today: int): (r: seq<Task>)
    ensures multiset(r) == multiset(tasks)
    ensures SortedBy(r, t => SortKey(t, today))
  {
    SortSorted(tasks, t => SortKey(t, today));
    Sort(tasks, t => SortKey(t, today))
  }

  /** With the corrected key, finished tasks run from the latest deadline to the
      earliest, and undated ones come last. */
  lemma SortedFinishedTasksCorrected(tasks: seq<Task>, today: int, i: int, j: int)
    requires 1 <= today <= LAST_DAY
    requires 0 <= i < j < |SortTasksCorrected(tasks, today)|
    requires !IsActive(SortTasksCorrected(tasks, today)[i]) && !IsActive(SortTasksCorrected(tasks, today)[j])
    requires ParseDue(SortTasksCorrected(tasks, today)[j].due).Some?
    ensures ParseDue(SortTasksCorrected(tasks, today)[i].due).Some?
    ensures !Before(ParseDue(SortTasksCorrected(tasks, today)[i].due).value,
                    ParseDue(SortTasksCorrected(tasks, today)[j].due).value)
  {
    var s := SortTasksCorrected(tasks, today);
    assert KeyLe(SortKey(s[i], today), SortKey(s[j], today));
    if ParseDue(s[i].due).None? || Before(ParseDue(s[i].due).value, ParseDue(s[j].due).value) {
      FinishedLatestFirst(s[j], s[i], today);
    }
  }

  /** In the sorted list every open task comes before every other task, and the open
      tasks run from the most to the least pressing class. */
  lemma SortedOpenTasks(tasks: seq<Task>, today: int, i: int, j: int)
    requires 0 <= i < j < |SortTasks(tasks, today)|
    requires IsActive(SortTasks(tasks, today)[j])
    ensures IsActive(SortTasks(tasks, today)[i])
    ensures UrgencyRank(Classify(SortTasks(tasks, today)[i].due, today))
         <= UrgencyRank(Classify(SortTasks(tasks, today)[j].due, today))
  {
    var s := SortTasks(tasks, today);
    SelectedFirst(s, t => SortKeyAsWritten(t, today), IsActive, i, j);
    assert KeyLe(SortKeyAsWritten(s[i], today), SortKeyAsWritten(s[j], today));
    if UrgencyRank(Classify(s[j].due, today)) < UrgencyRank(Classify(s[i].due, today)) {
      MorePressingFirst(s[j], s[i], today);
    }
  }

  // ---------------------------------------------------------------------------
  // Header counts
  // ---------------------------------------------------------------------------

  /** Selects the tasks whose card is red: open and overdue. */
  function RedCard(today: int): Task -> bool {
    t => CardColors(t, today) == RED
  }

  /** A card is red exactly when its task is open and its due date parses and lies
      before today. */
  lemma RedCardOverdue(t: Task, today: int)
    ensures RedCard(today)(t) <==>
      IsActive(t) && ParseDue(t.due).Some? && Ordinal(ParseDue(t.due).value) < today
  {
  }

  /** Counting one more task adds one to each count whose test it passes. */
  lemma CountStep(prefix: seq<Task>, t: Task, today: int)
    ensures |Filter(prefix + [t], IsActive)| == |Filter(prefix, IsActive)| + if IsActive(t) then 1 else 0
    ensures |Filter(prefix + [t], RedCard(today))| == |Filter(prefix, RedCard(today))|
      + if IsActive(t) && ParseDue(t.due).Some? && Ordinal(ParseDue(t.due).value) < today then 1 else 0
  {
    FilterAppend(prefix, [t], IsActive);
    FilterAppend(prefix, [t], RedCard(today));
    FilterOne(t, IsActive);
    FilterOne(t, RedCard(today));
    RedCardOverdue(t, today);
  }

  /** `CountStep` for the prefixes a loop over `tasks` walks through. */
  lemma CountPrefix(tasks: seq<Task>, i: int, today: int)
    requires 0 <= i < |tasks|
    ensures |Filter(tasks[..i + 1], IsActive)| == |Filter(tasks[..i], IsActive)| + if IsActive(tasks[i]) then 1 else 0
    ensures |Filter(tasks[..i + 1], RedCard(today))| == |Filter(tasks[..i], RedCard(today))|
      + if IsActive(tasks[i]) && ParseDue(tasks[i].due).Some? && Ordinal(ParseDue(tasks[i].due).value) < today then 1 else 0
  {
    assert tasks[..i + 1] == tasks[..i] + [tasks[i]];
    CountStep(tasks[..i], tasks[i], today);
  }

  /** `_update_header_counts`: the number of open tasks, and of open tasks whose due date
      parses and lies before today. */
  method HeaderCounts(tasks: seq<Task>, today: int) returns (active: nat, expired: nat)
    ensures active == |Filter(tasks, IsActive)|
    ensures expired == |Filter(tasks, RedCard(today))|
    ensures expired <= active
  {
    active, expired := 0, 0;
    var i := 0;
    while i < |tasks|
      invariant 0 <= i <= |tasks|
      invariant active == |Filter(tasks[..i], IsActive)|
      invariant expired == |Filter(tasks[..i], RedCard(today))|
      invariant expired <= active
    {
      var t := tasks[i];
      CountPrefix(tasks, i, today);
      if t.status == ACTIVE {
        active := active + 1;
        match ParseDue(t.due)
        case Some(dued) =>
          if Ordinal(dued) < today {
            expired := expired + 1;
          }
        case None =>
      }
      i := i + 1;
    }
    assert tasks[..|tasks|] == tasks;
  }

  // ---------------------------------------------------------------------------
  // Pages of finished tasks
  // ---------------------------------------------------------------------------

  /** `max(1, (n + 11) // 12)`: the fewest pages that hold `n` tasks, and at least one. */
  function MaxPages(n: nat): (m: nat)
    ensures m >= 1
    ensures n <= m * PAGE_SIZE
    ensures n > 0 ==> (m - 1) * PAGE_SIZE < n
  {
    var q := (n + 11) / 12;
    if q < 1 then 1 else q
  }

  /** The page the window shows when it has `n > 0` finished tasks: the stored page
      pulled into range. */
  function ClampPage(page: int, n: nat): (p: int)
    requires n > 0
    ensures 1 <= p <= MaxPages(n)
    ensures 1 <= page <= MaxPages(n) ==> p == page
  {
    var m := MaxPages(n);
    if page > m then m else if page < 1 then 1 else page
  }

  /** `done[(page - 1) * 12 : (page - 1) * 12 + 12]`. */
  function PageSlice(done: seq<Task>, page: int): (r: seq<Task>)
    requires 1 <= page <= MaxPages(|done|)
    ensures |r| <= PAGE_SIZE
    ensures (page - 1) * PAGE_SIZE + |r| <= |done|
    ensures done != [] ==> r != []
    ensures forall k :: 0 <= k < |r| ==> r[k] == done[(page - 1) * PAGE_SIZE + k]
  {
    var start := (page - 1) * PAGE_SIZE;
    assert start <= |done| by {
      if |done| > 0 {
        assert (page - 1) * PAGE_SIZE <= (MaxPages(|done|) - 1) * PAGE_SIZE;
      }
    }
    var end := if start + PAGE_SIZE <= |done| then start + PAGE_SIZE else |done|;
    done[start..end]
  }

  /** Every finished task is on a page: the `i`-th is the `i % 12`-th entry of page
      `i // 12 + 1`. */
  lemma EveryTaskOnItsPage(done: seq<Task>, i: int)
    requires 0 <= i < |done|
    ensures 1 <= i / PAGE_SIZE + 1 <= MaxPages(|done|)
    ensures i % PAGE_SIZE < |PageSlice(done, i / PAGE_SIZE + 1)|
    ensures PageSlice(done, i / PAGE_SIZE + 1)[i % PAGE_SIZE] == done[i]
  {
    var p := i / PAGE_SIZE + 1;
    assert (p - 1) * PAGE_SIZE + i % PAGE_SIZE == i;
  }

  /** And on one page only: the `k`-th entry of page `p` is the finished task at position
      `(p - 1) * 12 + k`, whose page is `p` again. */
  lemma PageEntryPosition(done: seq<Task>, p: int, k: int)
    requires 1 <= p <= MaxPages(|done|)
    requires 0 <= k < |PageSlice(done, p)|
    ensures var i := (p - 1) * PAGE_SIZE + k;
      0 <= i < |done| && i / PAGE_SIZE + 1 == p && i % PAGE_SIZE == k
  {
  }

  /** What `_render_tasks` puts on screen. */
  datatype View = View(open: seq<Task>, done: seq<Task>, page: int, shown: seq<Task>)

  /** `_render_tasks`: the sorted open and finished tasks, the stored page pulled into
      range when there are finished tasks, and that page's slice of them. */
  function Render(tasks: seq<Task>, today: int, page: int): (v: View)
    ensures forall t :: t in v.open ==> t in tasks && IsActive(t)
    ensures forall t :: t in tasks && IsActive(t) ==> t in v.open
    ensures forall t :: t in v.done ==> t in tasks && IsDone(t)
    ensures forall t :: t in tasks && IsDone(t) ==> t in v.done
    ensures SortedBy(v.open, t => SortKeyAsWritten(t, today)) && SortedBy(v.done, t => SortKeyAsWritten(t, today))
    ensures multiset(v.open) == multiset(Filter(tasks, IsActive))
    ensures multiset(v.done) == multiset(Filter(tasks, IsDone))
    ensures |v.done| == |Filter(tasks, IsDone)|
    ensures v.done != [] ==> 1 <= v.page <= MaxPages(|v.done|) && v.shown == PageSlice(v.done, v.page)
    ensures v.done == [] ==> v.page == page && v.shown == []
  {
    var sorted := SortTasks(tasks, today);
    var open := Filter(sorted, IsActive);
    var done := Filter(sorted, IsDone);
    FilterSorted(sorted, t => SortKeyAsWritten(t, today), IsActive);
    FilterSorted(sorted, t => SortKeyAsWritten(t, today), IsDone);
    FilterPermutation(sorted, tasks, IsActive);
    FilterPermutation(sorted, tasks, IsDone);
    MembershipSurvivesSort(tasks, today);
    if done == [] then View(open, done, page, [])
    else
      var p := ClampPage(page, |done|);
      View(open, done, p, PageSlice(done, p))
  }

  lemma MembershipSurvivesSort(tasks: seq<Task>, today: int)
    ensures forall t :: t in SortTasks(tasks, today) <==> t in tasks
  {
    var s := SortTasks(tasks, today);
    forall t
      ensures t in s <==> t in tasks
    {
      assert t in s <==> t in multiset(s);
      assert t in tasks <==> t in multiset(tasks);
    }
  }

  /** `_prev_page`. */
  function PrevPage(page: int): (p: int)
    ensures page > 1 ==> p == page - 1
    ensures page <= 1 ==> p == page
  {
    if page > 1 then page - 1 else page
  }

  /** `_next_page`, which counts the finished tasks itself. */
  function NextPage(page: int, tasks: seq<Task>): (p: int)
    ensures var m := MaxPages(|Filter(tasks, IsDone)|);
      && (page < m ==> p == page + 1)
      && (page >= m ==> p == page)
  {
    var m := MaxPages(|Filter(tasks, IsDone)|);
    if page < m then page + 1 else page
  }

  /** Paging from a page the window shows lands on a page it shows without clamping, and
      a step forward and a step back undo each other. */
  lemma PagingStaysInRange(tasks: seq<Task>, today: int, page: int)
    requires Filter(tasks, IsDone) != []
    requires 1 <= page <= MaxPages(|Filter(tasks, IsDone)|)
    ensures Render(tasks, today, PrevPage(page)).page == PrevPage(page)
    ensures Render(tasks, today, NextPage(page, tasks)).page == NextPage(page, tasks)
    ensures page > 1 ==> NextPage(PrevPage(page), tasks) == page
    ensures page < MaxPages(|Filter(tasks, IsDone)|) ==> PrevPage(NextPage(page, tasks)) == page
  {
    var v := Render(tasks, today, PrevPage(page));
    var w := Render(tasks, today, NextPage(page, tasks));
    assert v.done != [] && w.done != [];
  }
}

=== FILE: tasks.dfy ===
/** The task record the client passes around.  The API client builds it from a server
    task (`fetch_data` in backend.py) and the window reads it as a `TaskViewModel`
    (qt_widgets.py); both carry the same five text fields, the client's `date` being the
    view model's `due`. */
module Tasks {

  /** Status of a task that is still open (percentComplete below 100). */
  const ACTIVE: string := "FOLYAMATBAN"
  /** Status of a finished task (percentComplete 100). */
  const DONE: string := "KESZ"
  /** The due-date text of a task without a deadline. */
  const NO_DEADLINE: string := "Nincs határidő"

  /** Priority levels of the current client, most to least pressing. */
  const URGENT: string := "urgent"
  const IMPORTANT: string := "important"
  const MEDIUM: string := "medium"
  const LOW: string := "low"
  /** The older client's top level. */
  const HIGH: string := "high"

  datatype Task = Task(id: string, title: string, status: string, due: string, priority: string)

  predicate IsActive(t: Task) {
    t.status == ACTIVE
  }

  predicate IsDone(t: Task) {
    t.status == DONE
  }
}

=== FILE: window.dfy ===
/** The state the main window (qt_app.py) keeps between events: the refresh flag, the
    status line held back while a banner is up, the add-task form's checks, the bucket
    choice remembered per plan, the plan labels, and what a finished fetch turns into.
    Timers, widgets, sounds and the defaults file are left to the caller: each event is
    a function from the old state to the new one. */
module Window {
  import opened Wrappers
  import opened PyText
  import opened Calendar
  import opened Tasks
  import opened Normalize
  import opened Graph
  import opened Workers
  import opened DateInput
  import opened Sorting

  // ---------------------------------------------------------------------------
  // The refresh flag
  // ---------------------------------------------------------------------------

  /** `_is_refreshing`, and how many fetch jobs are running. */
  datatype Refresh = Refresh(refreshing: bool, inFlight: nat)

  /** `start_refresh`: a no-op while a refresh is under way, otherwise starts a fetch. */
  function StartRefresh(r: Refresh): (s: Refresh)
    ensures r.refreshing ==> s == r
    ensures !r.refreshing ==> s.refreshing && s.inFlight == r.inFlight + 1
  {
    if r.refreshing then r else Refresh(true, r.inFlight + 1)
  }

  /** `_on_fetched`: a fetch job has finished. */
  function Fetched(r: Refresh): (s: Refresh)
    requires r.inFlight > 0
    ensures !s.refreshing && s.inFlight + 1 == r.inFlight
  {
    Refresh(false, r.inFlight - 1)
  }

  /** `_on_busy_timeout`: the guard timer clears the flag without waiting for the job,
      and reports the timeout through the guarded status line. */
  function BusyTimeout(r: Refresh, h: Header): (s: (Refresh, Header))
    ensures !s.0.refreshing && s.0.inFlight == r.inFlight
    ensures !BannerUp(h) ==> s.1.line == Status("Timeout", "warn")
    ensures BannerUp(h) ==> s.1.line == h.line && s.1.pendingText == Some("Timeout") && s.1.pendingKind == Some("warn")
    ensures s.1.startup == h.startup && s.1.hotkey == h.hotkey && s.1.lastCounts == h.lastCounts
  {
    (r.(refreshing := false), SetStatusGuarded(h, "Timeout", "warn"))
  }

  /** The flag is up exactly while the one fetch job runs. */
  predicate OneFetch(r: Refresh) {
    r.inFlight == if r.refreshing then 1 else 0
  }

  /** Starting and finishing refreshes keep at most one fetch running. */
  lemma OneFetchAtATime(r: Refresh)
    requires OneFetch(r)
    ensures OneFetch(StartRefresh(r))
    ensures r.inFlight > 0 ==> OneFetch(Fetched(r))
  {
  }

  /** After the guard timer fires, a new refresh starts a second fetch while the first
      is still running; the window renders whichever result arrives last. */
  lemma TimeoutAllowsSecondFetch(r: Refresh, h: Header)
    requires OneFetch(r) && r.refreshing
    ensures StartRefresh(BusyTimeout(r, h).0).inFlight == 2
  {
  }

  // ---------------------------------------------------------------------------
  // The header line while a banner is up
  // ---------------------------------------------------------------------------

  /** What the header line shows: a status message of some kind, or the task counts. */
  datatype Line = Status(text: string, kind: string) | Counts(active: nat, expired: nat)

  /** The banner flags, the held-back status (`_pending_status_text` and `_kind`), the
      last counts and the line on screen. */
  datatype Header = Header(startup: bool, hotkey: bool, pendingText: Option<string>,
                           pendingKind: Option<string>, lastCounts: Option<(nat, nat)>, line: Line)

  predicate BannerUp(h: Header) {
    h.startup || h.hotkey
  }

  /** `set_status_guarded`: while a banner is up the status is held back (replacing any
      held before), otherwise it is shown at once. */
  function SetStatusGuarded(h: Header, text: string, kind: string): (g: Header)
    ensures BannerUp(h) ==> g.line == h.line && g.pendingText == Some(text) && g.pendingKind == Some(kind)
    ensures !BannerUp(h) ==> g.line == Status(text, kind) && g.pendingText == h.pendingText
    ensures g.startup == h.startup && g.hotkey == h.hotkey && g.lastCounts == h.lastCounts
  {
    if BannerUp(h) then h.(pendingText := Some(text), pendingKind := Some(kind))
    else h.(line := Status(text, kind))
  }

  /** `_update_header_counts` after counting: the counts are kept, and shown unless a
      banner is up. */
  function ShowCounts(h: Header, active: nat, expired: nat): (g: Header)
    ensures g.lastCounts == Some((active, expired))
    ensures BannerUp(h) ==> g.line == h.line
    ensures !BannerUp(h) ==> g.line == Counts(active, expired)
  {
    var g := h.(lastCounts := Some((active, expired)));
    if BannerUp(h) then g else g.(line := Counts(active, expired))
  }

  /** `_show_hotkey_info`: the startup banner gives way to the hot-key banner. */
  function ShowHotkeyInfo(h: Header, keyboardOk: bool, hotkey: string): (g: Header)
    ensures !g.startup && g.hotkey && BannerUp(g)
    ensures g.pendingText == h.pendingText && g.lastCounts == h.lastCounts
  {
    var line := if keyboardOk then Status("Gyorsbillentyű: " + hotkey, "info")
                else Status("Gyorsbillentyű funkció nem elérhető", "warn");
    h.(startup := false, hotkey := true, line := line)
  }

  /** `_hide_hotkey_info`: shows the held-back status if its text is not empty, else the
      last counts if there are any. */
  function HideHotkeyInfo(h: Header): (g: Header)
    ensures !g.hotkey && g.startup == h.startup && g.lastCounts == h.lastCounts
    ensures h.pendingText.Some? && h.pendingText.value != "" ==>
      g.line == Status(h.pendingText.value, KindOr(h.pendingKind)) && g.pendingText.None? && g.pendingKind.None?
    ensures (h.pendingText.None? || h.pendingText.value == "") && h.lastCounts.Some? ==>
      g.line == Counts(h.lastCounts.value.0, h.lastCounts.value.1) && g.pendingText == h.pendingText
    ensures (h.pendingText.None? || h.pendingText.value == "") && h.lastCounts.None? ==>
      g.line == h.line && g.pendingText == h.pendingText
  {
    var g := h.(hotkey := false);
    if h.pendingText.Some? && h.pendingText.value != "" then
      g.(line := Status(h.pendingText.value, KindOr(h.pendingKind)), pendingText := None, pendingKind := None)
    else if h.lastCounts.Some? then
      g.(line := Counts(h.lastCounts.value.0, h.lastCounts.value.1))
    else g
  }

  /** `self._pending_status_kind or "info"`. */
  function KindOr(kind: Option<string>): string {
    if kind.Some? && kind.value != "" then kind.value else "info"
  }

  /** A status set while the hot-key banner is up is not lost: when the banner goes, the
      last such status is shown, with its kind. */
  lemma HeldStatusShownLater(h: Header, t1: string, k1: string, t2: string, k2: string)
    requires !h.startup && h.hotkey && t2 != "" && k2 != ""
    ensures var g := HideHotkeyInfo(SetStatusGuarded(SetStatusGuarded(h, t1, k1), t2, k2));
      g.line == Status(t2, k2) && g.pendingText.None? && !BannerUp(g)
  {
  }

  /** Counts taken while the banner is up appear when it goes, unless a status waits. */
  lemma HeldCountsShownLater(h: Header, active: nat, expired: nat)
    requires !h.startup && h.hotkey && h.pendingText.None?
    ensures HideHotkeyInfo(ShowCounts(h, active, expired)).line == Counts(active, expired)
  {
  }

  /** A held-back status with an empty text is neither shown nor dropped: it stays held
      after the banner goes. */
  lemma EmptyHeldStatusStays(h: Header, kind: string)
    requires !h.startup && h.hotkey
    ensures HideHotkeyInfo(SetStatusGuarded(h, "", kind)).pendingText == Some("")
  {
  }

  // ---------------------------------------------------------------------------
  // Plans and buckets as the window reads them
  // ---------------------------------------------------------------------------

  /** A plan or bucket after `str(x.get("id") or "")` and `str(x.get(<label>) or "")`. */
  datatype Named = Named(id: string, name: string)

  /** `str(v or "")`. */
  function TextOr(v: Json): Option<string> {
    if Normalize.Truthy(v) then PyStr(v) else Some("")
  }

  /** A listed plan or bucket as the window reads it (the text Python gives for a list
      or object is not modelled). */
  function AsNamed(e: Entry): (n: Option<Named>)
    ensures e.id.JStr? && e.caption.JStr? ==> n == Some(Named(e.id.s, e.caption.s))
  {
    match (TextOr(e.id), TextOr(e.caption))
    case (Some(id), Some(name)) => Some(Named(id, name))
    case _ => None
  }

  /** The id of the first bucket called `name`. */
  function FirstIdByName(buckets: seq<Named>, name: string): (r: Option<string>)
    ensures r.Some? <==> exists i :: 0 <= i < |buckets| && buckets[i].name == name
    ensures r.Some? ==> exists i :: 0 <= i < |buckets| && buckets[i].name == name && buckets[i].id == r.value
    decreases |buckets|
  {
    if buckets == [] then None
    else if buckets[0].name == name then Some(buckets[0].id)
    else
      var r := FirstIdByName(buckets[1..], name);
      assert forall i :: 1 <= i < |buckets| ==> buckets[i] == buckets[1..][i - 1];
      r
  }

  /** The name of the first bucket whose id is `id`. */
  function FirstNameById(buckets: seq<Named>, id: string): (r: Option<string>)
    ensures r.Some? <==> exists i :: 0 <= i < |buckets| && buckets[i].id == id
    ensures r.Some? ==> exists i :: 0 <= i < |buckets| && buckets[i].id == id && buckets[i].name == r.value
    decreases |buckets|
  {
    if buckets == [] then None
    else if buckets[0].id == id then Some(buckets[0].name)
    else
      var r := FirstNameById(buckets[1..], id);
      assert forall i :: 1 <= i < |buckets| ==> buckets[i] == buckets[1..][i - 1];
      r
  }

  predicate DistinctIds(buckets: seq<Named>) {
    forall i, j :: 0 <= i < j < |buckets| ==> buckets[i].id != buckets[j].id
  }

  /** With distinct ids, the bucket found by name is found again by its id. */
  lemma {:induction false} NameThenId(buckets: seq<Named>, name: string)
    requires DistinctIds(buckets)
    requires FirstIdByName(buckets, name).Some?
    ensures FirstNameById(buckets, FirstIdByName(buckets, name).value) == Some(name)
    decreases |buckets|
  {
    if buckets[0].name != name {
      var rest := buckets[1..];
      assert DistinctIds(rest) by {
        forall i, j | 0 <= i < j < |rest|
          ensures rest[i].id != rest[j].id
        {
          assert rest[i] == buckets[i + 1] && rest[j] == buckets[j + 1];
        }
      }
      NameThenId(rest, name);
      var id := FirstIdByName(rest, name).value;
      var k :| 0 <= k < |rest| && rest[k].name == name && rest[k].id == id;
      assert buckets[k + 1].id == id;
    }
  }

  /** A bucket's shown name: `str(b.get("name") or "(Névtelen bucket)")`. */
  function BucketLabel(b: Named): string {
    if b.name == "" then "(Névtelen bucket)" else b.name
  }

  function BucketLabels(buckets: seq<Named>): (r: seq<string>)
    ensures |r| == |buckets| && forall i :: 0 <= i < |r| ==> r[i] == BucketLabel(buckets[i])
  {
    seq(|buckets|, i requires 0 <= i < |buckets| => BucketLabel(buckets[i]))
  }

  /** Orders texts as `sorted(xs, key=lambda s: s.lower())` does. */
  function LowerKey(s: string): Key {
    [KStr(Lower(s))]
  }

  /** The first entry of the bucket box when there are buckets to choose from. */
  const BUCKET_PROMPT := "— Válassz alap státusz —"

  /** The bucket part of `_on_plan_changed` for a known plan: the buckets offered, whether
      the box can be changed, the bucket chosen and the name put in the box, the status
      shown, and the remembered choices afterwards. */
  datatype Choice = Choice(bucket: Option<string>, options: seq<string>, enabled: bool,
                           boxName: Option<string>, status: Option<(string, string)>,
                           defaults: map<string, string>)

  /** Whether a plan with several buckets gets its remembered bucket back: it is
      remembered, and still there under a non-empty name. */
  predicate Restores(plan: string, buckets: seq<Named>, defaults: map<string, string>) {
    && |buckets| > 1 && plan in defaults && defaults[plan] != ""
    && FirstNameById(buckets, defaults[plan]).Some? && FirstNameById(buckets, defaults[plan]).value != ""
  }

  /** `_on_plan_changed` once the plan's buckets are loaded (a failed load counts as no
      bucket): a single bucket is taken as it is, and of several the one remembered for
      the plan is chosen again if it is still there under a name.  Filling the box does
      not signal, but putting the remembered name in it does: unless the name is the
      prompt itself, `_on_bucket_changed` runs at that point, before the remembered id is
      set, and saves the first bucket of that name as the plan's default. */
  function ChooseBucket(plan: string, buckets: seq<Named>, defaults: map<string, string>): (c: Choice)
    ensures buckets == [] ==>
      c.bucket.None? && !c.enabled && c.options == [] && c.boxName.None?
      && c.status == Some(("Nincs bucket ebben a tervben.", "warn"))
    ensures |buckets| == 1 ==>
      c.bucket == Some(buckets[0].id) && !c.enabled
      && c.options == [BucketLabel(buckets[0])] && c.boxName.None? && c.status == Some(("Egy alap státusz", "ok"))
    ensures |buckets| <= 1 ==> c.defaults == defaults
    ensures |buckets| > 1 ==>
      c.enabled && SortedBy(c.options, LowerKey) && multiset(c.options) == multiset(BucketLabels(buckets))
    ensures c.bucket.Some? && |buckets| > 1 <==> Restores(plan, buckets, defaults)
    ensures Restores(plan, buckets, defaults) ==>
      c.bucket == Some(defaults[plan]) && c.boxName == FirstNameById(buckets, defaults[plan])
    ensures c.bucket.None? ==> c.boxName.None?
    ensures |buckets| > 1 && !Restores(plan, buckets, defaults) ==> c.status.None? && c.defaults == defaults
    ensures Restores(plan, buckets, defaults) ==>
      var name := FirstNameById(buckets, defaults[plan]).value;
      var echoed := FirstIdByName(buckets, name);
      && echoed.Some?
      && (name != BUCKET_PROMPT && plan != "" && echoed.value != "" ==>
            c.status == Some(("Alap státusz elmentve.", "ok")) && c.defaults == defaults[plan := echoed.value])
      && (name == BUCKET_PROMPT || plan == "" || echoed.value == "" ==>
            c.status.None? && c.defaults == defaults)
  {
    if buckets == [] then Choice(None, [], false, None, Some(("Nincs bucket ebben a tervben.", "warn")), defaults)
    else if |buckets| == 1 then
      Choice(Some(buckets[0].id), [BucketLabel(buckets[0])], false, None, Some(("Egy alap státusz", "ok")), defaults)
    else
      SortSorted(BucketLabels(buckets), LowerKey);
      var options := Sort(BucketLabels(buckets), LowerKey);
      if Restores(plan, buckets, defaults) then
        var name := FirstNameById(buckets, defaults[plan]).value;
        var echo := if name == BUCKET_PROMPT then Remembered(None, defaults, None)
                    else BucketChanged(Some(plan), buckets, name, None, defaults);
        Choice(Some(defaults[plan]), options, true, Some(name), echo.status, echo.defaults)
      else Choice(None, options, true, None, None, defaults)
  }

  predicate DistinctNames(buckets: seq<Named>) {
    forall i, j :: 0 <= i < j < |buckets| ==> buckets[i].name != buckets[j].name
  }

  /** With distinct names, the bucket found by id is found again by its name. */
  lemma IdThenName(buckets: seq<Named>, id: string)
    requires DistinctNames(buckets)
    requires FirstNameById(buckets, id).Some?
    ensures FirstIdByName(buckets, FirstNameById(buckets, id).value) == Some(id)
  {
    var name := FirstNameById(buckets, id).value;
    var k :| 0 <= k < |buckets| && buckets[k].id == id && buckets[k].name == name;
    var i :| 0 <= i < |buckets| && buckets[i].name == name && buckets[i].id == FirstIdByName(buckets, name).value;
    assert i == k;
  }

  /** When bucket names are distinct, restoring the remembered bucket saves the same
      choice again, so the remembered choices do not change. */
  lemma ChooseBucketKeepsDefaults(plan: string, buckets: seq<Named>, defaults: map<string, string>)
    requires DistinctNames(buckets)
    ensures ChooseBucket(plan, buckets, defaults).defaults == defaults
  {
    if Restores(plan, buckets, defaults) {
      IdThenName(buckets, defaults[plan]);
      assert defaults[plan := defaults[plan]] == defaults;
    }
  }

  /** When two buckets share a name, restoring the second one saves the first as the
      plan's default, while the second stays chosen for this time. */
  lemma ChooseBucketMovesSharedDefault()
    ensures var c := ChooseBucket("p", [Named("a", "A"), Named("b", "A")], map["p" := "b"]);
      c.bucket == Some("b") && c.defaults == map["p" := "a"]
      && ChooseBucket("p", [Named("a", "A"), Named("b", "A")], c.defaults).bucket == Some("a")
  {
    var buckets := [Named("a", "A"), Named("b", "A")];
    assert FirstNameById(buckets, "b") == Some("A") by {
      assert buckets[1..] == [Named("b", "A")];
    }
    assert FirstNameById(buckets, "a") == Some("A");
    assert FirstIdByName(buckets, "A") == Some("a");
    assert "A" != BUCKET_PROMPT;
  }

  /** The outcome of `_on_bucket_changed`: the chosen bucket, the remembered choices and
      the status shown. */
  datatype Remembered = Remembered(bucket: Option<string>, defaults: map<string, string>, status: Option<(string, string)>)

  /** `_on_bucket_changed`: the first bucket with the chosen name becomes the plan's
      default; a name that matches no bucket, or one without an id, clears the choice. */
  function BucketChanged(plan: Option<string>, buckets: seq<Named>, name: string,
                         current: Option<string>, defaults: map<string, string>): (r: Remembered)
    ensures (plan.None? || plan.value == "" || buckets == []) ==> r == Remembered(current, defaults, None)
    ensures r.bucket.Some? && r.bucket != current ==>
      r.bucket == FirstIdByName(buckets, name) && r.bucket.value != ""
    ensures plan.Some? && plan.value != "" && buckets != [] ==>
      r.bucket == (if FirstIdByName(buckets, name).Some? && FirstIdByName(buckets, name).value != ""
                   then FirstIdByName(buckets, name) else None)
    ensures r.status.Some? <==> plan.Some? && plan.value != "" && buckets != [] && r.bucket.Some?
    ensures r.status.Some? ==>
      && r.status == Some(("Alap státusz elmentve.", "ok"))
      && plan.Some? && r.bucket.Some? && r.defaults == defaults[plan.value := r.bucket.value]
    ensures r.status.None? ==> r.defaults == defaults
  {
    if plan.None? || plan.value == "" || buckets == [] then Remembered(current, defaults, None)
    else
      match FirstIdByName(buckets, name)
      case Some(id) =>
        if id == "" then Remembered(None, defaults, None)
        else Remembered(Some(id), defaults[plan.value := id], Some(("Alap státusz elmentve.", "ok")))
      case None => Remembered(None, defaults, None)
  }

  /** Choosing a named bucket of a plan with several buckets and coming back to the plan
      later chooses the same bucket again. */
  lemma BucketRemembered(plan: string, buckets: seq<Named>, name: string, current: Option<string>,
                         defaults: map<string, string>)
    requires plan != "" && |buckets| > 1 && DistinctIds(buckets) && name != ""
    requires BucketChanged(Some(plan), buckets, name, current, defaults).status.Some?
    ensures var r := BucketChanged(Some(plan), buckets, name, current, defaults);
      ChooseBucket(plan, buckets, r.defaults).bucket == r.bucket
      && ChooseBucket(plan, buckets, r.defaults).boxName == Some(name)
  {
    NameThenId(buckets, name);
  }

  // ---------------------------------------------------------------------------
  // The plan labels
  // ---------------------------------------------------------------------------

  /** `str(p.get("title") or "").strip() or "(Névtelen terv)"`. */
  function PlanTitle(p: Named): (t: string)
    ensures t != ""
  {
    var s := Strip(p.name);
    if s == "" then "(Névtelen terv)" else s
  }

  /** The label of a plan: its title, or the title followed by the first six characters
      of its id when the title is already taken. */
  function PlanLabel(title: string, id: string, taken: map<string, Named>): string {
    if title in taken then title + " (" + IdPrefix(id) + "…)" else title
  }

  /** The plans with their titles in place of the raw title texts. */
  function TitledPlans(plans: seq<Named>): (r: seq<Named>)
    ensures |r| == |plans|
    ensures forall i :: 0 <= i < |plans| ==> r[i] == Named(plans[i].id, PlanTitle(plans[i]))
  {
    seq(|plans|, i requires 0 <= i < |plans| => Named(plans[i].id, PlanTitle(plans[i])))
  }

  /** The loop of `_load_plans_from_graph` over titled plans: plans without an id are
      skipped; each other plan adds a label, and the label's entry names that plan. */
  function CollectPlans(plans: seq<Named>, labels: seq<string>, byLabel: map<string, Named>): (r: (seq<string>, map<string, Named>))
    requires forall l :: l in labels ==> l in byLabel
    ensures forall l :: l in r.0 ==> l in r.1
    ensures |r.0| == |labels| + |Filter(plans, HasId)|
    ensures byLabel.Keys <= r.1.Keys
    decreases |plans|
  {
    if plans == [] then (labels, byLabel)
    else
      var p := plans[0];
      assert plans == [p] + plans[1..];
      FilterAppend([p], plans[1..], HasId);
      FilterOne(p, HasId);
      if p.id == "" then CollectPlans(plans[1..], labels, byLabel)
      else
        var title := p.name;
        var l := PlanLabel(title, p.id, byLabel);
        CollectPlans(plans[1..], labels + [l], byLabel[l := Named(p.id, title)])
  }

  predicate HasId(p: Named) {
    p.id != ""
  }

  /** `_load_plans_from_graph`: the labels offered, sorted case-insensitively, and the plan
      each label selects.  The labels are those the loop produced, each as often as it
      produced it (`CollectLabels` states how each is formed). */
  function PlanLabels(plans: seq<Named>): (r: (seq<string>, map<string, Named>))
    ensures forall l :: l in r.0 ==> l in r.1
    ensures |r.0| == |Filter(TitledPlans(plans), HasId)|
    ensures multiset(r.0) == multiset(CollectPlans(TitledPlans(plans), [], map[]).0)
    ensures SortedBy(r.0, LowerKey)
  {
    var (labels, byLabel) := CollectPlans(TitledPlans(plans), [], map[]);
    SortSorted(labels, LowerKey);
    var sorted := Sort(labels, LowerKey);
    assert forall l :: l in sorted ==> l in labels by {
      forall l | l in sorted
        ensures l in labels
      {
        assert l in multiset(sorted);
      }
    }
    (sorted, byLabel)
  }

  /** The label a plan gets after the labels `earlier`: its title, unless an earlier
      label already is that title; then the title followed by the first six characters
      of the plan's id. */
  function LabelAfter(p: Named, earlier: seq<string>): (l: string)
    ensures p.name !in earlier ==> l == p.name
    ensures p.name in earlier ==> |l| > |p.name| && l[..|p.name|] == p.name
  {
    if p.name in earlier then p.name + " (" + IdPrefix(p.id) + "…)" else p.name
  }

  /** From position `n` on, `r` holds one label per plan of `kept`, each `LabelAfter` the
      labels before it. */
  predicate FollowsRule(r: seq<string>, n: nat, kept: seq<Named>) {
    |r| == n + |kept| && forall k :: 0 <= k < |kept| ==> r[n + k] == LabelAfter(kept[k], r[..n + k])
  }

  /** The label rule of the plan loop: the plans with an id are labelled in their order,
      each by `LabelAfter` the labels before it. */
  lemma {:induction false} CollectLabels(plans: seq<Named>, labels: seq<string>, byLabel: map<string, Named>)
    requires forall l :: l in byLabel <==> l in labels
    ensures var r := CollectPlans(plans, labels, byLabel).0;
      var kept := Filter(plans, HasId);
      && |r| >= |labels| && r[..|labels|] == labels
      && FollowsRule(r, |labels|, kept)
    decreases |plans|, 0
  {
    if plans != [] {
      var p := plans[0];
      var rest := plans[1..];
      assert plans == [p] + rest;
      if p.id == "" {
        FilterAppend([p], rest, HasId);
        FilterOne(p, HasId);
        CollectLabels(rest, labels, byLabel);
      } else {
        CollectLabelsStep(p, rest, labels, byLabel);
      }
    }
  }

  /** One labelled plan of `CollectLabels`. */
  lemma {:induction false} CollectLabelsStep(p: Named, rest: seq<Named>, labels: seq<string>, byLabel: map<string, Named>)
    requires forall l :: l in byLabel <==> l in labels
    requires HasId(p)
    ensures var r := CollectPlans([p] + rest, labels, byLabel).0;
      var kept := Filter([p] + rest, HasId);
      && |r| >= |labels| && r[..|labels|] == labels
      && FollowsRule(r, |labels|, kept)
    decreases |rest|, 1
  {
    var plans := [p] + rest;
    assert plans[0] == p && plans[1..] == rest;
    var l := PlanLabel(p.name, p.id, byLabel);
    assert p.name in byLabel <==> p.name in labels;
    var m := byLabel[l := Named(p.id, p.name)];
    var labels' := labels + [l];
    assert forall x :: x in m <==> x in labels';
    CollectLabels(rest, labels', m);
    var r := CollectPlans(rest, labels', m).0;
    assert CollectPlans(plans, labels, byLabel).0 == r;
    FilterAppend([p], rest, HasId);
    FilterOne(p, HasId);
    assert Filter(plans, HasId) == [p] + Filter(rest, HasId);
    assert r[..|labels'|] == labels';
    assert r[..|labels|] == labels'[..|labels|] == labels;
    assert r[|labels|] == labels'[|labels|] == l;
    assert l == LabelAfter(p, r[..|labels|]);
    ShiftLabels(r, |labels|, |labels'|, p, Filter(rest, HasId));
  }

  /** Adding one labelled plan in front keeps the label rule. */
  lemma ShiftLabels(r: seq<string>, n: nat, n': nat, p: Named, kept: seq<Named>)
    requires n' == n + 1 && FollowsRule(r, n', kept)
    requires r[n] == LabelAfter(p, r[..n])
    ensures FollowsRule(r, n, [p] + kept)
  {
    var q := [p] + kept;
    forall k | 0 <= k < |q|
      ensures r[n + k] == LabelAfter(q[k], r[..n + k])
    {
      if k > 0 {
        var j := k - 1;
        assert q[k] == kept[j];
        assert n + k == n' + j;
        assert r[n' + j] == LabelAfter(kept[j], r[..n' + j]);
      }
    }
  }

  /** No titled plan with an id has the title `l`. */
  predicate NoPlanTitled(plans: seq<Named>, l: string) {
    forall j :: 0 <= j < |plans| && HasId(plans[j]) ==> plans[j].name != l
  }

  /** The titled plans with an id have pairwise different titles. */
  predicate DistinctTitles(plans: seq<Named>) {
    forall i, j :: 0 <= i < j < |plans| && HasId(plans[i]) && HasId(plans[j]) ==>
      plans[i].name != plans[j].name
  }

  /** Entries whose label no later plan takes as its title are kept. */
  lemma {:induction false} CollectKeeps(plans: seq<Named>, labels: seq<string>, byLabel: map<string, Named>, l: string)
    requires forall x :: x in labels ==> x in byLabel
    requires DistinctTitles(plans)
    requires forall j :: 0 <= j < |plans| && HasId(plans[j]) ==> plans[j].name !in byLabel
    requires l in byLabel && NoPlanTitled(plans, l)
    ensures l in CollectPlans(plans, labels, byLabel).1
    ensures CollectPlans(plans, labels, byLabel).1[l] == byLabel[l]
    decreases |plans|
  {
    if plans != [] {
      var p := plans[0];
      var rest := plans[1..];
      assert forall j :: 0 <= j < |rest| ==> rest[j] == plans[j + 1];
      assert DistinctTitles(rest) by {
        forall x, y | 0 <= x < y < |rest| && HasId(rest[x]) && HasId(rest[y])
          ensures rest[x].name != rest[y].name
        {
          assert rest[x] == plans[x + 1] && rest[y] == plans[y + 1];
        }
      }
      if p.id == "" {
        CollectKeeps(rest, labels, byLabel, l);
      } else {
        var title := p.name;
        assert PlanLabel(title, p.id, byLabel) == title;
        var m := byLabel[title := Named(p.id, title)];
        assert l != title;
        forall j | 0 <= j < |rest| && HasId(rest[j])
          ensures rest[j].name !in m
        {
          assert rest[j] == plans[j + 1];
        }
        CollectKeeps(rest, labels + [title], m, l);
      }
    }
  }

  lemma {:induction false} CollectByTitle(plans: seq<Named>, labels: seq<string>, byLabel: map<string, Named>, i: int)
    requires forall l :: l in labels ==> l in byLabel
    requires DistinctTitles(plans)
    requires forall j :: 0 <= j < |plans| && HasId(plans[j]) ==> plans[j].name !in byLabel
    requires 0 <= i < |plans| && HasId(plans[i])
    ensures plans[i].name in CollectPlans(plans, labels, byLabel).1
    ensures CollectPlans(plans, labels, byLabel).1[plans[i].name] == Named(plans[i].id, plans[i].name)
    decreases |plans|
  {
    var p := plans[0];
    var rest := plans[1..];
    assert forall j :: 0 <= j < |rest| ==> rest[j] == plans[j + 1];
    assert DistinctTitles(rest) by {
      forall x, y | 0 <= x < y < |rest| && HasId(rest[x]) && HasId(rest[y])
        ensures rest[x].name != rest[y].name
      {
        assert rest[x] == plans[x + 1] && rest[y] == plans[y + 1];
      }
    }
    if p.id == "" {
      CollectByTitle(rest, labels, byLabel, i - 1);
    } else {
      var title := p.name;
      assert PlanLabel(title, p.id, byLabel) == title;
      var m := byLabel[title := Named(p.id, title)];
      forall j | 0 <= j < |rest| && HasId(rest[j])
        ensures rest[j].name !in m
      {
        assert rest[j] == plans[j + 1];
      }
      if i == 0 {
        assert NoPlanTitled(rest, title) by {
          forall j | 0 <= j < |rest| && HasId(rest[j])
            ensures rest[j].name != title
          {
            assert rest[j] == plans[j + 1];
          }
        }
        CollectKeeps(rest, labels + [title], m, title);
      } else {
        CollectByTitle(rest, labels + [title], m, i - 1);
      }
    }
  }

  /** When the plans have different titles, every plan with an id is offered under its
      own title, and that label selects it. */
  lemma EveryPlanSelectable(plans: seq<Named>, i: int)
    requires DistinctTitles(TitledPlans(plans))
    requires 0 <= i < |plans| && HasId(plans[i])
    ensures var (labels, byLabel) := PlanLabels(plans);
      PlanTitle(plans[i]) in byLabel && byLabel[PlanTitle(plans[i])] == Named(plans[i].id, PlanTitle(plans[i]))
  {
    CollectByTitle(TitledPlans(plans), [], map[], i);
  }

  /** The first six characters of a plan id, as the label suffix shows them. */
  function IdPrefix(id: string): string {
    id[..if |id| < 6 then |id| else 6]
  }

  /** The suffix does not always tell plans apart: of three titled plans with one title,
      the last two get the same label when their ids start alike, and the second plan can
      no longer be selected. */
  lemma PlanLabelsCollide(a: Named, b: Named, c: Named)
    requires HasId(a) && HasId(b) && HasId(c) && b.id != a.id && b.id != c.id
    requires a.name == b.name == c.name
    requires IdPrefix(b.id) == IdPrefix(c.id)
    ensures var (labels, byLabel) := CollectPlans([a, b, c], [], map[]);
      var shared := b.name + " (" + IdPrefix(b.id) + "…)";
      && labels == [a.name, shared, shared]
      && forall l :: l in byLabel ==> byLabel[l].id != b.id
  {
    var t := a.name;
    var shared := t + " (" + IdPrefix(b.id) + "…)";
    var m1 := map[t := Named(a.id, t)];
    var m2 := m1[shared := Named(b.id, t)];
    var m3 := m2[shared := Named(c.id, t)];
    assert CollectPlans([a, b, c], [], map[]) == CollectPlans([b, c], [t], m1) by {
      assert [a, b, c][0] == a && [a, b, c][1..] == [b, c];
      assert PlanLabel(t, a.id, map[]) == t;
      assert [] + [t] == [t];
    }
    assert CollectPlans([b, c], [t], m1) == CollectPlans([c], [t, shared], m2) by {
      assert [b, c][0] == b && [b, c][1..] == [c];
      assert PlanLabel(t, b.id, m1) == shared;
      assert [t] + [shared] == [t, shared];
    }
    assert CollectPlans([c], [t, shared], m2) == ([t, shared, shared], m3) by {
      assert [c][0] == c && [c][1..] == [];
      assert PlanLabel(t, c.id, m2) == shared by {
        assert t in m2;
      }
      assert [t, shared] + [shared] == [t, shared, shared];
    }
    assert m3.Keys == {t, shared};
  }

  // ---------------------------------------------------------------------------
  // Adding a task
  // ---------------------------------------------------------------------------

  /** What pressing the add button leads to: a status message, or a `create_task` job. */
  datatype Added = Refused(message: string, kind: string) | Create(title: string, bucketId: string, planId: string, due: Option<string>)

  /** The bucket a new task goes to: the plan's only bucket, else the chosen one. */
  function BucketFor(buckets: seq<Named>, chosen: Option<string>): string {
    if |buckets| == 1 then buckets[0].id else chosen.GetOr("")
  }

  /** The checks of `_on_add_clicked` once the title and due texts are stripped and the
      due text has been validated, in the window's order: the first that fails decides
      the message. */
  function AddChecked(t: string, d: string, v: Verdict, plan: Option<string>, buckets: seq<Named>,
                      chosen: Option<string>): (a: Added)
    ensures t == "" ==> a == Refused("Hiányzó név", "error")
    ensures t != "" && !v.ok && v.message.Some? && v.message.value != "" ==> a == Refused(v.message.value, "error")
    ensures t != "" && !v.ok && (v.message.None? || v.message.value == "") ==> a == Refused("Hibás dátum", "error")
    ensures t != "" && v.ok && (plan.None? || plan.value == "") ==> a == Refused("Válassz csoportot.", "warn")
    ensures t != "" && v.ok && plan.Some? && plan.value != "" && |buckets| > 1 && (chosen.None? || chosen.value == "") ==>
      a == Refused("Több bucket van: válassz alap státuszt.", "warn")
    ensures (t != "" && v.ok && plan.Some? && plan.value != "" && !(|buckets| > 1 && (chosen.None? || chosen.value == ""))
      && BucketFor(buckets, chosen) == "") ==> a == Refused("Nincs státusz kiválasztva.", "warn")
    ensures a.Create? <==> t != "" && v.ok && plan.Some? && plan.value != "" && BucketFor(buckets, chosen) != ""
    ensures a.Create? ==> a == Create(t, BucketFor(buckets, chosen), plan.value, if d == "" then None else Some(d))
  {
    if t == "" then Refused("Hiányzó név", "error")
    else if !v.ok then Refused(if v.message.Some? && v.message.value != "" then v.message.value else "Hibás dátum", "error")
    else if plan.None? || plan.value == "" then Refused("Válassz csoportot.", "warn")
    else if |buckets| > 1 && (chosen.None? || chosen.value == "") then
      Refused("Több bucket van: válassz alap státuszt.", "warn")
    else
      var bucketId := BucketFor(buckets, chosen);
      if bucketId == "" then Refused("Nincs státusz kiválasztva.", "warn")
      else Create(t, bucketId, plan.value, if d == "" then None else Some(d))
  }

  /** `_on_add_clicked` with the plan's loaded buckets, validating the due text with
      `validate_ymd` as written: any ten-character text with dashes at positions 4 and 7
      that `strptime` reads is accepted and sent on unchanged. */
  function AddTask(title: string, due: string, plan: Option<string>, buckets: seq<Named>, chosen: Option<string>): (a: Added)
    ensures Strip(title) == "" ==> a == Refused("Hiányzó név", "error")
    ensures Strip(title) != "" && !ValidateYmdAsWritten(Strip(due)).ok ==> a == Refused(FORMAT_ERROR, "error")
    ensures a.Create? <==> (Strip(title) != ""
      && (Strip(due) == "" || (DashShape(Strip(due)) && Parse(Strip(due)).Some?))
      && plan.Some? && plan.value != "" && BucketFor(buckets, chosen) != "")
    ensures a.Create? ==> (a.title == Strip(title) && a.planId == plan.value
      && a.bucketId == BucketFor(buckets, chosen)
      && (a.due.None? <==> Strip(due) == "") && (a.due.Some? ==> a.due.value == Strip(due)))
  {
    AddChecked(Strip(title), Strip(due), ValidateYmdAsWritten(Strip(due)), plan, buckets, chosen)
  }

  /** The add-task form with the corrected validator: only real `YYYY-MM-DD` dates pass. */
  function AddTaskCorrected(title: string, due: string, plan: Option<string>, buckets: seq<Named>,
                            chosen: Option<string>): (a: Added)
    ensures Strip(title) == "" ==> a == Refused("Hiányzó név", "error")
    ensures Strip(title) != "" && !ValidateYmd(Strip(due)).ok ==> a == Refused(FORMAT_ERROR, "error")
    ensures a.Create? <==> (Strip(title) != "" && ValidateYmd(Strip(due)).ok
      && plan.Some? && plan.value != "" && BucketFor(buckets, chosen) != "")
    ensures a.Create? ==> (a.title == Strip(title) && a.planId == plan.value
      && a.bucketId == BucketFor(buckets, chosen)
      && (a.due.None? <==> Strip(due) == "") && (a.due.Some? ==> a.due.value == Strip(due)))
  {
    AddChecked(Strip(title), Strip(due), ValidateYmd(Strip(due)), plan, buckets, chosen)
  }

  /** A task the form accepts with a due date reaches the server with that text at noon
      UTC, and the text reads back as a date; it need not be that date's own rendering
      (see `AddTaskSendsSpacedDay`). */
  lemma AddedDueReachesServer(title: string, due: string, plan: Option<string>, buckets: seq<Named>,
                              chosen: Option<string>, me: string, reply: Reply)
    requires me != ""
    requires AddTask(title, due, plan, buckets, chosen).Create?
    requires AddTask(title, due, plan, buckets, chosen).due.Some?
    ensures var a := AddTask(title, due, plan, buckets, chosen);
      var c := CreateTaskCall(true, Some(me), a.title, a.bucketId, a.planId, a.due, reply);
      && DashShape(a.due.value)
      && ParseDue(a.due.value).Some? && ParseDue(a.due.value) == Parse(a.due.value)
      && c.sent.Some? && c.sent.value.task.due == Some(DueDateTime(a.due.value))
  {
    var a := AddTask(title, due, plan, buckets, chosen);
    assert a.due.value != NO_DEADLINE by {
      assert |NO_DEADLINE| != 10;
    }
  }

  /** With the corrected validator the date sent is the rendering of a real date, which
      reads back as that date. */
  lemma AddedDueReachesServerCorrected(title: string, due: string, plan: Option<string>, buckets: seq<Named>,
                                       chosen: Option<string>, me: string, reply: Reply)
    requires me != ""
    requires AddTaskCorrected(title, due, plan, buckets, chosen).Create?
    requires AddTaskCorrected(title, due, plan, buckets, chosen).due.Some?
    ensures var a := AddTaskCorrected(title, due, plan, buckets, chosen);
      var c := CreateTaskCall(true, Some(me), a.title, a.bucketId, a.planId, a.due, reply);
      && ParseDue(a.due.value).Some?
      && Format(ParseDue(a.due.value).value) == a.due.value
      && c.sent.Some? && c.sent.value.task.due == Some(DueDateTime(a.due.value))
  {
    var a := AddTaskCorrected(title, due, plan, buckets, chosen);
    ValidateYmdAcceptsExactlyDates(a.due.value);
    var date :| IsValid(date) && Format(date) == a.due.value;
    ParseDueFormat(date);
  }

  /** The discrepancy at the form: a day typed as a space and a digit creates the task
      with that text as its due date, while the corrected form refuses it. */
  lemma AddTaskSendsSpacedDay()
    ensures AddTask("x", "2024-01- 5", Some("p"), [Named("b", "n")], None) == Create("x", "b", "p", Some("2024-01- 5"))
    ensures AddTaskCorrected("x", "2024-01- 5", Some("p"), [Named("b", "n")], None) == Refused(FORMAT_ERROR, "error")
  {
    SpacedDayCreated();
    SpacedDayRefused();
  }

  lemma SpacedDayCreated()
    ensures AddTask("x", "2024-01- 5", Some("p"), [Named("b", "n")], None) == Create("x", "b", "p", Some("2024-01- 5"))
  {
    StripNoBlankEnds("x");
    StripNoBlankEnds("2024-01- 5");
    ValidateYmdAcceptsSpacedDay();
    assert BucketFor([Named("b", "n")], None) == "b";
  }

  lemma SpacedDayRefused()
    ensures AddTaskCorrected("x", "2024-01- 5", Some("p"), [Named("b", "n")], None) == Refused(FORMAT_ERROR, "error")
  {
    StripNoBlankEnds("x");
    StripNoBlankEnds("2024-01- 5");
    ValidateYmdAcceptsSpacedDay();
  }

  // ---------------------------------------------------------------------------
  // A finished fetch
  // ---------------------------------------------------------------------------

  /** Python's `part in s` on strings. */
  predicate Contains(s: string, part: string)
    decreases |s|
  {
    (|part| <= |s| && s[..|part|] == part) || (s != [] && Contains(s[1..], part))
  }

  /** What `_on_fetched` does with the job's result: a status line for an error, the view
      models for a task list (the text Python gives for list or object fields is not
      modelled). */
  datatype Outcome = ShowStatus(text: string, kind: string) | ShowTasks(tasks: seq<Task>)

  /** The view models of the records, in order. */
  function ViewModels(records: seq<Record>): (r: Option<seq<Task>>)
    ensures r.Some? <==> forall i :: 0 <= i < |records| ==> ViewModel(records[i]).Some?
    ensures r.Some? ==> |r.value| == |records|
    ensures r.Some? ==> forall i :: 0 <= i < |records| ==> r.value[i] == ViewModel(records[i]).value
    decreases |records|
  {
    if records == [] then Some([])
    else
      assert forall i :: 1 <= i < |records| ==> records[i] == records[1..][i - 1];
      match (ViewModel(records[0]), ViewModels(records[1..]))
      case (Some(t), Some(rest)) => Some([t] + rest)
      case _ => None
  }

  /** `_on_fetched`: an error mentioning the missing sign-in asks the user to sign in,
      any other error is shown after "Hiba: ". */
  function OnFetched(e: Emitted): (o: Option<Outcome>)
    ensures e.EmitError? ==> o.Some? && o.value.ShowStatus? && o.value.kind == "warn"
    ensures e.EmitError? && Contains(e.error.GetOr(""), NOT_LOGGED_IN) ==>
      o == Some(ShowStatus("Jelentkezz be a frissítéshez.", "warn"))
    ensures e.EmitError? && !Contains(e.error.GetOr(""), NOT_LOGGED_IN) ==>
      o == Some(ShowStatus("Hiba: " + e.error.GetOr(""), "warn"))
    ensures e.EmitTasks? ==> (o.Some? <==> ViewModels(e.records).Some?)
    ensures e.EmitTasks? && ViewModels(e.records).Some? ==> o == Some(ShowTasks(ViewModels(e.records).value))
  {
    match e
    case EmitError(err) =>
      var text := err.GetOr("");
      if Contains(text, NOT_LOGGED_IN) then Some(ShowStatus("Jelentkezz be a frissítéshez.", "warn"))
      else Some(ShowStatus("Hiba: " + text, "warn"))
    case EmitTasks(records) =>
      match ViewModels(records)
      case Some(tasks) => Some(ShowTasks(tasks))
      case None => None
  }

  /** A fetch without a signed-in user ends with the request to sign in. */
  lemma SignedOutFetchAsksToSignIn(legacy: bool)
    ensures OnFetched(FetchValue(Failure(NotLoggedIn), legacy)) == Some(ShowStatus("Jelentkezz be a frissítéshez.", "warn"))
  {
    assert NOT_LOGGED_IN[..|NOT_LOGGED_IN|] == NOT_LOGGED_IN;
  }

  /** A fetched list shows its tasks one for one, whatever the order they came in. */
  lemma FetchedTasksShown(records: seq<Record>)
    requires forall i :: 0 <= i < |records| ==> records[i].id.JStr? && records[i].title.JStr? && records[i].date.JStr?
    ensures var o := OnFetched(EmitTasks(records));
      && o.Some? && o.value.ShowTasks? && |o.value.tasks| == |records|
      && forall i :: 0 <= i < |records| ==>
        o.value.tasks[i] == Task(records[i].id.s, records[i].title.s, records[i].status, records[i].date.s, records[i].priority)
  {
  }
}

=== FILE: workers.dfy ===
/** What the background jobs of qt_workers.py hand back to the window.  An action job
    (`ActionRunnable.run`) turns whatever the backend function returned, or the exception
    it raised, into an `(ok, message)` pair; a fetch job (`FetchRunnable.run`) passes the
    result of `fetch_data` on, or an error dictionary when it raised. */
module Workers {
  import opened Wrappers
  import opened PyText
  import opened Normalize
  import opened Graph

  /** A plain Python value a backend function may return or put in a tuple. */
  datatype Scalar = SNone | SBool(b: bool) | SInt(i: int) | SStr(s: string)

  /** A backend function's return value: a plain value or a tuple of plain values. */
  datatype Returned = Plain(v: Scalar) | Tuple(items: seq<Scalar>)

  /** The same value as the JSON reader would give it, so that truthiness is defined once. */
  function ScalarJson(v: Scalar): Json {
    match v
    case SNone => JNull
    case SBool(b) => JBool(b)
    case SInt(i) => JInt(i)
    case SStr(s) => JStr(s)
  }

  /** Python's `bool(v)` for a plain value. */
  predicate ScalarTruthy(v: Scalar) {
    Truthy(ScalarJson(v))
  }

  /** Python's `bool(res)`. */
  predicate ReturnedTruthy(r: Returned) {
    match r
    case Plain(v) => ScalarTruthy(v)
    case Tuple(items) => items != []
  }

  /** Python's `str(v)`. */
  function Str(v: Scalar): string {
    match v
    case SNone => "None"
    case SBool(b) => if b then "True" else "False"
    case SInt(i) => IntToString(i)
    case SStr(s) => s
  }

  /** The normalisation of `ActionRunnable.run`: a pair gives `(bool(res[0]),
      str(res[1] or ""))`; anything else gives `(bool(res), "")`. */
  function NormalizeResult(r: Returned): (out: (bool, string))
    ensures r.Tuple? && |r.items| == 2 ==> out.0 == ScalarTruthy(r.items[0])
    ensures r.Tuple? && |r.items| == 2 && !ScalarTruthy(r.items[1]) ==> out.1 == ""
    ensures r.Tuple? && |r.items| == 2 && ScalarTruthy(r.items[1]) ==> out.1 == Str(r.items[1])
    ensures r.Tuple? && |r.items| == 2 && r.items[1].SStr? ==> out.1 == r.items[1].s
    ensures !(r.Tuple? && |r.items| == 2) ==> out == (ReturnedTruthy(r), "")
  {
    if r.Tuple? && |r.items| == 2 then
      (ScalarTruthy(r.items[0]), if ScalarTruthy(r.items[1]) then Str(r.items[1]) else "")
    else (ReturnedTruthy(r), "")
  }

  /** The Python value a client call of the current backend returns: `(ok, message)`. */
  function AsReturned(c: Call): Returned {
    Tuple([SBool(c.ok), SStr(c.message)])
  }

  /** The older backend returns a bare boolean. */
  function AsLegacyReturned(c: Call): Returned {
    Plain(SBool(c.ok))
  }

  /** Normalising what the backend returned gives back the call's own answer: the pair
      unchanged from the current backend, and `(ok, "")` from the older one. */
  lemma NormalizeCallRoundTrip(c: Call)
    ensures NormalizeResult(AsReturned(c)) == (c.ok, c.message)
    ensures NormalizeResult(AsLegacyReturned(c)) == (c.ok, "")
  {
  }

  /** Normalising is idempotent: a normalised pair normalises to itself. */
  lemma NormalizeIdempotent(r: Returned)
    ensures var (ok, msg) := NormalizeResult(r);
      NormalizeResult(Tuple([SBool(ok), SStr(msg)])) == (ok, msg)
  {
  }

  /** How an action job ended. */
  datatype ActionOutcome = Returns(r: Returned) | Raises(error: string, trace: string)

  /** `ActionRunnable.run`: an exception becomes `(False, f"{e}\n{traceback}")`. */
  function ActionResult(o: ActionOutcome): (out: (bool, string))
    ensures o.Raises? ==> !out.0 && out.1 == o.error + "\n" + o.trace
    ensures o.Returns? ==> out == NormalizeResult(o.r)
  {
    match o
    case Returns(r) => NormalizeResult(r)
    case Raises(e, trace) => (false, e + "\n" + trace)
  }

  /** What a fetch job emits: the task list or a dictionary with an `error` key. */
  datatype Emitted = EmitTasks(records: seq<Record>) | EmitError(error: Option<string>)

  /** The value `fetch_data` returns, as the window receives it. */
  function FetchValue(r: Result<seq<Record>, FetchError>, legacy: bool): Emitted {
    match r
    case Success(records) => EmitTasks(records)
    case Failure(e) => EmitError(ErrorText(e, legacy))
  }

  /** How a fetch job ended: `fetch_data` itself catches everything inside it, but the
      job also guards against an exception escaping it. */
  datatype FetchOutcome = FetchReturns(r: Result<seq<Record>, FetchError>) | FetchRaises(error: string, trace: string)

  /** `FetchRunnable.run`: an exception is turned into `{"error": ...}` instead of
      propagating. */
  function FetchResult(o: FetchOutcome): (e: Emitted)
    ensures o.FetchRaises? ==> e == EmitError(Some(o.error + "\n" + o.trace))
    ensures o.FetchReturns? && o.r.Success? ==> e == EmitTasks(o.r.value)
    ensures o.FetchReturns? && o.r.Failure? ==> e.EmitError?
  {
    match o
    case FetchReturns(r) => FetchValue(r, false)
    case FetchRaises(err, trace) => EmitError(Some(err + "\n" + trace))
  }
}

=== FILE: wrappers.dfy ===
/** Failure-carrying values used throughout the model in place of Python's `None`
    and of the `(ok, value-or-message)` pairs the client returns. */
module Wrappers {

  /** A value that may be absent (Python `None`). */
  datatype Option<+T> = None | Some(value: T) {

    /** The value, or `default` when absent (Python `x or default` on optional values). */
    function GetOr(default: T): T {
      match this
      case Some(v) => v
      case None => default
    }
  }

  /** A success value or an error value. */
  datatype Result<+R, +E> = Success(value: R) | Failure(error: E) {

    predicate IsFailure() {
      Failure?
    }
  }

  /** Applies `f` to every item in order; the first failure aborts the whole sequence
      (a loop whose body may raise). */
  function MapAll<A, B, E>(items: seq<A>, f: A -> Result<B, E>): (r: Result<seq<B>, E>)
    ensures r.Success? <==> forall i :: 0 <= i < |items| ==> f(items[i]).Success?
    ensures r.Success? ==> (|r.value| == |items|
      && forall i :: 0 <= i < |items| ==> r.value[i] == f(items[i]).value)
    decreases |items|
  {
    if items == [] then Success([])
    else
      match f(items[0])
      case Failure(e) => Failure(e)
      case Success(first) =>
        match MapAll(items[1..], f)
        case Failure(e) =>
          assert forall i :: 1 <= i < |items| ==> items[i] == items[1..][i - 1];
          Failure(e)
        case Success(rest) =>
          assert forall i :: 1 <= i < |items| ==> items[i] == items[1..][i - 1];
          Success([first] + rest)
  }
}
